=== FILE: README.md ===
# almost-static-activitypub in Dafny

A model of the core of almost-static-activitypub: a static blog that takes
part in ActivityPub. An Azure Function receives inbox activities (Follow,
Undo, Create, Delete, QuoteRequest). It keeps followers, replies and quote
stamps in partitioned tables and regenerates the public collection documents
from them. Outgoing requests are signed with HTTP Signatures and a SHA-256
Digest. Three command-line tools complete the picture: Rss2Outbox turns an
RSS feed into a note per item and an outbox; BroadcastPost sends a note to
every follower; BoostPost announces new notes of an account to the followers.

Every operation is a pure function over an explicit world. The world holds
the tables, the blob store and the log of the GET and POST requests handed to
the transport. Failures are values (`Outcome`, with the .NET exception
kinds that the code raises or catches) instead of exceptions.

The modules follow the source files:

- `Wrappers`, `Errors`: `Option`, `Outcome` and the error kinds.
- `Strings`, `Uris`, `Crypto`: `Split`, `Join`, `Replace`, ordinal prefixes;
  a simplified `System.Uri` (see "Left out"); lower-case hex of
  digests. MD5, SHA-256, RSA and base64 are parameters.
- `Json`: a JSON tree whose member names are the C# property names, and the
  naming policies that decide the names they are written with (`Wire`).
- `Tables`, `Storage`, `Server`: a table as a list of keyed rows with unique
  keys, updates checked against ETags, the world (tables, blobs, request
  log), and the server configuration.
- `Http`, `Actors`, `ActorHelper`: requests and headers, the actor document,
  and the signed GET and POST of `ActorHelper`, including the signing string,
  the `Signature` and `Digest` headers, and the actor fetch.
- `InboxMessages`: the inbox message and its case-sensitive classification.
- `FollowerEntity`, `ReplyEntity`, `StampEntity`: the table rows and their
  keys.
- `FollowersGenerator`, `RepliesGenerator`, `StampsGenerator`: regeneration
  of the followers, replies and quote-stamp documents.
- `FollowService`, `RepliesService`, `QuoteRequestService`, `Inbox`: the
  inbox function and its handlers.
- `BroadcastPost`, `BoostPost`: the two delivery tools.
- `OutboxSettings`, `RssUtils`, `Rss2Outbox`: the feed converter.

## Model

| member | source | states |
|---|---|---|
| ActorHelper.DigestOf | src/ActivityPubDotNet.Core/ActorHelper.cs:102 | the digest is `SHA-256=` followed by base64 of SHA-256 of the document (`CreateHashSha256`, lines 33-40) |
| ActorHelper.BuildGet | src/ActivityPubDotNet.Core/ActorHelper.cs:41-72 | a signed GET exists exactly when the private key can sign the GET signing string; otherwise the key import fails; the request goes to the given URI with no body |
| ActorHelper.BuildPost | src/ActivityPubDotNet.Core/ActorHelper.cs:89-133 | a signed POST exists exactly when the key can sign the POST signing string built over the document's digest; the body is the document |
| ActorHelper.GetRequestHeaders | src/ActivityPubDotNet.Core/ActorHelper.cs:63-72 | the GET carries Host, the same Date that was signed, `Accept: application/activity+json`, and a Signature header naming the key id, `(request-target) host date` and the base64 signature |
| ActorHelper.PostRequestHeaders | src/ActivityPubDotNet.Core/ActorHelper.cs:102-133 | the POST carries Host, the signed Date, a Digest header equal to the digest inside the signing string, the activity+json content type and a Signature header naming `(request-target) host date digest` |
| ActorHelper.GetSignatureCoversRequest | src/ActivityPubDotNet.Core/ActorHelper.cs:54-72 | a verifier following section 2.3 of draft-cavage-http-signatures rebuilds, from the GET as sent, the signing string over the path and query; it equals the string that was signed, over the path alone, exactly when the URL has no query (see Findings) |
| ActorHelper.CorrectedGet | src/ActivityPubDotNet.Core/ActorHelper.cs:54 | the GET signed over the path and the query; it is the code's GET whenever the URL has no query |
| ActorHelper.CorrectedGetCovers | src/ActivityPubDotNet.Core/ActorHelper.cs:54-72 | for every URL, what a verifier rebuilds from the corrected GET is the string that was signed, and the Signature header carries that string's signature |
| ActorHelper.PostSignatureCoversRequest | src/ActivityPubDotNet.Core/ActorHelper.cs:102-128 | the same holds for POST, the digest line included: the rebuilt string matches the signed one exactly when the URL has no query |
| ActorHelper.CorrectedPost | src/ActivityPubDotNet.Core/ActorHelper.cs:106 | the POST signed over the path and the query; it is the code's POST whenever the URL has no query |
| ActorHelper.CorrectedPostCovers | src/ActivityPubDotNet.Core/ActorHelper.cs:102-128 | for every URL, what a verifier rebuilds from the corrected POST is the string that was signed, digest line included |
| ActorHelper.GetCoveredParameter | src/ActivityPubDotNet.Core/ActorHelper.cs:63 | the `headers` parameter of a GET is `(request-target) host date`, and splitting it gives the covered names back |
| ActorHelper.PostCoveredParameter | src/ActivityPubDotNet.Core/ActorHelper.cs:119 | the `headers` parameter of a POST is `(request-target) host date digest`, and splitting it gives the covered names back |
| ActorHelper.GetSigningLines | src/ActivityPubDotNet.Core/ActorHelper.cs:54 | the GET signing string splits on newlines into exactly the three lines target, host and date, with no trailing newline |
| ActorHelper.PostSigningLines | src/ActivityPubDotNet.Core/ActorHelper.cs:106 | the POST signing string splits into the same three lines with method `post`, then the digest line last |
| ActorHelper.GetSigningIsJoin | src/ActivityPubDotNet.Core/ActorHelper.cs:54 | the GET signing string is the three lines joined by newline |
| ActorHelper.PostSigningIsJoin | src/ActivityPubDotNet.Core/ActorHelper.cs:106 | the POST signing string is the four lines joined by newline |
| ActorHelper.GetHeadersFound | src/ActivityPubDotNet.Core/ActorHelper.cs:69-72 | each of the four GET headers is found under its lower-cased name with the value set |
| ActorHelper.PostHeadersFound | src/ActivityPubDotNet.Core/ActorHelper.cs:125-133 | each of the five POST headers is found under its lower-cased name with the value set |
| ActorHelper.Exchange | src/ActivityPubDotNet.Core/ActorHelper.cs:75-84 | a response succeeds exactly when its status is 2xx and then yields its body; any other status fails with that status |
| ActorHelper.SendGet | src/ActivityPubDotNet.Core/ActorHelper.cs:41-87 | at most one request is sent, exactly when signing succeeds, and it is the GET signed over path and query (see Findings); the call succeeds exactly when that request got a 2xx response |
| ActorHelper.SendPost | src/ActivityPubDotNet.Core/ActorHelper.cs:89-143 | a null target fails with a null reference and a malformed one with a URI format error, both before sending; otherwise the one POST signed over path and query is sent exactly when the key can sign it, and the call succeeds exactly on a 2xx answer |
| ActorHelper.FetchActor | src/ActivityPubDotNet.Core/ActorHelper.cs:21-31 | a missing URI fails with a null reference and a malformed one with a URI format error, both before any request; otherwise at most one signed GET of the actor URI is sent, and the result is Ok exactly when that GET got a 2xx whose body decodes as an actor, and is then that actor |
| Http.HeaderValue | src/ActivityPubDotNet.Core/ActorHelper.cs:69-72 | a header lookup returns a value exactly when some header has that name case-insensitively, and the value is that header's |
| Actors.PreferredInbox | src/BoostPost/Program.cs:192 | the shared inbox is used when the actor lists one, else the actor's own inbox |
| InboxMessages.KindOf | src/ActivityPubDotNet.Core/InboxMessage.cs:18-41 | each kind holds exactly when the type is that exact, case-sensitive word; any other type is `Other` |
| InboxMessages.PredicatesMatchKind | src/ActivityPubDotNet.Core/InboxMessage.cs:18-41 | each classification predicate holds exactly when the message's kind is its kind, and all are false exactly for an unrecognised type |
| InboxMessages.AtMostOnePredicate | src/ActivityPubDotNet.Core/InboxMessage.cs:18-41 | at most one classification predicate is true for any message |
| InboxMessages.CaseSensitive | src/ActivityPubDotNet.Core/InboxMessage.cs:20-25 | any type that spells one of the five recognised names in a different letter case is `Other` |
| InboxMessages.MessageJson | src/ActivityPubDotNet.Core/InboxMessage.cs:5-16 | a message serialises as an object of its nine properties |
| InboxMessages.MessageJsonFields | src/ActivityPubDotNet.Core/InboxMessage.cs:5-16 | each property is found under its own name with the message's value: the context kept as read under `@context`, `Actor`, `Cc`, `Id`, the object as read, `Published`, `State`, `To` and `Type` |
| Json.ConvertName | src/BroadcastPost/Program.cs:149-160 | every policy except CamelCase maps `_context` to `@context` (CamelCase leaves it unchanged, its first character not being upper case); the context-only policy leaves every other name unchanged; the lower-casing policies leave no upper-case first letter and keep the rest of the name |
| Json.ContextOnlyRenamesOnlyContext | src/ActivityPubDotNet.Core/Storage/StampsGenerator.cs:10-21 | the stamp policy changes a name exactly when it is `_context` |
| Json.LowerUpperAgreesWithLowerFirst | src/Rss2Outbox/Program.cs:191-207 | lower-casing the first letter only when it is upper-case gives the same name as lower-casing it always |
| Json.LowerFirst | src/BroadcastPost/Program.cs:158 | the first letter is lower-cased and the rest of the name kept |
| Json.WireNames | src/BroadcastPost/Program.cs:149-160 | the names an object is written with are its members' names passed through the policy, in order |
| Json.WireFrozen | src/ActivityPubDotNet.Core/InboxMessage.cs:12 | a value carried as an untyped object (an already-parsed JSON element) is written back unchanged under any policy |
| Storage.CreateTable | src/ActivityPubFunctions/RepliesService.cs:37 | creating a table if it does not exist adds that table and changes nothing else |
| Storage.Upload | src/ActivityPubDotNet.Core/Storage/FollowersGenerator.cs:74-88 | an unconditional upload creates or overwrites that one blob and leaves every other blob and table unchanged |
| Tables.Get | src/ActivityPubFunctions/FollowService.cs:42-56 | a lookup finds a value exactly when a row has that key, and the value is that row's |
| Tables.Add | src/ActivityPubFunctions/RepliesService.cs:54-56 | an insert succeeds exactly when the key is free, then stores the value under that key, appends it, and leaves every other key as it was; a taken key is a conflict |
| Tables.Delete | src/ActivityPubFunctions/FollowService.cs:71-81 | a delete succeeds exactly when the key is present, then removes exactly that row; a missing key is a not-found error |
| Tables.Remove | src/ActivityPubFunctions/FollowService.cs:76 | the rows without the one under the key: every other key keeps its value and the count drops by one exactly when the key was present |
| Tables.Replace | src/BoostPost/Program.cs:199-232 | updating a row with its current ETag changes that row's value, keeps its key and place, and leaves every other row unchanged |
| Tables.WithValues | src/BoostPost/Program.cs:201 | writing new values back to a table keeps every row's key and place and stores the given value at each |
| Tables.CheckedRun | src/BoostPost/Program.cs:201 | an update whose ETag is not the row's current one fails with 412 Precondition Failed and ends the run: no more updates go through than were asked, and none when the first one is stale |
| Tables.CheckedUpdates | src/BoostPost/Program.cs:201 | the updates before the first failing one take effect; when the first one is stale, none does and the table is unchanged |
| Tables.RefreshedRunAll | src/BoostPost/Program.cs:199-232 | with the ETag taken from every response, every update of a run passes the check |
| Tables.StaleExactlyStep | src/BoostPost/Program.cs:149-232 | with loaded ETags, a row not yet written still matches, and writing it makes it the one more stale row |
| Tables.RefreshedUpdatesApply | src/BoostPost/Program.cs:199-232 | a caller that takes the new ETag from every response gets every update through, and the table is the one unchecked replacement in the same order gives |
| Tables.StaleUpdatesStopAtRepeat | src/BoostPost/Program.cs:149-232 | a caller that keeps passing the ETags it loaded gets through exactly the updates before the first second write to a row |
| Tables.StaleStopsInSecondBatch | src/BoostPost/Program.cs:149-232 | with loaded ETags, a batch of updates to distinct rows goes through, and a following batch that writes one of them again stops the run inside it |
| Tables.AppliedAppend | src/BoostPost/Program.cs:199-232 | updates in two batches give the table the whole sequence gives |
| Strings.SplitLastIsAfterLast | src/ActivityPubDotNet.Core/Storage/Reply.cs:28 | the last piece of `Split('/')` is the text after the last `/`, empty when the text ends in `/` |
| Strings.SplitJoin | src/Rss2Outbox/Program.cs:68-73 | splitting pieces joined by a separator they lack gives the pieces back |
| Strings.LastNonEmptyPiece | src/BroadcastPost/Program.cs:103-119 | with empty pieces dropped, there are none exactly when the text is only separators, and otherwise the last one is the text after the last separator once trailing separators are trimmed |
| Strings.ReplaceCharIsJoinSplit | src/Rss2Outbox/RssUtils.cs:22 | replacing every newline with a string is splitting on newlines and joining with that string |
| Strings.ReplaceCharRemovesIt | src/Rss2Outbox/RssUtils.cs:22 | after the replacement no newline is left |
| Uris.Parse | src/BroadcastPost/Follower.cs:30-35 | a parsed absolute URI has a non-empty host with no `/` or `:` and a path that is empty or rooted |
| Uris.ParsePlain | src/Rss2Outbox/OutboxConfig.cs:31 | `scheme://host/path` with a lower-case scheme and a plain host parses back into exactly that scheme, host and path, with no port, query or fragment |
| Crypto.Hex | src/BroadcastPost/Follower.cs:49-54 | each byte becomes exactly two characters from `0-9a-f` |
| Crypto.UnhexHex | src/BroadcastPost/Follower.cs:40-56 | decoding the hex text gives the bytes back |
| Crypto.HexInjective | src/BroadcastPost/Follower.cs:40-56 | different digests never give the same hex text |
| Crypto.Md5Hex | src/Rss2Outbox/RssUtils.cs:45-62 | the MD5 hex of a text is 32 lower-case hex digits that decode to the MD5 of that text |
| FollowerEntity.GetFromMessage | src/BroadcastPost/Follower.cs:26-38 | a null actor is a null reference; otherwise the follower is derived from the actor URI |
| FollowerEntity.FromActor | src/BroadcastPost/Follower.cs:26-38 | a follower exists exactly when the actor URI parses; its row key is the 32-digit MD5 hex of the URI, its partition key the URI's host, its actor URI the input verbatim, and all three status fields are null |
| FollowerEntity.SameKeySameDigest | src/BroadcastPost/Follower.cs:28-35 | two actors with the same key have the same MD5 and the same host, so equal keys mean the same follower up to an MD5 collision |
| ReplyEntity.GetFromNote | src/ActivityPubDotNet.Core/Storage/Reply.cs:23-37 | a reply exists exactly when the note has an id and an in-reply-to; the row key is the MD5 hex of the note id, the partition key the text after the last `/` of in-reply-to and free of `/`, and the ids are copied |
| ReplyEntity.ReplyPartitionIsSlug | src/ActivityPubDotNet.Core/Storage/Reply.cs:28 | a reply to `…/slug` lands in partition `slug`, so replies to one note share a partition |
| StampEntity.GetFromQuoteRequest | src/ActivityPubDotNet.Core/Storage/Stamp.cs:27-43 | the row key is the MD5 hex of the stamp id, the partition key the text after the last `/` of the quoted URL and free of `/`; actor and request id are copied from the request, stamp id and quoted URL kept verbatim |
| FollowersGenerator.ActorUris | src/ActivityPubDotNet.Core/Storage/FollowersGenerator.cs:37-44 | one item per follower row, in row order, each that row's actor URI |
| FollowersGenerator.ListedIffStored | src/ActivityPubDotNet.Core/Storage/FollowersGenerator.cs:37-44 | a URI is listed exactly when some stored follower has it |
| FollowersGenerator.AddedFollowerListedLast | src/ActivityPubDotNet.Core/Storage/FollowersGenerator.cs:37-44 | a follower added to the table is listed after the ones already there, which keep their order |
| FollowersGenerator.DocumentOnWire | src/ActivityPubDotNet.Core/Storage/FollowersGenerator.cs:46-66 | the written page has `@context`, `id` and `partOf` both `Domain/socialweb/followers`, type `CollectionPage`, `totalItems` equal to the row count, and the actor URIs as items |
| FollowersGenerator.Generate | src/ActivityPubDotNet.Core/Storage/FollowersGenerator.cs:33-89 | with the followers table present, the page for the current rows is uploaded to `socialweb/followers` as activity+json, overwriting, and nothing else changes; without the table the query fails |
| RepliesGenerator.NoteId | src/ActivityPubDotNet.Core/Storage/RepliesGenerator.cs:38 | the note id is the text after the last `/` of the note URL and holds no `/` |
| RepliesGenerator.ReplyIds | src/ActivityPubDotNet.Core/Storage/RepliesGenerator.cs:41-48 | the items are exactly the ids of the reply rows in the note's partition, the partition the filter selects once the note id is escaped as an OData literal (see Findings) |
| RepliesGenerator.ReplyIdsAppend | src/ActivityPubDotNet.Core/Storage/RepliesGenerator.cs:41-48 | the items keep the rows' order: the ids of two tables laid end to end are the first table's ids followed by the second's |
| RepliesGenerator.DocumentOnWire | src/ActivityPubDotNet.Core/Storage/RepliesGenerator.cs:50-69 | the written page has `id` `Domain/socialweb/replies/{noteId}?page=true`, `partOf` the same without the query, type `CollectionPage` and the reply ids as items |
| RepliesGenerator.Generate | src/ActivityPubDotNet.Core/Storage/RepliesGenerator.cs:33-92 | with the replies table present, the page is uploaded to `socialweb/replies/{noteId}` as activity+json, overwriting, and nothing else changes |
| RepliesGenerator.EscapeQuotes | src/ActivityPubDotNet.Core/Storage/RepliesGenerator.cs:41 | escaping only lengthens a string, and strictly when it holds a quote |
| RepliesGenerator.ReadEscaped | src/ActivityPubDotNet.Core/Storage/RepliesGenerator.cs:41 | an escaped value followed by the closing quote reads back as that value, with the rest of the text after it |
| RepliesGenerator.ReadLiteralInverse | src/ActivityPubDotNet.Core/Storage/RepliesGenerator.cs:41 | any literal that reads is its value escaped, the closing quote and the rest |
| RepliesGenerator.QueryFilterSelects | src/ActivityPubDotNet.Core/Storage/RepliesGenerator.cs:41 | as written, the filter selects exactly the note's partition if and only if the note id has no quote |
| RepliesGenerator.QueryFilterInjected | src/ActivityPubDotNet.Core/Storage/RepliesGenerator.cs:41 | as written, the id `x' or PartitionKey ne '` gives a filter that compares with `x` and goes on with a clause every row meets |
| RepliesGenerator.EscapedFilterSelects | src/ActivityPubDotNet.Core/Storage/RepliesGenerator.cs:41 | with quotes doubled, the filter selects exactly the note's partition for every id |
| RepliesGenerator.NoteIdOfReply | src/ActivityPubDotNet.Core/Storage/RepliesGenerator.cs:38 | regenerating with a reply's note id looks in exactly that reply's partition |
| RepliesGenerator.StoredReplyListed | src/ActivityPubDotNet.Core/Storage/RepliesGenerator.cs:41-48 | a stored reply is listed in the page regenerated for its own note, with the note id escaped in the filter (see Findings) |
| StampsGenerator.DocumentOnWire | src/ActivityPubDotNet.Core/Storage/StampsGenerator.cs:30-68 | the stamp is written with `@context` and the names `type` (`QuoteAuthorization`), `id`, `attributedTo`, `interactingObject`, `interactionTarget` verbatim |
| StampsGenerator.WireContext | src/ActivityPubDotNet.Core/Storage/StampsGenerator.cs:32-52 | the JSON-LD context, whose keys are dictionary keys, is not renamed by the policy |
| StampsGenerator.BlobNameOf | src/ActivityPubDotNet.Core/Storage/StampsGenerator.cs:71-72 | the blob name exists exactly when the stamp id parses, and is the stamp's absolute path with all leading `/` removed |
| StampsGenerator.QuoteStampBlobName | src/ActivityPubDotNet.Core/Storage/StampsGenerator.cs:71-72 | a stamp id `scheme://host/socialweb/quotes/{g}` is stored at `socialweb/quotes/{g}` |
| StampsGenerator.GenerateStampFile | src/ActivityPubDotNet.Core/Storage/StampsGenerator.cs:27-92 | the stamp document is uploaded as activity+json at its blob name, overwriting any blob there and nothing else; a malformed stamp id fails before the upload |
| FollowService.CreateFollower | src/ActivityPubFunctions/FollowService.cs:30-57 | the followers table is created; a follower is stored under the actor's key only when that key is free, an existing row is left as it was, every other key is untouched, and a malformed actor fails with nothing stored |
| FollowService.CreateFollowerIdempotent | src/ActivityPubFunctions/FollowService.cs:42-56 | following twice has the same effect and outcome as following once, so one row remains |
| FollowService.DeleteFollower | src/ActivityPubFunctions/FollowService.cs:59-82 | the row under the actor's key is gone afterwards, every other key is untouched, an absent row leaves the table as it was and raises nothing |
| FollowService.Unfollow | src/ActivityPubFunctions/FollowService.cs:25-28 | unfollowing sends no request and changes no blob or reply: after a readable actor the follower's row is gone and every other row is as it was, and an unreadable actor changes no row and is the error |
| FollowService.FollowThenUnfollow | src/ActivityPubFunctions/FollowService.cs:36-76 | following then unfollowing the same actor leaves no row at that key and every other key as before |
| FollowService.AcceptOnWire | src/ActivityPubFunctions/FollowService.cs:95-112 | the Accept is written in camel case with id `target#accepts/follows/{actor id}`, actor the target, and an object holding the Follow's id, the actor's URL, type `Follow` and the target |
| FollowService.SendAcceptedFollowRequest | src/ActivityPubFunctions/FollowService.cs:84-117 | a null object is a null reference before any request; on success the actor was fetched first and the Accept built from the object text was then POSTed, signed, to that actor's inbox |
| FollowService.Follow | src/ActivityPubFunctions/FollowService.cs:19-23 | following stores the follower first; if that fails nothing is sent, otherwise the Accept's requests follow, and the call succeeds exactly when both steps do |
| RepliesService.NoteOf | src/ActivityPubFunctions/RepliesService.cs:39 | a null object is a null reference; the note's id and in-reply-to are the object's string members of those names, and an object without them gives a note with neither |
| RepliesService.AddReply | src/ActivityPubFunctions/RepliesService.cs:33-57 | the replies table is created first; a note with no in-reply-to, or one not starting with the domain as a plain prefix, adds nothing and regenerates nothing; otherwise exactly one reply is inserted under a free key and its note's page is regenerated |
| RepliesService.AddReplyTwiceConflicts | src/ActivityPubFunctions/RepliesService.cs:54-56 | delivering the same reply again fails with an insert conflict and changes nothing, so no regeneration happens |
| QuoteRequestService.IdsShareGuid | src/ActivityPubFunctions/QuoteRequestService.cs:66-68 | the Accept id and the stamp id both end in the same generated id |
| QuoteRequestService.QuoteAcceptFields | src/ActivityPubFunctions/QuoteRequestService.cs:70-86 | the Accept has type `Accept`, the generated Accept id, the server actor, `to` the requester, the whole request as object and the stamp id as result |
| QuoteRequestService.SendAcceptResponse | src/ActivityPubFunctions/QuoteRequestService.cs:105-127 | the actor fetch's requests come first; a failed fetch sends nothing more; the POST is sent exactly when the fetched requester has a well-formed inbox and the document can be signed, and it is the signed document to that inbox; every failure is swallowed |
| QuoteRequestService.StampFor | src/ActivityPubFunctions/QuoteRequestService.cs:91-95 | without an instrument id nothing is written; a stamp is written only as the stamp file for the stamp id, the server actor, the instrument id and the quoted note, and only blobs change |
| QuoteRequestService.AutoApprove | src/ActivityPubFunctions/QuoteRequestService.cs:43-103 | a null or empty object URL, or a server actor URI that does not parse, changes nothing; otherwise the Accept's requests are sent, and no tables change |
| QuoteRequestService.QuoteStampStored | src/ActivityPubFunctions/QuoteRequestService.cs:89-95 | with an object URL and an instrument id, the stamp document is stored at `socialweb/quotes/{g}` whatever happened to the Accept delivery |
| QuoteRequestService.ProcessQuoteRequest | src/ActivityPubFunctions/QuoteRequestService.cs:18-41 | a null message does nothing; a message with no type throws before the `try`; any other message succeeds, changes nothing unless it is a QuoteRequest, and then auto-approves |
| Inbox.Respond | src/ActivityPubFunctions/Inbox.cs:51-53 | a handled request answers 200 with `Content-Type: application/activity+json`; a failed one rethrows its error |
| Inbox.ThenPublishFollowers | src/ActivityPubFunctions/Inbox.cs:64 | after a successful step the followers collection is regenerated and only blobs change; after a failed one nothing more happens |
| Inbox.UndoAcceptOnWire | src/ActivityPubFunctions/Inbox.cs:77-85 | the Undo's Accept has id `BaseDomain/uuid`, actor `BaseDomain/ActorName` and the whole original body as its object, in camel case |
| Inbox.OnFollow | src/ActivityPubFunctions/Inbox.cs:60-65 | a Follow runs the follow service first, stops on its failure, and on success the follower is stored, its Accept sent, and the followers collection regenerated |
| Inbox.OnUndo | src/ActivityPubFunctions/Inbox.cs:66-92 | an Undo unfollows, then fetches the actor, then POSTs the Accept wrapping the whole body to that actor's inbox, then regenerates followers, in that order, stopping at the first failure; a failed fetch, an unreadable body or a failed POST each end the call with that error and with exactly the requests made so far, without regenerating |
| Inbox.Run | src/ActivityPubFunctions/Inbox.cs:25-109 | an undecodable body is rethrown with no effect; a null message and any other type, QuoteRequest included, answer 200 with no effect; a missing type throws; Delete fails before any effect; Follow, Undo and Create run their handlers, whose errors are rethrown |
| Inbox.FollowAnswered | src/ActivityPubFunctions/Inbox.cs:60-65 | a Follow answered with 200 leaves the follower stored and the followers collection published |
| Inbox.UndoAnswered | src/ActivityPubFunctions/Inbox.cs:66-92 | an Undo answered with 200 leaves no follower row, sent exactly two requests, and published the followers collection |
| Inbox.CreateOnlyReplies | src/ActivityPubFunctions/Inbox.cs:93-96 | a Create touches neither the followers nor the network |
| BoostPost.NodeText | src/BoostPost/Program.cs:115 | a missing or null node has no text, and a string node's text is the string itself |
| BoostPost.SelectPage | src/BoostPost/Program.cs:79-102 | an inline `first` object is the page with no request; otherwise a non-null `first` is fetched with one signed GET of its text; with no `first` the outbox itself is the page when it has `orderedItems`, else there is none |
| BoostPost.PageItems | src/BoostPost/Program.cs:104 | the items are the page's `orderedItems` array; a missing or null member gives none and any other value fails the cast |
| BoostPost.CandidateSpec | src/BoostPost/Program.cs:113-135 | an item offers a note exactly when it is a Create whose inline object has type Note and a non-null id, and that id is the one offered; an item that is neither null nor an object fails the lookup |
| BoostPost.SelectFails | src/BoostPost/Program.cs:113-135 | the selection fails exactly when some item's lookup fails |
| BoostPost.NotesToBoost | src/BoostPost/Program.cs:111-135 | the selected notes are never already boosted and are no more than the items |
| BoostPost.NotesToBoostMembers | src/BoostPost/Program.cs:111-135 | a note is selected exactly when it is not already boosted and some item offers it |
| BoostPost.NotesToBoostAppend | src/BoostPost/Program.cs:113-135 | selection works item by item: the notes of a concatenation are the notes of each part in order, so outbox order is kept |
| BoostPost.NotesOfOutbox | src/BoostPost/Program.cs:79-143 | a run continues only with a non-empty list of notes not yet boosted, at the cost of at most one extra GET |
| BoostPost.Discover | src/BoostPost/Program.cs:68-143 | at most three GETs; a result names the fetched account actor and a non-empty list of unboosted notes |
| BoostPost.AnnounceOnWire | src/BoostPost/Program.cs:159-171 | the Announce is written with `@context`, the boost id, type Announce, the actor, the publication time, `to` public, `cc` the actor's followers and the account, and the note as object |
| BoostPost.Failed | src/BoostPost/Program.cs:198-201 | a failure records the message and the time, keeps the last success, the key and the actor URI |
| BoostPost.Succeeded | src/BoostPost/Program.cs:219-223 | a success records the time and clears both error fields, keeping the key and the actor URI |
| BoostPost.VisitFollower | src/BoostPost/Program.cs:177-234 | a follower with a recorded error is skipped and left as it was, with no request; a failed fetch records the error message and time, after just the fetch; an endpoint already sent to for this note is not posted again and the row is left as it was; otherwise the announce is POSTed to the shared inbox or inbox, a success clears the error fields and a failure records it, and the requests are the fetch followed by that POST |
| BoostPost.AttemptedEndpoints | src/BoostPost/Program.cs:175-215 | the sent list holds exactly the endpoints of the attempted deliveries |
| BoostPost.PassesRecorded | src/BoostPost/Program.cs:177-234 | in the follower loop as a recursive definition, every row records what its own delivery did: skipped and errored rows unchanged, failures with an error, successes with the time |
| BoostPost.PassesOnce | src/BoostPost/Program.cs:207-215 | the loop never posts twice to one endpoint, and passes over an endpoint only when an earlier follower was posted to it |
| BoostPost.PassesLogBound | src/BoostPost/Program.cs:177-234 | the loop makes at most two requests per follower: its fetch and its POST |
| BoostPost.PassesDeliveryStep | src/BoostPost/Program.cs:207-215 | the loop's delivery for a row posts only to an endpoint not yet used this note, and passes over only one that was used |
| BoostPost.PassesFacts | src/BoostPost/Program.cs:175-234 | over the whole follower loop, every row records its own delivery, no endpoint is posted to twice, and there are at most two requests per follower |
| BoostPost.Deliver | src/BoostPost/Program.cs:175-234 | one delivery per follower, each recorded on that follower's row, no endpoint attempted twice, even after a failure, because it is marked before the POST, at most two requests per follower; and the deliveries, the rows written back and the requests in order are those of the follower loop as a recursive definition (`Passes`) |
| BoostPost.DeliveryAppended | src/BoostPost/Program.cs:209-215 | appending a delivery keeps endpoints distinct and extends the sent list exactly when the delivery was attempted |
| BoostPost.AccountRequests | src/BoostPost/Program.cs:236-249 | the account's inbox costs one POST when no follower was posted to it and the POST could be signed, and none otherwise |
| BoostPost.BoostNote | src/BoostPost/Program.cs:175-249 | per note, errored followers are skipped and unchanged, failures leave an error recorded, endpoints are distinct, and the account's inbox gets at most one extra POST, none when it was already sent to; the deliveries, table and requests are exactly `NoteRound`: the follower loop followed by the account's POST |
| BoostPost.NoteRound | src/BoostPost/Program.cs:175-249 | one note's round keeps the table's size, gives one delivery per row and records on each row what that delivery did |
| BoostPost.Quota | src/BoostPost/Program.cs:154-157 | a run boosts `min(max, notes)` notes, and none when `max` is not positive |
| BoostPost.BoostNth | src/BoostPost/Program.cs:155-253 | handling the `n`th note, announced with the `n`th GUID and timestamp, is round `n` of every function that announces the notes |
| BoostPost.NoteRoundsAnnounce | src/BoostPost/Program.cs:155-253 | a function announcing the notes exists, so the contracts stated over all of them are not vacuous |
| BoostPost.AnnouncedAgree | src/BoostPost/Program.cs:155-255 | all functions that announce the notes give the same outer loop, so the loop's outcome is determined by the notes, the GUIDs and the timestamps |
| BoostPost.BoostsAgree | src/BoostPost/Program.cs:155-255 | the outer loop depends only on the rounds it runs: rounds that agree on the first `n` notes give the same table, deliveries and requests |
| BoostPost.AnnouncedRecords | src/BoostPost/Program.cs:175-249 | every round that announces a note keeps the table's size and records each row's delivery on that row |
| BoostPost.BoostAll | src/BoostPost/Program.cs:153-255 | exactly the first `max` notes are recorded, whatever the deliveries did; a follower that fails on one note is skipped for every later note of the run; one with an earlier error is never touched; the table, each note's deliveries and all requests in order are those of the outer loop as a recursive definition (`Boosts`) over the rounds that announce the notes, each update carrying the row's current ETag (see Findings) |
| BoostPost.BoostsFacts | src/BoostPost/Program.cs:153-255 | over any rounds that record their rows, the outer loop keeps every key, never touches a row with an earlier error, skips it in every round, and skips a follower in every round after one where it failed |
| BoostPost.BoostsRow | src/BoostPost/Program.cs:177-184 | a row keeps its key through every round, and a row with an error at the start is never changed |
| BoostPost.ErrorPersists | src/BoostPost/Program.cs:179-184 | once a row holds an error it stays exactly as it is for the rest of the run, because the follower list is loaded once and reused |
| BoostPost.FailureSkipsLater | src/BoostPost/Program.cs:194-203 | a follower whose fetch or POST failed for one note is skipped for every later note |
| BoostPost.ErroredAlwaysSkipped | src/BoostPost/Program.cs:179-184 | a follower with an error recorded before the run is skipped for every note |
| BoostPost.RoundUpdates | src/BoostPost/Program.cs:185-233 | a note's round updates, in row order and each once, exactly the rows it writes back, a failed fetch or an attempted POST, with the row's value after the round |
| BoostPost.WrittenAgain | src/BoostPost/Program.cs:177-232 | a follower whose POST went through on the first note is visited again on the second, and unless its endpoint was already served both notes write its row |
| BoostPost.StaleSecondNoteFails | src/BoostPost/Program.cs:149-232 | as written, with every update carrying the ETag loaded before the first note, the first note's updates all go through and the second note's stop the run, whenever a follower's POST went through on the first note and is attempted again |
| BoostPost.StaleRounds | src/BoostPost/Program.cs:149-232 | two rounds that both write a row, against ETags read before the first: the first round's updates go through and the second's stop the run |
| BoostPost.RecordedChangesOnlyWritten | src/BoostPost/Program.cs:177-232 | a round keeps every key and changes only the rows it writes back |
| BoostPost.AppliedRoundAt | src/BoostPost/Program.cs:177-232 | row by row, a round's updates for the first `n` rows give the round's row there and leave the later rows as they were |
| BoostPost.AppliedRound | src/BoostPost/Program.cs:177-232 | a round's updates applied to the table before it give the round's rows and leave the rest as they were |
| BoostPost.RefreshedRoundApplies | src/BoostPost/Program.cs:177-232 | with the ETag taken from every response, a round's updates all go through and leave exactly the round's table |
| BoostPost.AppliedRun | src/BoostPost/Program.cs:153-255 | the updates of the first `n` notes, applied in order, give the outer loop's table |
| BoostPost.RefreshedRunIsBoosts | src/BoostPost/Program.cs:153-255 | with the ETag taken from every response, all the updates of the run go through and leave the table the outer loop (`Boosts`) computes |
| BoostPost.Run | src/BoostPost/Program.cs:53-259 | only follower rows change, never their number; recorded notes were not boosted before and number at most `max`; a failed discovery records nothing; nothing to boost records nothing; a missing followers table is a not-found error; otherwise the first `min(max, notes)` notes are recorded, the follower rows are the outer loop's table and the requests are discovery's followed by the loop's, for the rounds that announce the notes, each update carrying the row's current ETag (see Findings); errored followers are untouched |
| BroadcastPost.NoteId | src/BroadcastPost/Program.cs:103-119 | a path with no `/` is its own note id, and any other answer is a non-empty segment free of `/` |
| BroadcastPost.NoteIdIsLastSegment | src/BroadcastPost/Program.cs:103-119 | the note id is the last non-empty `/`-segment, or the whole path when it is only slashes |
| BroadcastPost.CreateOnWire | src/BroadcastPost/Program.cs:36-49 | the Create is written with `@context`, id `domain/notes/{note id}/create`, type Create, actor `domain/@blog`, the run's timestamp as `published`, the public `to` and fixed `cc`, and the note, with its own `published` set to that same timestamp, as object |
| BroadcastPost.NotePublishedMatches | src/BroadcastPost/Program.cs:38-39 | the note's `published` is overwritten with the Create's timestamp and every other member of the note is kept |
| BroadcastPost.Document | src/BroadcastPost/Program.cs:34-49 | a document exists exactly when the note file parses as a JSON object, and it is that Create written with the lower-first policy |
| BroadcastPost.Resolve | src/BroadcastPost/Program.cs:68-76 | the endpoint is the shared inbox or inbox of a fetched actor with endpoints; a failed fetch or an actor without endpoints falls back to `scheme://authority/inbox` of the actor URI; a malformed actor URI fails the run |
| BroadcastPost.DedupSpec | src/BroadcastPost/Program.cs:79-85 | the deduplicated endpoints are distinct and are exactly the endpoints that occur |
| BroadcastPost.FanOut | src/BroadcastPost/Program.cs:63-93 | followers are visited in order until one fails to resolve, which is the first such follower; the posts go to the distinct endpoints of the followers reached, in first-seen order, one POST each, and a failed POST does not stop the loop; the requests, in order, are each follower's resolution followed by its POST when its endpoint is new (`Requests`), and the endpoints posted to are `Posted` |
| BroadcastPost.EveryFollowerReached | src/BroadcastPost/Program.cs:63-93 | every follower that resolves is reached: the first follower, this one or an earlier one, that resolved to the same endpoint is fresh, and its requests end with the POST to that endpoint |
| BroadcastPost.OnlyFollowersPosted | src/BroadcastPost/Program.cs:79-87 | an endpoint is posted to exactly when some handled follower resolved to it, and no endpoint twice |
| BroadcastPost.PostedIsDedup | src/BroadcastPost/Program.cs:79-87 | the endpoints posted to, follower by follower, are the followers' endpoints with repeats removed, in first-seen order |
| BroadcastPost.FreshIffUnsent | src/BroadcastPost/Program.cs:79-85 | a resolved follower is posted to exactly when its endpoint is not among those already marked as sent |
| BroadcastPost.FirstUnresolved | src/BroadcastPost/Program.cs:63-76 | the followers before the position all resolve, and the follower at it, if any, does not |
| BroadcastPost.StopsAt | src/BroadcastPost/Program.cs:63-93 | a loop that stops at a follower that fails to resolve has handled exactly the followers up to that one; its POSTs are the deduplicated endpoints before it, and its last requests are that follower's resolution |
| BroadcastPost.Run | src/BroadcastPost/Program.cs:30-95 | no table or blob changes, since there is no error skip and no write-back; a note that does not parse or a missing followers table stops the run before any request; otherwise the world's log grows by exactly the requests of handling the followers up to the first that fails to resolve, the endpoints posted to are `Posted`, and the run succeeds exactly when every follower resolves, in which case every follower's endpoint was posted to, each at most once |
| RssUtils.TagsMarkup | src/Rss2Outbox/RssUtils.cs:10-20 | the tags markup is empty exactly when the item has no tags |
| RssUtils.TagsMarkupAppend | src/Rss2Outbox/RssUtils.cs:16-19 | the markup is built tag by tag: the markup of two tag lists in a row is the markup of each, concatenated in order |
| RssUtils.Paragraphs | src/Rss2Outbox/RssUtils.cs:22 | the description used holds no newline, and a null description gives the empty string |
| RssUtils.ParagraphsAreLines | src/Rss2Outbox/RssUtils.cs:22 | the description is its lines joined by `</p><p>` |
| RssUtils.TemplateFilled | src/Rss2Outbox/RssUtils.cs:24-30 | a template made of text and placeholders, with values free of `{`, comes out with every placeholder replaced by its value, wherever and however often it occurs |
| RssUtils.PlainTemplateKept | src/Rss2Outbox/RssUtils.cs:24-30 | a template with no `{` is returned unchanged |
| RssUtils.EarlierValuesReplacedLater | src/Rss2Outbox/RssUtils.cs:24-30 | replacement is sequential: a title that reads `{link}` ends up as the link, because the `{link}` pass runs after the `{title}` pass |
| RssUtils.NoteTagsRecoverTags | src/Rss2Outbox/RssUtils.cs:95-115 | the note's tags are the author Mention first, then one Hashtag per item tag in order, whose names are `#` plus the tag and whose links end in the tag |
| RssUtils.ContentLinksAreNoteTags | src/Rss2Outbox/RssUtils.cs:10-20 | the hashtag links in the content and the note's Hashtag list describe the same tags, links and names |
| RssUtils.ParsePubDate | src/Rss2Outbox/RssUtils.cs:64-73 | a null date stays null, a date that does not parse is returned unchanged, and one that parses is reformatted |
| RssUtils.GetNote | src/Rss2Outbox/RssUtils.cs:91-147 | an item without a link fails with a null reference; otherwise the note's hash is the MD5 hex of the link, its id and replies id are built from that hash, its URL is the link, its author the site actor, its date the parsed date and its tags the Mention then the Hashtags |
| RssUtils.NoteNamedByLink | src/Rss2Outbox/RssUtils.cs:91-134 | the hash is 32 hex digits decoding to the link's MD5, and the note id, the replies id and the note file all end in that hash |
| RssUtils.NoteReplies | src/Rss2Outbox/RssUtils.cs:132-143 | the note carries its replies collection under `replies` |
| RssUtils.RepliesLinked | src/Rss2Outbox/RssUtils.cs:132-137 | the replies collection has the replies id as id, type `Collection`, and its first page under `first` |
| RssUtils.FirstPageLinked | src/Rss2Outbox/RssUtils.cs:136-142 | the first page's `next` is the replies id plus `?page=true`, its `partOf` is the replies id, and it has no items |
| RssUtils.CreateWrapsNote | src/Rss2Outbox/RssUtils.cs:149-163 | the Create's id is the note id plus `/create`, its actor the site actor, its object the note, and its `published` the note's |
| RssUtils.OutboxCounts | src/Rss2Outbox/RssUtils.cs:75-89 | the outbox is named by its URL, its `totalItems` is the number of items, and it lists the items and the summary as given |
| RssUtils.TagOnWire | src/Rss2Outbox/Program.cs:191-214 | a note tag is written with the lower-case names `type`, `href`, `name` |
| Rss2Outbox.TitleFallsBack | src/Rss2Outbox/Program.cs:122 | an item without a title uses its description as the title |
| Rss2Outbox.ContentKeepsRawDescription | src/Rss2Outbox/Program.cs:125 | without `content:encoded`, `{content}` is the raw description while `{description}` has its newlines turned into paragraphs, so the two differ whenever the description has a newline |
| Rss2Outbox.CategoriesFirst | src/Rss2Outbox/Program.cs:128-130 | the tags are all `category` values followed by all `tags/tag` values |
| Rss2Outbox.SplitHandle | src/Rss2Outbox/Program.cs:67-73 | the handle fails with an index error exactly when it has fewer than three `@`-separated parts; the user and domain parts hold no `@` |
| Rss2Outbox.HandleRoundTrip | src/Rss2Outbox/Program.cs:69-73 | `@user@domain` splits back into exactly that user and domain |
| Rss2Outbox.HandleWithoutLeadingAt | src/Rss2Outbox/Program.cs:69-73 | `user@domain` without the leading `@` fails with an index error |
| Rss2Outbox.Configure | src/Rss2Outbox/Program.cs:69-86 | the configuration fails exactly when the handle does; otherwise the three paths are the fixed `socialweb/notes`, `socialweb/outbox` and `socialweb/replies`, the other settings are taken as given, and a given author URI is kept |
| Rss2Outbox.AuthorGuessedFromHandle | src/Rss2Outbox/Program.cs:72-86 | with no author URI, the author URL is `https://{domain}/users/{user}` from the handle, the user id is the user, and a missing blog domain becomes empty |
| Rss2Outbox.ChooseTemplate | src/Rss2Outbox/Program.cs:88-90 | a null or empty template is replaced by the built-in default, any other is used as given, and the result is never empty |
| Rss2Outbox.DefaultContent | src/Rss2Outbox/Program.cs:89 | the default template renders to title, description, the link twice, the author and the tags in their fixed paragraphs |
| Rss2Outbox.OutboxNamedAndSummarised | src/Rss2Outbox/Program.cs:133-162 | the outbox is named `Domain/OutboxPath` and its summary is the channel description, or `Outbox for {AuthorUsername} blog` when there is none |
| Rss2Outbox.FirstUnlinked | src/Rss2Outbox/Program.cs:146-160 | the items before this position all have links, and the item at it, if any, has none |
| Rss2Outbox.Notes | src/Rss2Outbox/Program.cs:146-151 | one note per item, in feed order, each the note built from its item |
| Rss2Outbox.GenerateOutbox | src/Rss2Outbox/Program.cs:107-175 | every item gets its note file, in feed order, and then the outbox file is written; an item without a link stops the run with a null reference after the earlier note files and before the outbox |
| Rss2Outbox.NoteFilesNamedByLinks | src/Rss2Outbox/Program.cs:159 | each note file is named by the MD5 hex of its item's link |
| Rss2Outbox.OutboxListsNotes | src/Rss2Outbox/Program.cs:146-162 | the outbox counts the items, carries the summary, and lists one Create per item, in feed order, wrapping that item's note |
| Rss2Outbox.OutboxOnWire | src/Rss2Outbox/Program.cs:191-207 | the outbox is written with the names `@context`, `id`, `type`, `summary`, `totalItems`, `orderedItems` |
| Rss2Outbox.Run | src/Rss2Outbox/Program.cs:64-93 | a bad handle fails before anything is written; a run succeeds exactly when the handle splits and every item has a link, and then writes one file per item plus the outbox |
| OutboxSettings.PathCombine | src/Rss2Outbox/OutboxConfig.cs:25-27 | joining paths ends with the second part; an empty second part gives the first, a rooted one replaces it, and otherwise the first is kept as a prefix with at most one `/` added |
| OutboxSettings.FileNameKept | src/Rss2Outbox/OutboxConfig.cs:25 | a file name joined to any folder is still the last path segment |
| OutboxSettings.OutboxUrlParses | src/Rss2Outbox/OutboxConfig.cs:31 | with a domain `scheme://host`, the outbox URL parses to that host with the outbox path as its path |
| OutboxSettings.Rehosted | src/Rss2Outbox/OutboxConfig.cs:25-31 | changing the domain changes the outbox URL and neither full path, as the derived values are recomputed on each read |

## Findings

| source | as written | input that shows it | evidently intended | confidence | as-written member | corrected member |
|---|---|---|---|---|---|---|
| src/ActivityPubDotNet.Core/ActorHelper.cs:54 | the GET signing string puts `url.AbsolutePath` after `get`, without the query | any URL with a query, such as an outbox whose `first` page is `https://example.com/outbox?page=true` (BoostPost fetches it at src/BoostPost/Program.cs:89-90) | the `(request-target)` line carries the path and the query, as section 2.3 of draft-cavage-http-signatures defines it, so that the receiver can verify the signature | medium, not executed | ActorHelper.GetSignatureCoversRequest | ActorHelper.CorrectedGetCovers |
| src/ActivityPubDotNet.Core/ActorHelper.cs:106 | the POST signing string likewise omits the query | any inbox URL with a query, such as `https://example.com/inbox?user=a` | the same: path and query | medium, not executed | ActorHelper.PostSignatureCoversRequest | ActorHelper.CorrectedPostCovers |
| src/BoostPost/Program.cs:201-232 | every update of a follower row passes `follower.ETag` from the rows loaded once at line 149, and the new ETag of a response is never kept | `--max 2`, two new notes and one follower whose fetch and POST succeed: the second note's update at line 223 fails with 412, the update in the catch at line 232 fails again and is not caught, so the run ends; the second note gets no account-inbox POST and is not recorded | each update carries the row's current ETag, so every note of the run is delivered and recorded | medium, not executed | BoostPost.StaleSecondNoteFails | BoostPost.RefreshedRunIsBoosts |
| src/ActivityPubDotNet.Core/Storage/RepliesGenerator.cs:41 | the note id is spliced into the filter `PartitionKey eq '{noteId}'` unescaped; the id is the last segment of a remote note's `inReplyTo` (src/ActivityPubDotNet.Core/Storage/Reply.cs:28), of which src/ActivityPubFunctions/RepliesService.cs:42 checks only the prefix | a reply whose `inReplyTo` ends in `x' or PartitionKey ne '`: the filter selects every row, and the page lists the replies of every note; an id with a single quote gives a malformed filter and the query fails | the id written as an OData string literal, every quote doubled, so the filter selects exactly the note's partition | medium, not executed | RepliesGenerator.QueryFilterSelects | RepliesGenerator.EscapedFilterSelects |

`BuildGet` and `BuildPost` model the builders as written. The requests the
rest of the model sends (`SendGet`, `SendPost`, and through them every fetch
and delivery) are the corrected ones, `CorrectedGet` and `CorrectedPost`,
which differ from the code's only for URLs with a query.

`Tables.CheckedRun` models the ETag check and `Tables.CheckedUpdates` its
effect on the table. The two callers differ only in whether they keep the
new ETag. The rest of the model, BoostPost's write-back of the follower
rows (`Tables.WithValues`) and with it `BoostAll` and `BoostPost.Run`, is the
corrected behaviour. `RefreshedRunIsBoosts` ties it to the checked
updates.

`QueryFilter` is the replies filter as written. `RepliesGenerator.ReplyIds`
lists the partition that `EscapedFilter` selects for every id.

## Left out

- MD5, SHA-256, RSA signing, PEM key import and base64 are function parameters (`Crypto.Primitives`). The model fixes only what the code relies on: an MD5 digest is 16 bytes, and signing gives nothing when the key cannot be imported.
- The network is a parameter that answers each GET or POST with a status and a body or an error. Timeouts, redirects and retries are not modelled. Every request handed to it is appended to the world's log, and the properties are stated over that log.
- The clock, `Guid.NewGuid` and `DateTimeOffset.TryParse` are parameters or inputs. Date formatting is not modelled.
- JSON text is not modelled. A body is decoded by a parameter into the JSON tree, and documents are stated as trees with the names they are written with. Indentation and escaping are left out.
- XML parsing of the RSS feed is not modelled. `Rss2Outbox.RawItem` is the item as read: the optional elements and the two tag lists.
- Logging, console output, directory creation, `System.CommandLine` option parsing, dependency injection and Azure Function bindings have no effect on the model and are left out.
- Tables.Replace: the update always succeeds, as an update carrying the row's current ETag does (`Tables.RefreshedUpdatesApply`). As written, BoostPost keeps passing the ETag it loaded, and its second update of a row fails; see "## Findings". Concurrent writers are not modelled.
- BoostPost.BoostAll: the notes after the first are delivered and recorded as with refreshed ETags. As written, the run ends at the first follower row written for a second time (`BoostPost.StaleSecondNoteFails`). That row is one whose POST went through on an earlier note. The note being sent is then neither sent to the account inbox nor recorded; see "## Findings".
- BoostPost.Run: the same, so "the first `min(max, notes)` notes are recorded" holds for the corrected run only.
- Tables.Add: a new row goes after the existing ones, and queries return rows in the order they were added. The table service keeps and returns rows in (partition, row) key order. The model is therefore exact only for tables whose rows were added in key order. Elsewhere, the row order decides the order of the listed items (`FollowersGenerator.ActorUris`, `RepliesGenerator.ReplyIds`), where BroadcastPost stops (`BroadcastPost.FirstUnresolved`), and which of the followers sharing an inbox BoostPost records the delivery on. Those are stated for the model's order.
- ActorHelper.SendGet: the GET sent is signed over the path and the query (`CorrectedGet`), whereas src/ActivityPubDotNet.Core/ActorHelper.cs:54 signs the path alone; for a URL with a query the logged request carries a different `Signature` header from the program's (see "## Findings").
- ActorHelper.SendPost: likewise signed over the path and the query (`CorrectedPost`), whereas src/ActivityPubDotNet.Core/ActorHelper.cs:106 signs the path alone.
- ActorHelper.FetchActor: its GET is the one `SendGet` sends, so for an actor URI with a query it differs from the program's in the same way.
- RepliesGenerator.ReplyIds: the query is modelled as selecting exactly the note's partition, which is the escaped filter's meaning. As written, a note id with a quote gives a malformed or injected filter (`RepliesGenerator.QueryFilterSelects`); see "## Findings".
- RepliesGenerator.StoredReplyListed: holds for the escaped filter; as written it fails for a partition key holding a quote, for the same reason.
- RepliesService.AddReply: `StartsWith(domain)` uses the current culture in the source. The model uses an ordinal prefix test, which differs only for culture-specific collation.
- Inbox.Run: the followers collection regeneration after a Follow or Undo is `FollowersGenerator.Generate` applied to the world; uploading to Azure blob storage is the `Storage.Upload` of the result.
- `Actor`, `AcceptRequest`, `CreateNote`, `AnnounceActivity`, BroadcastPost's `InboxMessage` and `ServerConfig` are plain data declarations. They appear as datatypes and have no operations of their own.
- `FollowService.UpdateFollowersCollection` is not part of this model; it is taken to regenerate the followers collection (`FollowersGenerator.Generate`).
- `ActorHelper.SendSignedRequest` is not part of this model; it is taken to be the signed POST (`ActorHelper.SendPost`).
- src/BroadcastPost/Program.cs:70 calls `FetchActorInformationAsync` on the class, but src/ActivityPubDotNet.Core/ActorHelper.cs:21 declares it as an instance method. The model takes it to be the instance call on the run's `actorHelper`, a signed GET like BoostPost's.
- Uris.Parse: user information (`user@host`) and IPv6 literals (`[::1]`) are rejected, although `System.Uri` accepts them; a port above 65535 is accepted, although `System.Uri` rejects it. The follower and actor URIs the programs handle are plain `https://host/path` URLs.
- Uris.LeftPartAuthority: an explicit default port (`https://host:443`) is kept, whereas `GetLeftPart` drops it; `Uris.Canonical` likewise.
- Uris.AbsolutePath: the path is returned as written, without the percent-escaping `System.Uri` applies. It feeds the signing string, the blob names and BroadcastPost's fallback inbox, so those agree with the code only for paths that need no escaping.
- Json.ConvertName: `CamelCase` lower-cases only the first character, whereas `JsonNamingPolicy.CamelCase` also lower-cases the rest of a leading run of capitals ("ID" to "id"); every name the code writes with it has a single leading capital, so the written documents agree.
- Strings.LowerString: case folding is ASCII only, whereas `ToLowerInvariant` folds every Unicode letter; the names compared and lowered in the code (header names, message types, JSON member names) are ASCII.
- The `Instrument` property of a quote request is not declared in the code shown; it is modelled as an optional instrument id.
- Incoming requests are not signature-checked by the code, so verification is not modelled.

Some of the code behaves differently from what a reader might expect. The model follows the code:

- Storing a reply uses an insert, so delivering the same reply twice fails with a conflict; it is not a silent overwrite (`RepliesService.AddReplyTwiceConflicts`).
- `Inbox.Run` does not dispatch QuoteRequest messages. They are answered with 200 and have no effect. `QuoteRequestService.ProcessQuoteRequest` is modelled on its own.
- BroadcastPost neither skips followers with a recorded error nor writes results back. Only BoostPost does both.
- Any Undo is treated as an Undo of a Follow; its object is not inspected.
- A message without a type throws a null reference, in the inbox and in `ProcessQuoteRequest` alike.
- In Rss2Outbox, an item without a link throws after the note files of the earlier items have been written, and no outbox is written.

=== FILE: actor_helper.dfy ===
/** `ActorHelper`: signed GET and POST requests in the form of section 2.3 of
    draft-cavage-http-signatures, the `Digest` header of section 4.3.2 of
    RFC 3230 with the `SHA-256` token of RFC 5843, and fetching an actor. */
module ActorHelper {
  import opened Wrappers
  import opened Errors
  import opened Strings
  import opened Crypto
  import opened Uris
  import opened Http
  import opened Actors
  import Json

  /** The helper's configuration and the outside world it talks to. */
  datatype Env = Env(
    privatePem: string,
    keyId: string,
    crypto: Primitives,
    // `DateTime.UtcNow.ToString("r")`: one value for the whole run
    date: string,
    // `DateTimeOffset.UtcNow` as stored in a table
    timestamp: string,
    transport: Request -> Response,
    // `JsonSerializer.Deserialize<Actor>`: None when the body is not an actor document
    decodeActor: string -> Option<Actor>,
    // `JsonNode.Parse`
    decodeJson: string -> Option<Json.Json>,
    // `JsonSerializer.Serialize` of a tree whose names are final
    encode: Json.Json -> string,
    // `Exception.Message`
    describe: Error -> string)

  /** The outcome of a step that may have handed requests to the transport:
      the requests, in order, and the result. */
  datatype Call<T> = Call(log: seq<Request>, result: Outcome<T>)

  const ActivityJson: string := "application/activity+json"
  const ActivityJsonUtf8: string := "application/activity+json; charset=utf-8"

  const GetCovered: seq<string> := ["(request-target)", "host", "date"]
  const PostCovered: seq<string> := ["(request-target)", "host", "date", "digest"]

  /** The string signed for a GET. */
  function GetSigningString(path: string, host: string, date: string): string {
    "(request-target): get " + path + "\nhost: " + host + "\ndate: " + date
  }

  /** The string signed for a POST. */
  function PostSigningString(path: string, host: string, date: string, digest: string): string {
    "(request-target): post " + path + "\nhost: " + host + "\ndate: " + date + "\ndigest: " + digest
  }

  /** `CreateHashSha256` behind the `SHA-256=` token: the `Digest` header value. */
  function DigestOf(crypto: Primitives, document: string): (r: string)
    ensures StartsWith(r, "SHA-256=")
    ensures r[8..] == crypto.base64(crypto.sha256(document))
  {
    "SHA-256=" + crypto.base64(crypto.sha256(document))
  }

  /** The `Signature` header value. */
  function SignatureHeader(keyId: string, covered: string, signature: string): string {
    "keyId=\"" + keyId + "\",headers=\"" + covered + "\",signature=\"" + signature + "\",algorithm=\"rsa-sha256\""
  }

  /** The path and query a verifier reads as the `(request-target)` of a
      request to `u`, following section 2.3 of draft-cavage-http-signatures. */
  function RequestTarget(u: Uri): (r: string)
    ensures |r| == |AbsolutePath(u)| + |u.query|
    ensures r == AbsolutePath(u) <==> u.query == ""
  {
    AbsolutePath(u) + u.query
  }

  /** A signed GET to `url` whose `(request-target)` line carries `target`;
      `KeyImport` when the key cannot sign. */
  function SignGet(env: Env, url: Uri, target: string): (r: Outcome<Request>)
    ensures r.Ok? <==> env.crypto.rsaSign(env.privatePem, GetSigningString(target, url.host, env.date)).Some?
    ensures r.Err? ==> r.error == KeyImport
    ensures r.Ok? ==> r.value.verb == Get && r.value.url == url && r.value.body.None?
  {
    var signed := GetSigningString(target, url.host, env.date);
    match env.crypto.rsaSign(env.privatePem, signed)
    case None => Err(KeyImport)
    case Some(sig) =>
      var header := SignatureHeader(env.keyId, "(request-target) host date", env.crypto.base64(sig));
      Ok(Request(Get, url,
        [Header("Host", url.host), Header("Date", env.date), Header("Signature", header), Header("Accept", ActivityJson)],
        None))
  }

  /** A signed POST of `document` to `url` whose `(request-target)` line
      carries `target`; `KeyImport` when the key cannot sign. */
  function SignPost(env: Env, document: string, url: Uri, target: string): (r: Outcome<Request>)
    ensures r.Ok? <==> env.crypto.rsaSign(env.privatePem,
      PostSigningString(target, url.host, env.date, DigestOf(env.crypto, document))).Some?
    ensures r.Err? ==> r.error == KeyImport
    ensures r.Ok? ==> r.value.verb == Post && r.value.url == url && r.value.body == Some(document)
  {
    var digest := DigestOf(env.crypto, document);
    var signed := PostSigningString(target, url.host, env.date, digest);
    match env.crypto.rsaSign(env.privatePem, signed)
    case None => Err(KeyImport)
    case Some(sig) =>
      var header := SignatureHeader(env.keyId, "(request-target) host date digest", env.crypto.base64(sig));
      Ok(Request(Post, url,
        [Header("Host", url.host), Header("Date", env.date), Header("Signature", header),
         Header("Digest", digest), Header("Content-Type", ActivityJsonUtf8)],
        Some(document)))
  }

  /** The GET request `SendGetSignedRequest` sends: the signing string
      carries the path alone, without the query. */
  function BuildGet(env: Env, url: Uri): (r: Outcome<Request>)
    ensures r.Ok? <==> env.crypto.rsaSign(env.privatePem, GetSigningString(AbsolutePath(url), url.host, env.date)).Some?
    ensures r.Err? ==> r.error == KeyImport
    ensures r.Ok? ==> r.value.verb == Get && r.value.url == url && r.value.body.None?
  {
    SignGet(env, url, AbsolutePath(url))
  }

  /** The POST request `SendPostSignedRequest` sends, signed over the path
      alone in the same way. */
  function BuildPost(env: Env, document: string, url: Uri): (r: Outcome<Request>)
    ensures r.Ok? <==> env.crypto.rsaSign(env.privatePem,
      PostSigningString(AbsolutePath(url), url.host, env.date, DigestOf(env.crypto, document))).Some?
    ensures r.Err? ==> r.error == KeyImport
    ensures r.Ok? ==> r.value.verb == Post && r.value.url == url && r.value.body == Some(document)
  {
    SignPost(env, document, url, AbsolutePath(url))
  }

  /** The GET as the signature scheme intends it: signed over the path and
      the query. */
  function CorrectedGet(env: Env, url: Uri): (r: Outcome<Request>)
    ensures r.Ok? <==> env.crypto.rsaSign(env.privatePem, GetSigningString(RequestTarget(url), url.host, env.date)).Some?
    ensures url.query == "" ==> r == BuildGet(env, url)
    ensures r.Err? ==> r.error == KeyImport
    ensures r.Ok? ==> r.value.verb == Get && r.value.url == url && r.value.body.None?
  {
    SignGet(env, url, RequestTarget(url))
  }

  /** The POST as the signature scheme intends it. */
  function CorrectedPost(env: Env, document: string, url: Uri): (r: Outcome<Request>)
    ensures r.Ok? <==> env.crypto.rsaSign(env.privatePem,
      PostSigningString(RequestTarget(url), url.host, env.date, DigestOf(env.crypto, document))).Some?
    ensures url.query == "" ==> r == BuildPost(env, document, url)
    ensures r.Err? ==> r.error == KeyImport
    ensures r.Ok? ==> r.value.verb == Post && r.value.url == url && r.value.body == Some(document)
  {
    SignPost(env, document, url, RequestTarget(url))
  }

  /** The headers a signed GET carries: the host and date that were signed, the
      signature over them naming the covered headers, and the ActivityPub
      media type as `Accept`. */
  lemma GetRequestHeaders(env: Env, url: Uri)
    requires BuildGet(env, url).Ok?
    ensures var hs := BuildGet(env, url).value.headers;
      && HeaderValue(hs, "host") == Some(url.host)
      && HeaderValue(hs, "date") == Some(env.date)
      && HeaderValue(hs, "accept") == Some(ActivityJson)
      && HeaderValue(hs, "signature")
        == Some(SignatureHeader(env.keyId, Join(" ", GetCovered),
             env.crypto.base64(env.crypto.rsaSign(env.privatePem, GetSigningString(AbsolutePath(url), url.host, env.date)).value)))
  {
    SignedGetHeaders(env, url, AbsolutePath(url));
  }

  /** The headers of a signed GET, for any signed target. */
  lemma SignedGetHeaders(env: Env, url: Uri, target: string)
    requires SignGet(env, url, target).Ok?
    ensures var hs := SignGet(env, url, target).value.headers;
      && HeaderValue(hs, "host") == Some(url.host)
      && HeaderValue(hs, "date") == Some(env.date)
      && HeaderValue(hs, "accept") == Some(ActivityJson)
      && HeaderValue(hs, "signature")
        == Some(SignatureHeader(env.keyId, Join(" ", GetCovered),
             env.crypto.base64(env.crypto.rsaSign(env.privatePem, GetSigningString(target, url.host, env.date)).value)))
  {
    var sig := env.crypto.rsaSign(env.privatePem, GetSigningString(target, url.host, env.date)).value;
    GetCoveredParameter();
    GetHeadersFound(SignGet(env, url, target).value.headers, url.host, env.date,
      SignatureHeader(env.keyId, "(request-target) host date", env.crypto.base64(sig)));
  }

  /** The lower-case names of the headers each request carries, in order. */
  const GetSentNames: seq<string> := ["host", "date", "signature", "accept"]
  const PostSentNames: seq<string> := ["host", "date", "signature", "digest", "content-type"]

  /** Neither list names a header twice. */
  lemma NamesDistinct(names: seq<string>)
    requires names == GetSentNames || names == PostSentNames
    ensures forall i, j :: 0 <= i < |names| && 0 <= j < |names| && i != j ==> names[i] != names[j]
  {
    forall i, j | 0 <= i < |names| && 0 <= j < |names| && i != j
      ensures names[i] != names[j]
    {
      assert |names[i]| != |names[j]| || names[i][0] != names[j][0];
    }
  }

  lemma GetHeadersFound(hs: seq<Header>, host: string, date: string, signature: string)
    requires hs == [Header("Host", host), Header("Date", date), Header("Signature", signature), Header("Accept", ActivityJson)]
    ensures HeaderValue(hs, "host") == Some(host)
    ensures HeaderValue(hs, "date") == Some(date)
    ensures HeaderValue(hs, "signature") == Some(signature)
    ensures HeaderValue(hs, "accept") == Some(ActivityJson)
  {
    var names := GetSentNames;
    SentHeaderNames();
    assert forall j :: 0 <= j < |hs| ==> LowerString(hs[j].name) == names[j];
    NamesDistinct(names);
    HeaderNamed(hs, names, 0);
    HeaderNamed(hs, names, 1);
    HeaderNamed(hs, names, 2);
    HeaderNamed(hs, names, 3);
  }

  /** The headers a signed POST carries: the signed host and date, the digest
      of the body that was also signed, the signature, and the content type. */
  lemma PostRequestHeaders(env: Env, document: string, url: Uri)
    requires BuildPost(env, document, url).Ok?
    ensures var hs := BuildPost(env, document, url).value.headers;
      && HeaderValue(hs, "host") == Some(url.host)
      && HeaderValue(hs, "date") == Some(env.date)
      && HeaderValue(hs, "digest") == Some(DigestOf(env.crypto, document))
      && HeaderValue(hs, "content-type") == Some(ActivityJsonUtf8)
      && HeaderValue(hs, "signature")
        == Some(SignatureHeader(env.keyId, Join(" ", PostCovered),
             env.crypto.base64(env.crypto.rsaSign(env.privatePem,
               PostSigningString(AbsolutePath(url), url.host, env.date, DigestOf(env.crypto, document))).value)))
  {
    SignedPostHeaders(env, document, url, AbsolutePath(url));
  }

  /** The headers of a signed POST, for any signed target. */
  lemma SignedPostHeaders(env: Env, document: string, url: Uri, target: string)
    requires SignPost(env, document, url, target).Ok?
    ensures var hs := SignPost(env, document, url, target).value.headers;
      && HeaderValue(hs, "host") == Some(url.host)
      && HeaderValue(hs, "date") == Some(env.date)
      && HeaderValue(hs, "digest") == Some(DigestOf(env.crypto, document))
      && HeaderValue(hs, "content-type") == Some(ActivityJsonUtf8)
      && HeaderValue(hs, "signature")
        == Some(SignatureHeader(env.keyId, Join(" ", PostCovered),
             env.crypto.base64(env.crypto.rsaSign(env.privatePem,
               PostSigningString(target, url.host, env.date, DigestOf(env.crypto, document))).value)))
  {
    var digest := DigestOf(env.crypto, document);
    var sig := env.crypto.rsaSign(env.privatePem, PostSigningString(target, url.host, env.date, digest)).value;
    PostCoveredParameter();
    PostHeadersFound(SignPost(env, document, url, target).value.headers, url.host, env.date,
      SignatureHeader(env.keyId, "(request-target) host date digest", env.crypto.base64(sig)), digest);
  }

  lemma PostHeaderNames(hs: seq<Header>, host: string, date: string, signature: string, digest: string)
    requires hs == [Header("Host", host), Header("Date", date), Header("Signature", signature),
                    Header("Digest", digest), Header("Content-Type", ActivityJsonUtf8)]
    ensures |hs| == |PostSentNames| && forall j :: 0 <= j < |hs| ==> LowerString(hs[j].name) == PostSentNames[j]
  {
    SentHeaderNames();
    forall j | 0 <= j < |hs|
      ensures LowerString(hs[j].name) == PostSentNames[j]
    {
      if j < 2 {
        assert hs[j].name == ["Host", "Date"][j];
      } else if j < 4 {
        assert hs[j].name == ["Signature", "Digest"][j - 2];
      }
    }
  }

  lemma PostHeadersFound(hs: seq<Header>, host: string, date: string, signature: string, digest: string)
    requires hs == [Header("Host", host), Header("Date", date), Header("Signature", signature),
                    Header("Digest", digest), Header("Content-Type", ActivityJsonUtf8)]
    ensures HeaderValue(hs, "host") == Some(host)
    ensures HeaderValue(hs, "date") == Some(date)
    ensures HeaderValue(hs, "signature") == Some(signature)
    ensures HeaderValue(hs, "digest") == Some(digest)
    ensures HeaderValue(hs, "content-type") == Some(ActivityJsonUtf8)
  {
    var names := PostSentNames;
    PostHeaderNames(hs, host, date, signature, digest);
    NamesDistinct(names);
    HeaderNamed(hs, names, 0);
    HeaderNamed(hs, names, 1);
    HeaderNamed(hs, names, 2);
    HeaderNamed(hs, names, 3);
    HeaderNamed(hs, names, 4);
  }

  /** What a verifier rebuilds from a request and the `headers` list of its
      signature, following section 2.3 of draft-cavage-http-signatures: one
      `name: value` line per listed header, joined by newlines, where the
      `(request-target)` value is the method token, a space, and the path with
      its query. None when a listed header is missing. */
  function CoveredString(req: Request, names: seq<string>): Option<string> {
    var lines := CoveredLines(req, names);
    if lines.Some? then Some(Join("\n", lines.value)) else None
  }

  function CoveredLines(req: Request, names: seq<string>): (r: Option<seq<string>>)
    ensures r.Some? ==> |r.value| == |names|
    decreases |names|
  {
    if |names| == 0 then Some([])
    else
      var first := CoveredValue(req, names[0]);
      var rest := CoveredLines(req, names[1..]);
      if first.None? || rest.None? then None
      else Some([names[0] + ": " + first.value] + rest.value)
  }

  /** The value a covered name stands for. */
  function CoveredValue(req: Request, name: string): Option<string> {
    if name == "(request-target)" then Some(MethodToken(req.verb) + " " + RequestTarget(req.url))
    else HeaderValue(req.headers, name)
  }

  /** One step of `CoveredLines`. */
  lemma CoveredLinesCons(req: Request, name: string, names: seq<string>, value: string, rest: seq<string>)
    requires name != "(request-target)"
    requires HeaderValue(req.headers, name) == Some(value)
    requires CoveredLines(req, names) == Some(rest)
    ensures CoveredLines(req, [name] + names) == Some([name + ": " + value] + rest)
  {
    assert ([name] + names)[0] == name && ([name] + names)[1..] == names;
  }

  /** The `(request-target)` step of `CoveredLines`. */
  lemma CoveredLinesTarget(req: Request, names: seq<string>, rest: seq<string>)
    requires |names| > 0 && names[0] == "(request-target)"
    requires CoveredLines(req, names[1..]) == Some(rest)
    ensures CoveredLines(req, names)
      == Some(["(request-target): " + MethodToken(req.verb) + " " + RequestTarget(req.url)] + rest)
  {
    var v := MethodToken(req.verb) + " " + RequestTarget(req.url);
    assert CoveredValue(req, names[0]) == Some(v);
    assert CoveredLines(req, names) == Some([names[0] + ": " + v] + rest);
    assert names[0] + ": " + v == "(request-target): " + MethodToken(req.verb) + " " + RequestTarget(req.url);
  }

  /** What a verifier rebuilds from a GET as sent is the signing string over
      the path AND the query, so it matches the string that was signed (over
      the path alone) exactly when the URL has no query: for any URL with a
      query the signature does not verify. */
  lemma GetSignatureCoversRequest(env: Env, url: Uri)
    requires BuildGet(env, url).Ok?
    ensures CoveredString(BuildGet(env, url).value, GetCovered)
      == Some(GetSigningString(RequestTarget(url), url.host, env.date))
    ensures (CoveredString(BuildGet(env, url).value, GetCovered)
      == Some(GetSigningString(AbsolutePath(url), url.host, env.date))) <==> url.query == ""
  {
    GetRequestHeaders(env, url);
    CoveredGet(BuildGet(env, url).value, RequestTarget(url), url.host, env.date);
    if url.query != "" {
      assert |GetSigningString(RequestTarget(url), url.host, env.date)|
        != |GetSigningString(AbsolutePath(url), url.host, env.date)|;
    }
  }

  /** The corrected GET verifies for every URL: what a verifier rebuilds is
      exactly the string that was signed. */
  lemma CorrectedGetCovers(env: Env, url: Uri)
    requires CorrectedGet(env, url).Ok?
    ensures CoveredString(CorrectedGet(env, url).value, GetCovered)
      == Some(GetSigningString(RequestTarget(url), url.host, env.date))
    ensures HeaderValue(CorrectedGet(env, url).value.headers, "signature")
      == Some(SignatureHeader(env.keyId, Join(" ", GetCovered),
           env.crypto.base64(env.crypto.rsaSign(env.privatePem, GetSigningString(RequestTarget(url), url.host, env.date)).value)))
  {
    SignedGetHeaders(env, url, RequestTarget(url));
    CoveredGet(CorrectedGet(env, url).value, RequestTarget(url), url.host, env.date);
  }

  lemma CoveredGet(req: Request, path: string, host: string, date: string)
    requires req.verb == Get && RequestTarget(req.url) == path
    requires HeaderValue(req.headers, "host") == Some(host)
    requires HeaderValue(req.headers, "date") == Some(date)
    ensures CoveredString(req, GetCovered) == Some(GetSigningString(path, host, date))
  {
    CoveredGetLines(req, path, host, date);
    GetSigningIsJoin(path, host, date);
  }

  lemma CoveredGetLines(req: Request, path: string, host: string, date: string)
    requires req.verb == Get && RequestTarget(req.url) == path
    requires HeaderValue(req.headers, "host") == Some(host)
    requires HeaderValue(req.headers, "date") == Some(date)
    ensures CoveredLines(req, GetCovered) == Some(["(request-target): get " + path, "host: " + host, "date: " + date])
  {
    var tail := ["host: " + host, "date: " + date];
    CoveredGetTail(req, host, date);
    assert GetCovered[1..] == ["host", "date"];
    CoveredLinesTarget(req, GetCovered, tail);
    TargetLine(req, "get", path);
    assert "(request-target): " + "get" + " " == "(request-target): get ";
    assert ["(request-target): get " + path] + tail == ["(request-target): get " + path, "host: " + host, "date: " + date];
  }

  lemma CoveredGetTail(req: Request, host: string, date: string)
    requires HeaderValue(req.headers, "host") == Some(host)
    requires HeaderValue(req.headers, "date") == Some(date)
    ensures CoveredLines(req, ["host", "date"]) == Some(["host: " + host, "date: " + date])
  {
    CoveredHeaderPair(req, "host", "date", host, date);
    assert "host" + ": " == "host: " && "date" + ": " == "date: ";
  }

  /** `CoveredLines` over two header names. */
  lemma CoveredHeaderPair(req: Request, a: string, b: string, va: string, vb: string)
    requires a != "(request-target)" && b != "(request-target)"
    requires HeaderValue(req.headers, a) == Some(va) && HeaderValue(req.headers, b) == Some(vb)
    ensures CoveredLines(req, [a, b]) == Some([a + ": " + va, b + ": " + vb])
  {
    CoveredLinesCons(req, b, [], vb, []);
    assert [b] + [] == [b] && [b + ": " + vb] + [] == [b + ": " + vb];
    CoveredLinesCons(req, a, [b], va, [b + ": " + vb]);
    assert [a] + [b] == [a, b];
    assert [a + ": " + va] + [b + ": " + vb] == [a + ": " + va, b + ": " + vb];
  }

  /** `CoveredLines` over three header names. */
  lemma CoveredHeaderTriple(req: Request, a: string, b: string, c: string, va: string, vb: string, vc: string)
    requires a != "(request-target)" && b != "(request-target)" && c != "(request-target)"
    requires HeaderValue(req.headers, a) == Some(va) && HeaderValue(req.headers, b) == Some(vb)
    requires HeaderValue(req.headers, c) == Some(vc)
    ensures CoveredLines(req, [a, b, c]) == Some([a + ": " + va, b + ": " + vb, c + ": " + vc])
  {
    CoveredHeaderPair(req, b, c, vb, vc);
    CoveredLinesCons(req, a, [b, c], va, [b + ": " + vb, c + ": " + vc]);
    assert [a] + [b, c] == [a, b, c];
    assert [a + ": " + va] + [b + ": " + vb, c + ": " + vc] == [a + ": " + va, b + ": " + vb, c + ": " + vc];
  }

  /** The `(request-target)` line of a request. */
  lemma TargetLine(req: Request, token: string, path: string)
    requires MethodToken(req.verb) == token && RequestTarget(req.url) == path
    ensures "(request-target): " + MethodToken(req.verb) + " " + RequestTarget(req.url)
      == "(request-target): " + token + " " + path
  {
  }

  /** The same holds for POST, the digest line included: the rebuilt string
      matches the signed one exactly when the URL has no query. */
  lemma PostSignatureCoversRequest(env: Env, document: string, url: Uri)
    requires BuildPost(env, document, url).Ok?
    ensures CoveredString(BuildPost(env, document, url).value, PostCovered)
      == Some(PostSigningString(RequestTarget(url), url.host, env.date, DigestOf(env.crypto, document)))
    ensures (CoveredString(BuildPost(env, document, url).value, PostCovered)
      == Some(PostSigningString(AbsolutePath(url), url.host, env.date, DigestOf(env.crypto, document)))) <==> url.query == ""
  {
    var digest := DigestOf(env.crypto, document);
    PostRequestHeaders(env, document, url);
    CoveredPost(BuildPost(env, document, url).value, RequestTarget(url), url.host, env.date, digest);
    if url.query != "" {
      assert |PostSigningString(RequestTarget(url), url.host, env.date, digest)|
        != |PostSigningString(AbsolutePath(url), url.host, env.date, digest)|;
    }
  }

  /** The corrected POST verifies for every URL. */
  lemma CorrectedPostCovers(env: Env, document: string, url: Uri)
    requires CorrectedPost(env, document, url).Ok?
    ensures CoveredString(CorrectedPost(env, document, url).value, PostCovered)
      == Some(PostSigningString(RequestTarget(url), url.host, env.date, DigestOf(env.crypto, document)))
    ensures HeaderValue(CorrectedPost(env, document, url).value.headers, "signature")
      == Some(SignatureHeader(env.keyId, Join(" ", PostCovered),
           env.crypto.base64(env.crypto.rsaSign(env.privatePem,
             PostSigningString(RequestTarget(url), url.host, env.date, DigestOf(env.crypto, document))).value)))
  {
    SignedPostHeaders(env, document, url, RequestTarget(url));
    CoveredPost(CorrectedPost(env, document, url).value, RequestTarget(url), url.host, env.date, DigestOf(env.crypto, document));
  }

  lemma CoveredPost(req: Request, path: string, host: string, date: string, digest: string)
    requires req.verb == Post && RequestTarget(req.url) == path
    requires HeaderValue(req.headers, "host") == Some(host)
    requires HeaderValue(req.headers, "date") == Some(date)
    requires HeaderValue(req.headers, "digest") == Some(digest)
    ensures CoveredString(req, PostCovered) == Some(PostSigningString(path, host, date, digest))
  {
    CoveredPostLines(req, path, host, date, digest);
    PostSigningIsJoin(path, host, date, digest);
  }

  lemma CoveredPostLines(req: Request, path: string, host: string, date: string, digest: string)
    requires req.verb == Post && RequestTarget(req.url) == path
    requires HeaderValue(req.headers, "host") == Some(host)
    requires HeaderValue(req.headers, "date") == Some(date)
    requires HeaderValue(req.headers, "digest") == Some(digest)
    ensures CoveredLines(req, PostCovered) == Some(["(request-target): post " + path, "host: " + host, "date: " + date, "digest: " + digest])
  {
    var tail := ["host: " + host, "date: " + date, "digest: " + digest];
    CoveredPostTail(req, host, date, digest);
    assert PostCovered[1..] == ["host", "date", "digest"];
    CoveredLinesTarget(req, PostCovered, tail);
    TargetLine(req, "post", path);
    assert "(request-target): " + "post" + " " == "(request-target): post ";
    assert ["(request-target): post " + path] + tail == ["(request-target): post " + path, "host: " + host, "date: " + date, "digest: " + digest];
  }

  lemma CoveredPostTail(req: Request, host: string, date: string, digest: string)
    requires HeaderValue(req.headers, "host") == Some(host)
    requires HeaderValue(req.headers, "date") == Some(date)
    requires HeaderValue(req.headers, "digest") == Some(digest)
    ensures CoveredLines(req, ["host", "date", "digest"]) == Some(["host: " + host, "date: " + date, "digest: " + digest])
  {
    CoveredHeaderTriple(req, "host", "date", "digest", host, date, digest);
    assert "host" + ": " == "host: " && "date" + ": " == "date: " && "digest" + ": " == "digest: ";
  }

  /** The `headers` parameter of the GET signature lists exactly the covered
      names, space-separated. */
  lemma GetCoveredParameter()
    ensures Join(" ", GetCovered) == "(request-target) host date"
    ensures Split("(request-target) host date", ' ') == GetCovered
  {
    JoinThree(" ", GetCovered);
    assert forall i :: 0 <= i < |GetCovered| ==> ' ' !in GetCovered[i];
    SplitJoin(GetCovered, ' ');
  }

  /** The `headers` parameter of the POST signature lists exactly the covered
      names, space-separated. */
  lemma PostCoveredParameter()
    ensures Join(" ", PostCovered) == "(request-target) host date digest"
    ensures Split("(request-target) host date digest", ' ') == PostCovered
  {
    assert Join(" ", PostCovered) == "(request-target) host date digest" by {
      JoinFour(" ", PostCovered);
    }
    assert forall i :: 0 <= i < |PostCovered| ==> ' ' !in PostCovered[i] by {
      assert ' ' !in PostCovered[0] && ' ' !in PostCovered[1];
      assert ' ' !in PostCovered[2] && ' ' !in PostCovered[3];
    }
    SplitJoin(PostCovered, ' ');
  }

  /** When path, host and date hold no newline, the GET signing string has
      exactly three lines, with no trailing newline. */
  lemma GetSigningLines(path: string, host: string, date: string)
    requires '\n' !in path && '\n' !in host && '\n' !in date
    ensures Split(GetSigningString(path, host, date), '\n')
      == ["(request-target): get " + path, "host: " + host, "date: " + date]
  {
    var lines := ["(request-target): get " + path, "host: " + host, "date: " + date];
    GetSigningIsJoin(path, host, date);
    NoNewline("(request-target): get ", path);
    NoNewline("host: ", host);
    NoNewline("date: ", date);
    SplitJoin(lines, '\n');
  }

  /** The POST signing string has the same first three lines with method
      `post`, and a fourth and last line carrying the digest. */
  lemma PostSigningLines(path: string, host: string, date: string, digest: string)
    requires '\n' !in path && '\n' !in host && '\n' !in date && '\n' !in digest
    ensures Split(PostSigningString(path, host, date, digest), '\n')
      == ["(request-target): post " + path, "host: " + host, "date: " + date, "digest: " + digest]
  {
    var lines := ["(request-target): post " + path, "host: " + host, "date: " + date, "digest: " + digest];
    PostSigningIsJoin(path, host, date, digest);
    NoNewline("(request-target): post ", path);
    NoNewline("host: ", host);
    NoNewline("date: ", date);
    NoNewline("digest: ", digest);
    SplitJoin(lines, '\n');
  }

  /** The signing strings are their lines joined by newlines. */
  lemma GetSigningIsJoin(path: string, host: string, date: string)
    ensures GetSigningString(path, host, date)
      == Join("\n", ["(request-target): get " + path, "host: " + host, "date: " + date])
  {
    JoinThree("\n", ["(request-target): get " + path, "host: " + host, "date: " + date]);
  }

  lemma PostSigningIsJoin(path: string, host: string, date: string, digest: string)
    ensures PostSigningString(path, host, date, digest)
      == Join("\n", ["(request-target): post " + path, "host: " + host, "date: " + date, "digest: " + digest])
  {
    JoinFour("\n", ["(request-target): post " + path, "host: " + host, "date: " + date, "digest: " + digest]);
  }

  lemma NoNewline(prefix: string, value: string)
    requires '\n' !in prefix && '\n' !in value
    ensures '\n' !in prefix + value
  {
  }

  /** `EnsureSuccessStatusCode`: the body of a 2xx response, an error otherwise. */
  function Exchange(resp: Response, url: Uri): (r: Outcome<string>)
    ensures r.Ok? <==> resp.Response? && IsSuccessStatus(resp.status)
    ensures r.Ok? ==> r.value == resp.body
    ensures resp.Response? && !IsSuccessStatus(resp.status) ==> r == Err(HttpStatus(resp.status))
  {
    match resp
    case Unreachable => Err(Network(Canonical(url)))
    case Response(status, body) => if IsSuccessStatus(status) then Ok(body) else Err(HttpStatus(status))
  }

  /** `SendGetSignedRequest(url)`, signed over the path and the query
      (`CorrectedGet`): at most one request reaches the transport, and the
      call succeeds only on a 2xx answer to it. */
  function SendGet(env: Env, url: Uri): (r: Call<string>)
    ensures |r.log| <= 1
    ensures r.log == [] <==> CorrectedGet(env, url).Err?
    ensures r.log != [] ==> r.log[0] == CorrectedGet(env, url).value
    ensures r.result.Ok? <==> r.log != [] && env.transport(r.log[0]).Response? && IsSuccessStatus(env.transport(r.log[0]).status)
  {
    match CorrectedGet(env, url)
    case Err(e) => Call([], Err(e))
    case Ok(req) => Call([req], Exchange(env.transport(req), url))
  }

  /** `SendPostSignedRequest(document, new Uri(target))`, signed over the
      path and the query (`CorrectedPost`): a missing or malformed target
      fails before anything is sent. */
  function SendPost(env: Env, document: string, target: Option<string>): (r: Call<()>)
    ensures |r.log| <= 1
    ensures target.None? ==> r == Call([], Err(NullReference))
    ensures target.Some? && Parse(target.value).None? ==> r == Call([], Err(UriFormat(target.value)))
    ensures r.log != [] ==> (target.Some? && Parse(target.value).Some?
      && CorrectedPost(env, document, Parse(target.value).value) == Ok(r.log[0]))
    ensures r.log == [] ==> (target.None? || Parse(target.value).None?
      || CorrectedPost(env, document, Parse(target.value).value).Err?)
    ensures r.result.Ok? <==> r.log != [] && env.transport(r.log[0]).Response? && IsSuccessStatus(env.transport(r.log[0]).status)
  {
    match target
    case None => Call([], Err(NullReference))
    case Some(t) =>
      match Parse(t)
      case None => Call([], Err(UriFormat(t)))
      case Some(url) =>
        match CorrectedPost(env, document, url)
        case Err(e) => Call([], Err(e))
        case Ok(req) =>
          match Exchange(env.transport(req), url)
          case Ok(_) => Call([req], Ok(()))
          case Err(e) => Call([req], Err(e))
  }

  /** `FetchActorInformationAsync(actorUrl)`: a signed GET of the actor URL,
      decoded as an actor document. */
  function FetchActor(env: Env, actorUrl: Option<string>): (r: Call<Actor>)
    ensures |r.log| <= 1
    ensures actorUrl.None? ==> r == Call([], Err(NullReference))
    ensures r.log != [] ==> (actorUrl.Some? && Parse(actorUrl.value).Some?
      && CorrectedGet(env, Parse(actorUrl.value).value) == Ok(r.log[0]))
    ensures actorUrl.Some? && Parse(actorUrl.value).None? ==> r == Call([], Err(UriFormat(actorUrl.value)))
    ensures r.result.Ok? <==> (r.log != [] && env.transport(r.log[0]).Response?
      && IsSuccessStatus(env.transport(r.log[0]).status)
      && env.decodeActor(env.transport(r.log[0]).body).Some?)
    ensures r.result.Ok? ==> env.decodeActor(env.transport(r.log[0]).body) == Some(r.result.value)
  {
    match actorUrl
    case None => Call([], Err(NullReference))
    case Some(a) =>
      match Parse(a)
      case None => Call([], Err(UriFormat(a)))
      case Some(url) =>
        var got := SendGet(env, url);
        match got.result
        case Err(e) => Call(got.log, Err(e))
        case Ok(body) =>
          match env.decodeActor(body)
          case None => Call(got.log, Err(JsonInvalid))
          case Some(actor) => Call(got.log, Ok(actor))
  }
}

=== FILE: boost_post.dfy ===
/** BoostPost: finds the notes an account has published and not yet been
    boosted, and sends an Announce of each to every follower's inbox,
    recording per follower whether the delivery worked. */
module BoostPost {
  import opened Wrappers
  import opened Errors
  import opened Json
  import opened Uris
  import Http
  import opened Actors
  import Tables
  import opened FollowerEntity
  import opened InboxMessages
  import opened Storage
  import opened ActorHelper

  /** The command line: the account to boost from, this server's actor, and
      the most notes to boost in one run. */
  datatype Options = Options(account: string, actor: string, max: int)

  // ---------------------------------------------------------------------
  // Finding the notes

  /** `node?.ToString()` of a property: no text for a missing or null
      property. */
  function NodeText(encode: Json -> string, node: Option<Json>): (r: Option<string>)
    ensures node.None? || node.value.JNull? <==> r.None?
    ensures node.Some? && node.value.JStr? ==> r == Some(node.value.s)
  {
    if node.None? then None else ObjectText(encode, node.value)
  }

  /** Step 3, the page holding the items: an inline `first` object, else the
      page fetched from the `first` URL, else the outbox itself when it has an
      `orderedItems` property, else none. */
  function SelectPage(env: Env, outbox: Json): (r: Call<Option<Json>>)
    requires outbox.JObj?
    ensures r.result.Ok? && r.result.value.Some? ==> r.result.value.value.JObj?
    ensures |r.log| <= 1
    ensures Get(outbox, "first").Some? && Get(outbox, "first").value.JObj? ==>
      r == Call([], Ok(Get(outbox, "first")))
    ensures r.log != [] ==> (
      && Get(outbox, "first").Some? && !Get(outbox, "first").value.JObj? && !Get(outbox, "first").value.JNull?
      && var url := ObjectText(env.encode, Get(outbox, "first").value).value;
      && Parse(url).Some? && CorrectedGet(env, Parse(url).value) == Ok(r.log[0]))
    ensures Get(outbox, "first").None? || Get(outbox, "first").value.JNull? ==>
      r == Call([], Ok(if HasKey(outbox, "orderedItems") then Some(outbox) else None))
  {
    var first := Get(outbox, "first");
    if first.Some? && first.value.JObj? then Call([], Ok(first))
    else if first.Some? && !first.value.JNull? then
      var url := ObjectText(env.encode, first.value).value;
      match Parse(url)
      case None => Call([], Err(UriFormat(url)))
      case Some(u) =>
        var got := SendGet(env, u);
        match got.result
        case Err(e) => Call(got.log, Err(e))
        case Ok(body) =>
          match AsObject(env.decodeJson(body))
          case Err(e) => Call(got.log, Err(e))
          case Ok(page) => Call(got.log, Ok(Some(page)))
    else if HasKey(outbox, "orderedItems") then Call([], Ok(Some(outbox)))
    else Call([], Ok(None))
  }

  /** `page["orderedItems"]?.AsArray()`: a missing or null property gives no
      items, anything but an array throws. */
  function PageItems(page: Json): (r: Outcome<seq<Json>>)
    requires page.JObj?
    ensures r.Ok? <==> Get(page, "orderedItems").None? || Get(page, "orderedItems").value.JNull? || Get(page, "orderedItems").value.JArr?
    ensures r.Ok? && |r.value| > 0 ==> Get(page, "orderedItems") == Some(JArr(r.value))
    ensures r.Err? ==> r.error == JsonInvalid
  {
    match Get(page, "orderedItems")
    case None => Ok([])
    case Some(JNull) => Ok([])
    case Some(JArr(items)) => Ok(items)
    case Some(_) => Err(JsonInvalid)
  }

  /** What one outbox item offers: the id of the note it creates, when it is a
      Create whose inline object is a Note with an id. A null item offers
      nothing; indexing any other non-object throws. */
  function Candidate(encode: Json -> string, item: Json): Outcome<Option<string>>
  {
    match item
    case JNull => Ok(None)
    case JObj(_) =>
      if NodeText(encode, Get(item, "type")) != Some("Create") then Ok(None)
      else
        (match Get(item, "object")
         case Some(JObj(ms)) =>
           var obj := JObj(ms);
           if NodeText(encode, Get(obj, "type")) == Some("Note") then Ok(NodeText(encode, Get(obj, "id")))
           else Ok(None)
         case _ => Ok(None))
    case JStr(_) => Err(JsonInvalid)
    case JInt(_) => Err(JsonInvalid)
    case JArr(_) => Err(JsonInvalid)
    case JRaw(_) => Err(JsonInvalid)
  }

  /** An item offers a note exactly when it is a Create whose inline object
      is a Note with an id, and offers that id; only a non-null non-object
      item makes the selection throw. */
  lemma CandidateSpec(encode: Json -> string, item: Json)
    ensures Candidate(encode, item).Err? <==> !item.JNull? && !item.JObj?
    ensures Candidate(encode, item).Err? ==> Candidate(encode, item).error == JsonInvalid
    ensures Candidate(encode, item).Ok? && Candidate(encode, item).value.Some? ==> (
      && NodeText(encode, Get(item, "type")) == Some("Create")
      && Get(item, "object").Some? && Get(item, "object").value.JObj?
      && NodeText(encode, Get(Get(item, "object").value, "type")) == Some("Note")
      && NodeText(encode, Get(Get(item, "object").value, "id")) == Candidate(encode, item).value)
    ensures (
      && item.JObj?
      && NodeText(encode, Get(item, "type")) == Some("Create")
      && Get(item, "object").Some? && Get(item, "object").value.JObj?
      && NodeText(encode, Get(Get(item, "object").value, "type")) == Some("Note")
      && NodeText(encode, Get(Get(item, "object").value, "id")).Some?) ==>
      Candidate(encode, item) == Ok(NodeText(encode, Get(Get(item, "object").value, "id")))
  {
  }

  /** The offers of the items, in order. */
  function Offers(encode: Json -> string, items: seq<Json>): (r: seq<Outcome<Option<string>>>)
    ensures |r| == |items| && forall i :: 0 <= i < |items| ==> r[i] == Candidate(encode, items[i])
  {
    seq(|items|, i requires 0 <= i < |items| => Candidate(encode, items[i]))
  }

  /** The offered ids, in order, less those already boosted; the first
      failing offer makes the whole selection fail. */
  function Select(offers: seq<Outcome<Option<string>>>, boosted: set<string>): (r: Outcome<seq<string>>)
    ensures r.Ok? ==> forall x :: x in r.value ==> x !in boosted
    ensures r.Ok? ==> |r.value| <= |offers|
    decreases |offers|
  {
    if |offers| == 0 then Ok([])
    else
      var rest := Select(offers[1..], boosted);
      if offers[0].Err? then Err(offers[0].error)
      else if rest.Err? then Err(rest.error)
      else
        Ok(Offered(offers[0].value, boosted) + rest.value)
  }

  /** The selection fails exactly when some offer does. */
  lemma {:induction false} SelectFails(offers: seq<Outcome<Option<string>>>, boosted: set<string>)
    ensures Select(offers, boosted).Ok? <==> forall i :: 0 <= i < |offers| ==> offers[i].Ok?
    decreases |offers|
  {
    if |offers| > 0 {
      SelectFails(offers[1..], boosted);
      assert forall i :: 1 <= i < |offers| ==> offers[i] == offers[1..][i - 1];
    }
  }

  /** The id an item offers, unless it was boosted already. */
  function Offered(offer: Option<string>, boosted: set<string>): (r: seq<string>)
    ensures forall x :: x in r <==> offer == Some(x) && x !in boosted
  {
    if offer.Some? && offer.value !in boosted then [offer.value] else []
  }

  /** The notes selected are exactly the ids offered that were not boosted
      before. */
  lemma {:induction false} SelectMembers(offers: seq<Outcome<Option<string>>>, boosted: set<string>, x: string)
    requires Select(offers, boosted).Ok?
    ensures x in Select(offers, boosted).value <==>
      x !in boosted && exists i :: 0 <= i < |offers| && offers[i] == Ok(Some(x))
    decreases |offers|
  {
    if |offers| > 0 {
      SelectMembers(offers[1..], boosted, x);
      if exists i :: 0 <= i < |offers[1..]| && offers[1..][i] == Ok(Some(x)) {
        var i :| 0 <= i < |offers[1..]| && offers[1..][i] == Ok(Some(x));
        assert offers[i + 1] == offers[1..][i];
      }
      if exists i :: 0 <= i < |offers| && offers[i] == Ok(Some(x)) {
        var i :| 0 <= i < |offers| && offers[i] == Ok(Some(x));
        if i > 0 {
          assert offers[1..][i - 1] == offers[i];
        }
      }
    }
  }

  /** Selection keeps order: selecting from two runs of offers is selecting
      from each and concatenating. */
  lemma {:induction false} SelectAppend(a: seq<Outcome<Option<string>>>, b: seq<Outcome<Option<string>>>, boosted: set<string>)
    requires Select(a, boosted).Ok? && Select(b, boosted).Ok?
    ensures Select(a + b, boosted) == Ok(Select(a, boosted).value + Select(b, boosted).value)
    decreases |a|
  {
    if |a| == 0 {
      assert a + b == b;
      assert Select(a, boosted).value == [];
      assert [] + Select(b, boosted).value == Select(b, boosted).value;
    } else {
      var ab := a + b;
      assert ab[0] == a[0] && ab[1..] == a[1..] + b;
      SelectAppend(a[1..], b, boosted);
      var x, y, z := Offered(a[0].value, boosted), Select(a[1..], boosted).value, Select(b, boosted).value;
      assert x + (y + z) == (x + y) + z;
    }
  }

  /** Step 4: the ids offered by the items, in outbox order, less those
      already boosted. */
  function NotesToBoost(encode: Json -> string, items: seq<Json>, boosted: set<string>): (r: Outcome<seq<string>>)
    ensures r.Ok? <==> forall i :: 0 <= i < |items| ==> Candidate(encode, items[i]).Ok?
    ensures r.Ok? ==> forall x :: x in r.value ==> x !in boosted
    ensures r.Ok? ==> |r.value| <= |items|
  {
    SelectFails(Offers(encode, items), boosted);
    Select(Offers(encode, items), boosted)
  }

  /** A note is selected exactly when some item offers it and it was not
      boosted before. */
  lemma NotesToBoostMembers(encode: Json -> string, items: seq<Json>, boosted: set<string>, x: string)
    requires NotesToBoost(encode, items, boosted).Ok?
    ensures x in NotesToBoost(encode, items, boosted).value <==>
      x !in boosted && exists i :: 0 <= i < |items| && Candidate(encode, items[i]) == Ok(Some(x))
  {
    SelectMembers(Offers(encode, items), boosted, x);
  }

  /** The selection keeps outbox order: the notes of two runs of items are the
      notes of their concatenation. */
  lemma NotesToBoostAppend(encode: Json -> string, a: seq<Json>, b: seq<Json>, boosted: set<string>)
    requires NotesToBoost(encode, a, boosted).Ok? && NotesToBoost(encode, b, boosted).Ok?
    ensures NotesToBoost(encode, a + b, boosted) == Ok(NotesToBoost(encode, a, boosted).value + NotesToBoost(encode, b, boosted).value)
  {
    OffersAppend(encode, a, b);
    SelectAppend(Offers(encode, a), Offers(encode, b), boosted);
  }

  lemma OffersAppend(encode: Json -> string, a: seq<Json>, b: seq<Json>)
    ensures Offers(encode, a + b) == Offers(encode, a) + Offers(encode, b)
  {
  }

  /** Steps 3 and 4 on the outbox document: the page, its items, and the
      notes among them. None means there is nothing to boost. */
  function NotesOfOutbox(env: Env, outbox: Json, boosted: set<string>): (r: Call<Option<seq<string>>>)
    requires outbox.JObj?
    ensures |r.log| <= 1
    ensures r.result.Ok? && r.result.value.Some? ==> (
      && |r.result.value.value| > 0
      && forall x :: x in r.result.value.value ==> x !in boosted)
  {
    var selected := SelectPage(env, outbox);
    match selected.result
    case Err(e) => Call(selected.log, Err(e))
    case Ok(None) => Call(selected.log, Ok(None))
    case Ok(Some(page)) =>
      match PageItems(page)
      case Err(e) => Call(selected.log, Err(e))
      case Ok(items) =>
        if |items| == 0 then Call(selected.log, Ok(None))
        else
          match NotesToBoost(env.encode, items, boosted)
          case Err(e) => Call(selected.log, Err(e))
          case Ok(notes) =>
            if |notes| == 0 then Call(selected.log, Ok(None))
            else Call(selected.log, Ok(Some(notes)))
  }

  /** Steps 1 and 2: the account's actor and its outbox document. */
  function FetchOutbox(env: Env, account: string): (r: Call<(Actor, Json)>)
    ensures |r.log| <= 2
    ensures r.result.Ok? ==> FetchActor(env, Some(account)).result == Ok(r.result.value.0) && r.result.value.1.JObj?
  {
    var fetched := FetchActor(env, Some(account));
    match fetched.result
    case Err(e) => Call(fetched.log, Err(e))
    case Ok(accountActor) =>
      match accountActor.outbox
      case None => Call(fetched.log, Err(NullReference))
      case Some(outboxUrl) =>
        match Parse(outboxUrl)
        case None => Call(fetched.log, Err(UriFormat(outboxUrl)))
        case Some(u) =>
          var got := SendGet(env, u);
          match got.result
          case Err(e) => Call(fetched.log + got.log, Err(e))
          case Ok(body) =>
            match AsObject(env.decodeJson(body))
            case Err(e) => Call(fetched.log + got.log, Err(e))
            case Ok(outbox) => Call(fetched.log + got.log, Ok((accountActor, outbox)))
  }

  /** Steps 1 to 4: fetch the account, its outbox and the page, and select
      the notes. None means the run stops with nothing to do. */
  function Discover(env: Env, account: string, boosted: set<string>): (r: Call<Option<(Actor, seq<string>)>>)
    ensures |r.log| <= 3
    ensures r.result.Ok? && r.result.value.Some? ==> (
      && var found := r.result.value.value;
      && FetchActor(env, Some(account)).result == Ok(found.0)
      && |found.1| > 0
      && forall x :: x in found.1 ==> x !in boosted)
  {
    var outbox := FetchOutbox(env, account);
    match outbox.result
    case Err(e) => Call(outbox.log, Err(e))
    case Ok((accountActor, doc)) =>
      var notes := NotesOfOutbox(env, doc, boosted);
      match notes.result
      case Err(e) => Call(outbox.log + notes.log, Err(e))
      case Ok(None) => Call(outbox.log + notes.log, Ok(None))
      case Ok(Some(ns)) => Call(outbox.log + notes.log, Ok(Some((accountActor, ns))))
  }

  // ---------------------------------------------------------------------
  // The Announce

  /** `AnnounceActivity`, with the CLR member names. */
  function Announce(opts: Options, id: string, published: string, noteUri: string): Json {
    JObj([
      P("_context", JStr(ActivityStreams)),
      P("Id", JStr(id)),
      P("Type", JStr("Announce")),
      P("Actor", JStr(opts.actor)),
      P("Published", JStr(published)),
      P("To", Strs([PublicAddress])),
      P("Cc", Strs([opts.actor + "/followers", opts.account])),
      P("Object", JStr(noteUri))])
  }

  /** The Announce's id: this actor, `#boosts/`, and a fresh GUID. */
  function AnnounceId(opts: Options, guid: string): string {
    opts.actor + "#boosts/" + guid
  }

  lemma LowerFirstNames()
    ensures ConvertName(ContextLowerFirst, "_context") == "@context"
    ensures ConvertName(ContextLowerFirst, "Id") == "id"
    ensures ConvertName(ContextLowerFirst, "Type") == "type"
    ensures ConvertName(ContextLowerFirst, "Actor") == "actor"
    ensures ConvertName(ContextLowerFirst, "Published") == "published"
    ensures ConvertName(ContextLowerFirst, "To") == "to"
    ensures ConvertName(ContextLowerFirst, "Cc") == "cc"
    ensures ConvertName(ContextLowerFirst, "Object") == "object"
  {
    assert LowerFirst("Id") == "id";
    assert LowerFirst("Type") == "type";
    assert LowerFirst("Actor") == "actor";
    assert LowerFirst("Published") == "published";
    assert LowerFirst("To") == "to";
    assert LowerFirst("Cc") == "cc";
    assert LowerFirst("Object") == "object";
  }

  /** The Announce as written: public, copied to this actor's followers and
      to the boosted account, with the note's URI as object. */
  lemma AnnounceOnWire(opts: Options, id: string, published: string, noteUri: string)
    ensures Wire(ContextLowerFirst, Announce(opts, id, published, noteUri)) == JObj([
      F("@context", JStr(ActivityStreams)),
      F("id", JStr(id)),
      F("type", JStr("Announce")),
      F("actor", JStr(opts.actor)),
      F("published", JStr(published)),
      F("to", Strs([PublicAddress])),
      F("cc", Strs([opts.actor + "/followers", opts.account])),
      F("object", JStr(noteUri))])
  {
    LowerFirstNames();
    WireStrs(ContextLowerFirst, [PublicAddress]);
    WireStrs(ContextLowerFirst, [opts.actor + "/followers", opts.account]);
    WireMembers(ContextLowerFirst, Announce(opts, id, published, noteUri).members, [
      F("@context", JStr(ActivityStreams)),
      F("id", JStr(id)),
      F("type", JStr("Announce")),
      F("actor", JStr(opts.actor)),
      F("published", JStr(published)),
      F("to", Strs([PublicAddress])),
      F("cc", Strs([opts.actor + "/followers", opts.account])),
      F("object", JStr(noteUri))]);
  }

  // ---------------------------------------------------------------------
  // Delivering one Announce

  /** What happened to one follower for one note. */
  datatype Delivery =
    | Skipped                                            // an error was already recorded
    | Unresolved(error: Error)                           // fetching the actor failed
    | AlreadySent(endpoint: Option<string>)              // its endpoint got this note already
    | Attempted(endpoint: Option<string>, result: Outcome<()>)

  predicate Failure(d: Delivery) {
    d.Unresolved? || (d.Attempted? && d.result.Err?)
  }

  /** The follower with a failure recorded. */
  function Failed(f: Follower, message: string, at: string): (r: Follower)
    ensures r.lastError == Some(message) && r.lastErrorDate == Some(at)
    ensures r.lastSuccessDate == f.lastSuccessDate && KeyOf(r) == KeyOf(f) && r.actorUri == f.actorUri
  {
    f.(lastError := Some(message), lastErrorDate := Some(at))
  }

  /** The follower with a success recorded: both error fields cleared. */
  function Succeeded(f: Follower, at: string): (r: Follower)
    ensures r.lastSuccessDate == Some(at) && r.lastError.None? && r.lastErrorDate.None?
    ensures KeyOf(r) == KeyOf(f) && r.actorUri == f.actorUri
  {
    f.(lastSuccessDate := Some(at), lastError := None, lastErrorDate := None)
  }

  /** One follower: what happened, the follower as it is afterwards, and the
      requests handed to the transport. */
  datatype Visit = Visit(delivery: Delivery, follower: Follower, log: seq<Http.Request>)

  /** One pass of the inner loop for follower `f`, with `sent` the endpoints
      already used for this note. */
  function VisitFollower(env: Env, document: string, f: Follower, sent: seq<Option<string>>): (r: Visit)
    ensures r.delivery.Skipped? <==> f.lastError.Some?
    ensures r.delivery.Skipped? || r.delivery.AlreadySent? ==> r.follower == f
    ensures r.delivery.AlreadySent? ==> r.delivery.endpoint in sent
    ensures r.delivery.Attempted? ==> (
      && r.delivery.endpoint !in sent
      && FetchActor(env, Some(f.actorUri)).result.Ok?
      && r.delivery.endpoint == PreferredInbox(FetchActor(env, Some(f.actorUri)).result.value)
      && r.log == FetchActor(env, Some(f.actorUri)).log + SendPost(env, document, r.delivery.endpoint).log
      && r.delivery.result == SendPost(env, document, r.delivery.endpoint).result)
    ensures r.delivery.Attempted? && r.delivery.result.Ok? ==> r.follower == Succeeded(f, env.timestamp)
    ensures r.delivery.Unresolved? ==> r.follower == Failed(f, env.describe(r.delivery.error), env.timestamp)
    ensures r.delivery.Attempted? && r.delivery.result.Err? ==>
      r.follower == Failed(f, env.describe(r.delivery.result.error), env.timestamp)
    ensures |r.log| <= 2
    ensures KeyOf(r.follower) == KeyOf(f)
    ensures f.lastError.Some? ==> r == Visit(Skipped, f, [])
    ensures var fetched := FetchActor(env, Some(f.actorUri));
      f.lastError.None? && fetched.result.Err? ==>
        r == Visit(Unresolved(fetched.result.error), Failed(f, env.describe(fetched.result.error), env.timestamp), fetched.log)
    ensures var fetched := FetchActor(env, Some(f.actorUri));
      f.lastError.None? && fetched.result.Ok? ==>
        if PreferredInbox(fetched.result.value) in sent
        then r == Visit(AlreadySent(PreferredInbox(fetched.result.value)), f, fetched.log)
        else r.delivery.Attempted?
  {
    if f.lastError.Some? then Visit(Skipped, f, [])
    else
      var fetched := FetchActor(env, Some(f.actorUri));
      match fetched.result
      case Err(e) => Visit(Unresolved(e), Failed(f, env.describe(e), env.timestamp), fetched.log)
      case Ok(actor) =>
        var endpoint := PreferredInbox(actor);
        if endpoint in sent then Visit(AlreadySent(endpoint), f, fetched.log)
        else
          var posted := SendPost(env, document, endpoint);
          var after := match posted.result
            case Ok(_) => Succeeded(f, env.timestamp)
            case Err(e) => Failed(f, env.describe(e), env.timestamp);
          Visit(Attempted(endpoint, posted.result), after, fetched.log + posted.log)
  }

  /** The endpoints posted to, in order. */
  function AttemptedEndpoints(ds: seq<Delivery>): (r: seq<Option<string>>)
    ensures forall e :: e in r <==> exists j :: 0 <= j < |ds| && ds[j].Attempted? && ds[j].endpoint == e
    ensures |r| <= |ds|
  {
    if |ds| == 0 then []
    else
      var rest := AttemptedEndpoints(ds[..|ds| - 1]);
      assert forall j :: 0 <= j < |ds| - 1 ==> ds[..|ds| - 1][j] == ds[j];
      if ds[|ds| - 1].Attempted? then rest + [ds[|ds| - 1].endpoint] else rest
  }

  /** What one delivery did to its follower's row: the key is kept, a
      follower with an error is skipped and left alone, a success clears the
      error, and a failure records one stamped with this run's time. */
  predicate Recorded(env: Env, before: Tables.Row<Follower>, after: Tables.Row<Follower>, d: Delivery) {
    && after.key == before.key
    && (d.Skipped? <==> before.value.lastError.Some?)
    && (d.Skipped? || d.AlreadySent? ==> after == before)
    && (d.Attempted? && d.result.Ok? ==> after.value == Succeeded(before.value, env.timestamp))
    && (Failure(d) ==> after.value.lastError.Some? && after.value.lastErrorDate == Some(env.timestamp))
  }

  /** No endpoint is posted to twice, and every endpoint passed over was
      posted to by an earlier follower. */
  predicate OncePerEndpoint(ds: seq<Delivery>) {
    && (forall j, k :: 0 <= j < k < |ds| && ds[j].Attempted? && ds[k].Attempted? ==> ds[j].endpoint != ds[k].endpoint)
    && (forall k :: 0 <= k < |ds| && ds[k].AlreadySent? ==> ds[k].endpoint in AttemptedEndpoints(ds[..k]))
  }

  /** The inner loop as a recursive definition over the first `n` rows:
      each follower is visited with the endpoints the deliveries before it
      posted to, and the requests are those of the visits in row order. */
  datatype Pass = Pass(ds: seq<Delivery>, followers: seq<Follower>, log: seq<Http.Request>)

  function Passes(env: Env, document: string, t: Tables.Table<Follower>, n: nat): (p: Pass)
    requires n <= |t|
    ensures |p.ds| == n && |p.followers| == n
    decreases n
  {
    if n == 0 then Pass([], [], [])
    else
      var p := Passes(env, document, t, n - 1);
      var v := VisitFollower(env, document, t[n - 1].value, AttemptedEndpoints(p.ds));
      Pass(p.ds + [v.delivery], p.followers + [v.follower], p.log + v.log)
  }

  /** The POST to the account's own inbox, unless a follower's delivery
      already used it. */
  function AccountRequests(env: Env, document: string, accountActor: Actor, ds: seq<Delivery>): (r: seq<Http.Request>)
    ensures |r| <= 1
    ensures PreferredInbox(accountActor) in AttemptedEndpoints(ds) ==> r == []
    ensures PreferredInbox(accountActor) !in AttemptedEndpoints(ds) ==> r == SendPost(env, document, PreferredInbox(accountActor)).log
  {
    if PreferredInbox(accountActor) in AttemptedEndpoints(ds) then [] else SendPost(env, document, PreferredInbox(accountActor)).log
  }

  /** The inner loop over the followers, for one note. The table is the
      in-memory follower list: each outcome is written back to its row,
      here all at once after the loop. */
  method Deliver(env: Env, document: string, t: Tables.Table<Follower>)
    returns (t': Tables.Table<Follower>, ds: seq<Delivery>, sent: seq<Option<string>>, log: seq<Http.Request>)
    ensures |t'| == |t| && |ds| == |t|
    ensures forall j :: 0 <= j < |t| ==> Recorded(env, t[j], t'[j], ds[j])
    ensures OncePerEndpoint(ds)
    ensures sent == AttemptedEndpoints(ds)
    ensures |log| <= 2 * |t|
    ensures ds == Passes(env, document, t, |t|).ds
    ensures log == Passes(env, document, t, |t|).log
    ensures t' == Tables.WithValues(t, Passes(env, document, t, |t|).followers)
  {
    ds := [];
    sent := [];
    log := [];
    var rows: seq<Follower> := [];
    var i := 0;
    while i < |t|
      invariant 0 <= i <= |t|
      invariant Passes(env, document, t, i) == Pass(ds, rows, log)
      invariant sent == AttemptedEndpoints(ds)
    {
      var v := VisitFollower(env, document, t[i].value, sent);
      PassesStep(env, document, t, i, v);
      AttemptedSnoc(ds, v.delivery);
      ds := ds + [v.delivery];
      if v.delivery.Attempted? {
        sent := sent + [v.delivery.endpoint];
      }
      log := log + v.log;
      rows := rows + [v.follower];
      i := i + 1;
    }
    t' := Tables.WithValues(t, rows);
    PassesFacts(env, document, t);
  }

  /** A whole pass records each row's delivery, posts to each endpoint once
      and makes at most two requests per row. */
  lemma PassesFacts(env: Env, document: string, t: Tables.Table<Follower>)
    ensures var p := Passes(env, document, t, |t|);
      && (forall j :: 0 <= j < |t| ==> Recorded(env, t[j], Tables.Row(t[j].key, p.followers[j]), p.ds[j]))
      && OncePerEndpoint(p.ds)
      && |p.log| <= 2 * |t|
  {
    forall j | 0 <= j < |t|
      ensures Recorded(env, t[j], Tables.Row(t[j].key, Passes(env, document, t, |t|).followers[j]), Passes(env, document, t, |t|).ds[j])
    {
      PassesRecorded(env, document, t, |t|, j);
    }
    PassesOnce(env, document, t, |t|);
    PassesLogBound(env, document, t, |t|);
  }

  /** One more row visited. */
  lemma PassesStep(env: Env, document: string, t: Tables.Table<Follower>, i: nat, v: Visit)
    requires i < |t|
    requires v == VisitFollower(env, document, t[i].value, AttemptedEndpoints(Passes(env, document, t, i).ds))
    ensures var p := Passes(env, document, t, i);
      Passes(env, document, t, i + 1) == Pass(p.ds + [v.delivery], p.followers + [v.follower], p.log + v.log)
  {
  }

  /** One more delivery adds its endpoint when it posted. */
  lemma AttemptedSnoc(ds: seq<Delivery>, d: Delivery)
    ensures AttemptedEndpoints(ds + [d]) == if d.Attempted? then AttemptedEndpoints(ds) + [d.endpoint] else AttemptedEndpoints(ds)
  {
    assert (ds + [d])[..|ds|] == ds;
  }

  /** One visit records what it did in its row. */
  lemma VisitRecorded(env: Env, document: string, row: Tables.Row<Follower>, sent: seq<Option<string>>)
    ensures var v := VisitFollower(env, document, row.value, sent);
      Recorded(env, row, Tables.Row(row.key, v.follower), v.delivery)
  {
  }

  /** Row `j` of a pass records what its delivery did. */
  lemma {:induction false} PassesRecorded(env: Env, document: string, t: Tables.Table<Follower>, n: nat, j: nat)
    requires j < n <= |t|
    ensures var p := Passes(env, document, t, n);
      Recorded(env, t[j], Tables.Row(t[j].key, p.followers[j]), p.ds[j])
    decreases n
  {
    var p := Passes(env, document, t, n - 1);
    var v := VisitFollower(env, document, t[n - 1].value, AttemptedEndpoints(p.ds));
    PassesStep(env, document, t, n - 1, v);
    if j < n - 1 {
      PassesRecorded(env, document, t, n - 1, j);
    } else {
      VisitRecorded(env, document, t[n - 1], AttemptedEndpoints(p.ds));
    }
  }

  /** A pass makes at most two requests per row. */
  lemma {:induction false} PassesLogBound(env: Env, document: string, t: Tables.Table<Follower>, n: nat)
    requires n <= |t|
    ensures |Passes(env, document, t, n).log| <= 2 * n
    decreases n
  {
    if n > 0 {
      PassesLogBound(env, document, t, n - 1);
    }
  }

  /** A pass posts to each endpoint at most once, and passes over only
      endpoints already posted to. */
  lemma {:induction false} PassesOnce(env: Env, document: string, t: Tables.Table<Follower>, n: nat)
    requires n <= |t|
    ensures OncePerEndpoint(Passes(env, document, t, n).ds)
    decreases n
  {
    if n > 0 {
      PassesOnce(env, document, t, n - 1);
      PassesDeliveryStep(env, document, t, n);
      DeliveryAppended(Passes(env, document, t, n - 1).ds, Passes(env, document, t, n).ds[n - 1]);
    }
  }

  /** The delivery for row `n - 1` posts only to an endpoint not yet used,
      and passes over only a used one. */
  lemma PassesDeliveryStep(env: Env, document: string, t: Tables.Table<Follower>, n: nat)
    requires 0 < n <= |t|
    ensures var ds := Passes(env, document, t, n - 1).ds;
      var d := Passes(env, document, t, n).ds[n - 1];
      && Passes(env, document, t, n).ds == ds + [d]
      && (d.Attempted? ==> d.endpoint !in AttemptedEndpoints(ds))
      && (d.AlreadySent? ==> d.endpoint in AttemptedEndpoints(ds))
  {
    var p := Passes(env, document, t, n - 1);
    var v := VisitFollower(env, document, t[n - 1].value, AttemptedEndpoints(p.ds));
    PassesStep(env, document, t, n - 1, v);
  }

  /** Appending a delivery that did not post to a used endpoint, and that
      passed over only a used one, keeps each endpoint used once. */
  lemma DeliveryAppended(ds: seq<Delivery>, d: Delivery)
    requires OncePerEndpoint(ds)
    requires d.Attempted? ==> d.endpoint !in AttemptedEndpoints(ds)
    requires d.AlreadySent? ==> d.endpoint in AttemptedEndpoints(ds)
    ensures OncePerEndpoint(ds + [d])
    ensures AttemptedEndpoints(ds + [d]) == if d.Attempted? then AttemptedEndpoints(ds) + [d.endpoint] else AttemptedEndpoints(ds)
  {
    var e := ds + [d];
    assert e[..|e| - 1] == ds;
    forall k | 0 <= k < |ds| ensures e[..k] == ds[..k] { }
    forall j | 0 <= j < |ds| && ds[j].Attempted? ensures ds[j].endpoint in AttemptedEndpoints(ds) { }
  }

  // ---------------------------------------------------------------------
  // The run

  /** Step 6 for one note: the followers, then the account's own inbox unless
      it was already used. A failure at the account's inbox is ignored. */
  method BoostNote(env: Env, opts: Options, accountActor: Actor, document: string, t: Tables.Table<Follower>)
    returns (t': Tables.Table<Follower>, ds: seq<Delivery>, log: seq<Http.Request>)
    ensures |t'| == |t| && |ds| == |t|
    ensures forall j :: 0 <= j < |t| ==> Recorded(env, t[j], t'[j], ds[j])
    ensures OncePerEndpoint(ds)
    ensures |log| <= 2 * |t| + 1
    ensures PreferredInbox(accountActor) in AttemptedEndpoints(ds) ==> |log| <= 2 * |t|
    ensures NoteRound(env, accountActor, document, t) == Round(ds, t', log)
  {
    var sent, followerLog;
    t', ds, sent, followerLog := Deliver(env, document, t);
    var accountInbox := PreferredInbox(accountActor);
    if accountInbox !in sent {
      log := followerLog + SendPost(env, document, accountInbox).log;
    } else {
      log := followerLog;
    }
  }

  /** The Announce of one note as sent. */
  function AnnounceText(env: Env, opts: Options, g: string, at: string, noteUri: string): string {
    env.encode(Wire(ContextLowerFirst, Announce(opts, AnnounceId(opts, g), at, noteUri)))
  }

  /** How many of `notes` one run boosts. */
  function Quota(opts: Options, notes: seq<string>): (n: nat)
    ensures n <= |notes|
    ensures opts.max <= 0 ==> n == 0
    ensures opts.max > 0 ==> n == if opts.max < |notes| then opts.max else |notes|
  {
    if opts.max <= 0 then 0 else if opts.max < |notes| then opts.max else |notes|
  }

  /** One note's round: the deliveries, the table after it and the
      requests, in order. */
  datatype Round = Round(ds: seq<Delivery>, table: Tables.Table<Follower>, log: seq<Http.Request>)

  /** Step 6 for one note as a definition: the inner loop over the table,
      then the account's own inbox unless a follower already used it. */
  function NoteRound(env: Env, accountActor: Actor, document: string, t: Tables.Table<Follower>): (r: Round)
    ensures |r.ds| == |t| && |r.table| == |t|
    ensures forall j :: 0 <= j < |t| ==> Recorded(env, t[j], r.table[j], r.ds[j])
  {
    var p := Passes(env, document, t, |t|);
    forall j | 0 <= j < |t|
      ensures Recorded(env, t[j], Tables.WithValues(t, p.followers)[j], p.ds[j])
    {
      PassesRecorded(env, document, t, |t|, j);
    }
    Round(p.ds, Tables.WithValues(t, p.followers), p.log + AccountRequests(env, document, accountActor, p.ds))
  }

  /** How a run handles note `k` from the table it has reached. */
  type Rounder = (Tables.Table<Follower>, nat) -> Round

  /** `round` is how BoostPost handles `notes`: note `k` is announced with
      the `k`th GUID and timestamp. What it does past the list is left open,
      as a run never gets there (see Quota). */
  ghost predicate Announces(round: Rounder, env: Env, opts: Options, accountActor: Actor, notes: seq<string>,
                            guid: nat -> string, published: nat -> string) {
    forall u: Tables.Table<Follower>, k: nat
      {:trigger NoteRound(env, accountActor, AnnounceText(env, opts, guid(k), published(k), notes[k]), u)} ::
      k < |notes| ==> round(u, k) == NoteRound(env, accountActor, AnnounceText(env, opts, guid(k), published(k), notes[k]), u)
  }

  /** One function that announces the notes: past the list it sends an
      empty document. */
  function NoteRounds(env: Env, opts: Options, accountActor: Actor, notes: seq<string>,
                      guid: nat -> string, published: nat -> string): Rounder {
    (u: Tables.Table<Follower>, k: nat) =>
      if k < |notes| then NoteRound(env, accountActor, AnnounceText(env, opts, guid(k), published(k), notes[k]), u)
      else NoteRound(env, accountActor, "", u)
  }

  /** The round of one note of a function that announces the notes. */
  lemma AnnouncedAt(round: Rounder, env: Env, opts: Options, accountActor: Actor, notes: seq<string>,
                    guid: nat -> string, published: nat -> string, u: Tables.Table<Follower>, k: nat)
    requires Announces(round, env, opts, accountActor, notes, guid, published) && k < |notes|
    ensures round(u, k) == NoteRound(env, accountActor, AnnounceText(env, opts, guid(k), published(k), notes[k]), u)
  {
  }

  lemma NoteRoundsAnnounce(env: Env, opts: Options, accountActor: Actor, notes: seq<string>,
                           guid: nat -> string, published: nat -> string)
    ensures Announces(NoteRounds(env, opts, accountActor, notes, guid, published), env, opts, accountActor, notes, guid, published)
  {
  }

  /** Some function announces the notes. */
  lemma AnAnnouncer(env: Env, opts: Options, accountActor: Actor, notes: seq<string>,
                    guid: nat -> string, published: nat -> string)
    returns (round: Rounder)
    ensures Announces(round, env, opts, accountActor, notes, guid, published)
  {
    NoteRoundsAnnounce(env, opts, accountActor, notes, guid, published);
    round := NoteRounds(env, opts, accountActor, notes, guid, published);
  }

  /** The first `n` rounds keep the table's size and give one delivery per
      row. */
  ghost predicate Sizes(round: Rounder, n: nat) {
    forall u: Tables.Table<Follower>, k: nat {:trigger round(u, k)} ::
      k < n ==> |round(u, k).ds| == |u| && |round(u, k).table| == |u|
  }

  /** The first `n` rounds also record in each row what they did there. */
  ghost predicate RecordsRows(env: Env, round: Rounder, n: nat) {
    && Sizes(round, n)
    && forall u: Tables.Table<Follower>, k: nat, j
         {:trigger Recorded(env, u[j], round(u, k).table[j], round(u, k).ds[j])} ::
         k < n && 0 <= j < |u| ==> Recorded(env, u[j], round(u, k).table[j], round(u, k).ds[j])
  }

  lemma AnnouncedRecords(round: Rounder, env: Env, opts: Options, accountActor: Actor, notes: seq<string>,
                         guid: nat -> string, published: nat -> string)
    requires Announces(round, env, opts, accountActor, notes, guid, published)
    ensures RecordsRows(env, round, |notes|)
  {
    forall u: Tables.Table<Follower>, k: nat | k < |notes|
      ensures |round(u, k).ds| == |u| && |round(u, k).table| == |u|
      ensures forall j :: 0 <= j < |u| ==> Recorded(env, u[j], round(u, k).table[j], round(u, k).ds[j])
    {
      assert round(u, k) == NoteRound(env, accountActor, AnnounceText(env, opts, guid(k), published(k), notes[k]), u);
    }
  }

  /** The outer loop as a recursive definition over the first `n` notes: the
      table after them, each note's deliveries, and all requests in order. */
  datatype Boosting = Boosting(table: Tables.Table<Follower>, rounds: seq<seq<Delivery>>, log: seq<Http.Request>)

  function Boosts(round: Rounder, t: Tables.Table<Follower>, n: nat): (b: Boosting)
    ensures |b.rounds| == n
    ensures Sizes(round, n) ==> |b.table| == |t| && forall r :: 0 <= r < n ==> |b.rounds[r]| == |t|
    decreases n
  {
    if n == 0 then Boosting(t, [], [])
    else
      var b := Boosts(round, t, n - 1);
      var x := round(b.table, n - 1);
      Boosting(x.table, b.rounds + [x.ds], b.log + x.log)
  }

  /** Two functions that agree on the first `n` rounds give the same run. */
  lemma {:induction false} BoostsAgree(r1: Rounder, r2: Rounder, t: Tables.Table<Follower>, n: nat)
    requires forall u: Tables.Table<Follower>, k: nat :: k < n ==> r1(u, k) == r2(u, k)
    ensures Boosts(r1, t, n) == Boosts(r2, t, n)
    decreases n
  {
    if n > 0 {
      BoostsAgree(r1, r2, t, n - 1);
      var u := Boosts(r1, t, n - 1).table;
      assert r1(u, n - 1) == r2(u, n - 1);
    }
  }

  /** So every function that announces the notes gives the same run. */
  lemma AnnouncedAgree(r1: Rounder, r2: Rounder, env: Env, opts: Options, accountActor: Actor, notes: seq<string>,
                       guid: nat -> string, published: nat -> string, t: Tables.Table<Follower>, n: nat)
    requires Announces(r1, env, opts, accountActor, notes, guid, published)
    requires Announces(r2, env, opts, accountActor, notes, guid, published)
    requires n <= |notes|
    ensures Boosts(r1, t, n) == Boosts(r2, t, n)
  {
    forall u: Tables.Table<Follower>, k: nat | k < n
      ensures r1(u, k) == r2(u, k)
    {
      assert r1(u, k) == NoteRound(env, accountActor, AnnounceText(env, opts, guid(k), published(k), notes[k]), u);
    }
    BoostsAgree(r1, r2, t, n);
  }

  /** Step 6 for note `n` of the list: announce it with the `n`th GUID and
      timestamp and deliver it; this is round `n` of any function that
      announces the notes. */
  method BoostNth(env: Env, opts: Options, accountActor: Actor, notes: seq<string>, guid: nat -> string,
                  published: nat -> string, n: nat, t: Tables.Table<Follower>, ghost round: Rounder)
    returns (t': Tables.Table<Follower>, ds: seq<Delivery>, log: seq<Http.Request>)
    requires n < |notes| && Announces(round, env, opts, accountActor, notes, guid, published)
    ensures round(t, n) == Round(ds, t', log)
  {
    var document := AnnounceText(env, opts, guid(n), published(n), notes[n]);
    AnnouncedAt(round, env, opts, accountActor, notes, guid, published, t, n);
    t', ds, log := BoostNote(env, opts, accountActor, document, t);
  }

  /** The rest of the run once the notes are known: boost at most
      `opts.max` of them, in order, each with its own GUID and timestamp. A
      follower that fails for one note is skipped for every later one. */
  method BoostAll(env: Env, opts: Options, accountActor: Actor, notes: seq<string>, t: Tables.Table<Follower>,
                  guid: nat -> string, published: nat -> string)
    returns (t': Tables.Table<Follower>, rounds: seq<seq<Delivery>>, recorded: seq<string>, log: seq<Http.Request>)
    ensures recorded == notes[..if opts.max <= 0 then 0 else if opts.max < |notes| then opts.max else |notes|]
    ensures |rounds| == |recorded|
    ensures forall n :: 0 <= n < |rounds| ==> |rounds[n]| == |t|
    ensures |t'| == |t| && forall j :: 0 <= j < |t| ==> t'[j].key == t[j].key
    ensures forall j :: 0 <= j < |t| && t[j].value.lastError.Some? ==> t'[j] == t[j]
    ensures forall n, m, j :: 0 <= n < m < |rounds| && 0 <= j < |t| && Failure(rounds[n][j]) ==> rounds[m][j].Skipped?
    ensures forall n, j :: 0 <= n < |rounds| && 0 <= j < |t| && t[j].value.lastError.Some? ==> rounds[n][j].Skipped?
    ensures forall round :: Announces(round, env, opts, accountActor, notes, guid, published) ==>
      Boosts(round, t, Quota(opts, notes)) == Boosting(t', rounds, log)
  {
    t' := t;
    rounds := [];
    recorded := [];
    log := [];
    var count := 0;
    var n := 0;
    ghost var round := AnAnnouncer(env, opts, accountActor, notes, guid, published);
    while n < |notes| && count < opts.max
      invariant 0 <= n <= |notes| && count == n
      invariant opts.max <= 0 ==> n == 0
      invariant opts.max > 0 ==> n <= opts.max
      invariant recorded == notes[..n]
      invariant Boosts(round, t, n) == Boosting(t', rounds, log)
    {
      var ds, noteLog;
      t', ds, noteLog := BoostNth(env, opts, accountActor, notes, guid, published, n, t', round);
      rounds := rounds + [ds];
      recorded := recorded + [notes[n]];
      log := log + noteLog;
      count := count + 1;
      n := n + 1;
    }
    assert n == Quota(opts, notes);
    AnnouncedRecords(round, env, opts, accountActor, notes, guid, published);
    BoostsFacts(env, round, t, n);
    forall other | Announces(other, env, opts, accountActor, notes, guid, published)
      ensures Boosts(other, t, n) == Boosting(t', rounds, log)
    {
      AnnouncedAgree(other, round, env, opts, accountActor, notes, guid, published, t, n);
    }
  }

  /** What the outer loop promises about the table and the rounds. */
  lemma BoostsFacts(env: Env, round: Rounder, t: Tables.Table<Follower>, n: nat)
    requires RecordsRows(env, round, n)
    ensures var b := Boosts(round, t, n);
      && |b.table| == |t| && (forall r :: 0 <= r < n ==> |b.rounds[r]| == |t|)
      && (forall j :: 0 <= j < |t| ==> b.table[j].key == t[j].key)
      && (forall j :: 0 <= j < |t| && t[j].value.lastError.Some? ==> b.table[j] == t[j])
      && (forall r, m, j :: 0 <= r < m < n && 0 <= j < |t| && Failure(b.rounds[r][j]) ==> b.rounds[m][j].Skipped?)
      && (forall r, j :: 0 <= r < n && 0 <= j < |t| && t[j].value.lastError.Some? ==> b.rounds[r][j].Skipped?)
  {
    var b := Boosts(round, t, n);
    forall j | 0 <= j < |t|
      ensures b.table[j].key == t[j].key
      ensures t[j].value.lastError.Some? ==> b.table[j] == t[j]
    {
      BoostsRow(env, round, t, n, j);
    }
    forall r, m, j | 0 <= r < m < n && 0 <= j < |t| && Failure(b.rounds[r][j])
      ensures b.rounds[m][j].Skipped?
    {
      FailureSkipsLater(env, round, t, n, r, m, j);
    }
    forall r, j | 0 <= r < n && 0 <= j < |t| && t[j].value.lastError.Some?
      ensures b.rounds[r][j].Skipped?
    {
      ErroredAlwaysSkipped(env, round, t, n, r, j);
    }
  }

  /** Round `r` of a run is the last round of the run over the first `r + 1`
      notes. */
  lemma {:induction false} BoostsPrefix(round: Rounder, t: Tables.Table<Follower>, n: nat, r: nat)
    requires r < n
    ensures Boosts(round, t, n).rounds[r] == Boosts(round, t, r + 1).rounds[r]
    decreases n
  {
    if r < n - 1 {
      BoostsPrefix(round, t, n - 1, r);
    }
  }

  /** Round `n` records in each row what it did there. */
  lemma RowStep(env: Env, round: Rounder, t: Tables.Table<Follower>, n: nat, j: nat)
    requires RecordsRows(env, round, n + 1) && j < |t|
    ensures var before := Boosts(round, t, n).table;
      && |before| == |t| && |Boosts(round, t, n + 1).rounds[n]| == |t|
      && Recorded(env, before[j], Boosts(round, t, n + 1).table[j], Boosts(round, t, n + 1).rounds[n][j])
  {
    var u := Boosts(round, t, n).table;
    assert Recorded(env, u[j], round(u, n).table[j], round(u, n).ds[j]);
  }

  /** Every row keeps its key, and a row that held an error at the start is
      never changed. */
  lemma {:induction false} BoostsRow(env: Env, round: Rounder, t: Tables.Table<Follower>, n: nat, j: nat)
    requires RecordsRows(env, round, n) && j < |t|
    ensures |Boosts(round, t, n).table| == |t|
    ensures Boosts(round, t, n).table[j].key == t[j].key
    ensures t[j].value.lastError.Some? ==> Boosts(round, t, n).table[j] == t[j]
    decreases n
  {
    if n > 0 {
      BoostsRow(env, round, t, n - 1, j);
      RowStep(env, round, t, n - 1, j);
    }
  }

  /** A row that holds an error stays as it is for the rest of the run. */
  lemma {:induction false} ErrorPersists(env: Env, round: Rounder, t: Tables.Table<Follower>, k: nat, m: nat, j: nat)
    requires RecordsRows(env, round, m) && k <= m && j < |t|
    requires Boosts(round, t, k).table[j].value.lastError.Some?
    ensures Boosts(round, t, m).table[j] == Boosts(round, t, k).table[j]
    decreases m
  {
    BoostsRow(env, round, t, k, j);
    if k < m {
      ErrorPersists(env, round, t, k, m - 1, j);
      RowStep(env, round, t, m - 1, j);
    }
  }

  /** A follower that fails in one round is skipped in every later one. */
  lemma FailureSkipsLater(env: Env, round: Rounder, t: Tables.Table<Follower>, n: nat, r: nat, m: nat, j: nat)
    requires RecordsRows(env, round, n) && r < m < n && j < |t|
    requires Failure(Boosts(round, t, n).rounds[r][j])
    ensures Boosts(round, t, n).rounds[m][j].Skipped?
  {
    BoostsPrefix(round, t, n, r);
    BoostsPrefix(round, t, n, m);
    RowStep(env, round, t, r, j);
    ErrorPersists(env, round, t, r + 1, m, j);
    RowStep(env, round, t, m, j);
  }

  /** A follower that held an error at the start is skipped in every round. */
  lemma ErroredAlwaysSkipped(env: Env, round: Rounder, t: Tables.Table<Follower>, n: nat, r: nat, j: nat)
    requires RecordsRows(env, round, n) && r < n && j < |t| && t[j].value.lastError.Some?
    ensures Boosts(round, t, n).rounds[r][j].Skipped?
  {
    BoostsPrefix(round, t, n, r);
    BoostsRow(env, round, t, r, j);
    RowStep(env, round, t, r, j);
  }

  /** Whether a visit writes its row back: a failed fetch and an attempted
      POST update the row; a skipped follower and one whose endpoint was
      already served are not written. */
  predicate Writes(d: Delivery) {
    d.Unresolved? || d.Attempted?
  }

  /** The updates one note's round sends to the table, in row order: each
      written row among the first `n`, with its value after the round. */
  function RoundUpdates(ds: seq<Delivery>, after: Tables.Table<Follower>, n: nat): (us: seq<Tables.Update<Follower>>)
    requires n <= |ds| && |ds| == |after|
    ensures Tables.InRange(us, n)
    ensures forall k :: 0 <= k < |us| ==> Writes(ds[us[k].at]) && us[k].value == after[us[k].at].value
    ensures forall k, l :: 0 <= k < l < |us| ==> us[k].at < us[l].at
    decreases n
  {
    if n == 0 then []
    else
      var us := RoundUpdates(ds, after, n - 1);
      if Writes(ds[n - 1]) then us + [Tables.Update(n - 1, after[n - 1].value)] else us
  }

  /** Every row the round writes has its update. */
  lemma {:induction false} RoundUpdatesHas(ds: seq<Delivery>, after: Tables.Table<Follower>, n: nat, j: nat)
    requires n <= |ds| && |ds| == |after| && j < n && Writes(ds[j])
    ensures exists k :: 0 <= k < |RoundUpdates(ds, after, n)| && RoundUpdates(ds, after, n)[k].at == j
    decreases n
  {
    var us := RoundUpdates(ds, after, n - 1);
    if j == n - 1 {
      assert RoundUpdates(ds, after, n)[|us|].at == j;
    } else {
      RoundUpdatesHas(ds, after, n - 1, j);
      var k :| 0 <= k < |us| && us[k].at == j;
      assert RoundUpdates(ds, after, n)[k].at == j;
    }
  }

  /** The updates of the first `n` rounds, round after round. */
  function RunUpdates(round: Rounder, t: Tables.Table<Follower>, n: nat): (us: seq<Tables.Update<Follower>>)
    requires Sizes(round, n)
    ensures Tables.InRange(us, |t|)
    decreases n
  {
    if n == 0 then []
    else
      var b := Boosts(round, t, n);
      var us := RunUpdates(round, t, n - 1);
      var last := RoundUpdates(b.rounds[n - 1], b.table, |t|);
      Tables.AppliedAppend(t, us, last);
      us + last
  }

  /** As written, every update of a follower row passes the ETag loaded once
      before the first note, and the new ETag of a response is never kept. A
      follower whose POST went through on the first note is written again on
      the second unless its endpoint was already served there, and that
      second write fails with 412: all of the first note's updates go
      through, and the run stops during the second note's. */
  lemma StaleSecondNoteFails(env: Env, round: Rounder, t: Tables.Table<Follower>, etags: seq<nat>, j: nat)
    requires RecordsRows(env, round, 2) && |etags| == |t| && j < |t|
    requires Boosts(round, t, 1).rounds[0][j].Attempted? && Boosts(round, t, 1).rounds[0][j].result.Ok?
    requires !Boosts(round, t, 2).rounds[1][j].AlreadySent?
    ensures var us := RunUpdates(round, t, 2);
      |RunUpdates(round, t, 1)| <= Tables.CheckedUpdates(t, etags, etags, false, us).done < |us|
  {
    WrittenAgain(env, round, t, j);
    RunUpdatesTwo(round, t);
    var b1 := Boosts(round, t, 1);
    var b2 := Boosts(round, t, 2);
    StaleRounds(t, etags, b1.rounds[0], b1.table, b2.rounds[1], b2.table, j);
  }

  /** Two rounds that both write row `j`, against ETags read before the
      first: the first round's updates all go through and the second's stop
      the run. */
  lemma StaleRounds(t: Tables.Table<Follower>, etags: seq<nat>, ds1: seq<Delivery>, after1: Tables.Table<Follower>,
                    ds2: seq<Delivery>, after2: Tables.Table<Follower>, j: nat)
    requires |etags| == |t| && |ds1| == |t| && |after1| == |t| && |ds2| == |t| && |after2| == |t|
    requires j < |t| && Writes(ds1[j]) && Writes(ds2[j])
    ensures var first := RoundUpdates(ds1, after1, |t|);
      var us := first + RoundUpdates(ds2, after2, |t|);
      Tables.InRange(us, |t|)
      && |first| <= Tables.CheckedUpdates(t, etags, etags, false, us).done < |us|
  {
    var first := RoundUpdates(ds1, after1, |t|);
    var second := RoundUpdates(ds2, after2, |t|);
    RoundUpdatesHas(ds1, after1, |t|, j);
    RoundUpdatesHas(ds2, after2, |t|, j);
    var p :| 0 <= p < |first| && first[p].at == j;
    var q :| 0 <= q < |second| && second[q].at == j;
    Tables.StaleStopsInSecondBatch(t, etags, first, second, p, q);
  }

  /** A follower whose POST went through on the first note has no error
      recorded, so the second note visits it again; unless its endpoint was
      already served, both notes write its row. */
  lemma WrittenAgain(env: Env, round: Rounder, t: Tables.Table<Follower>, j: nat)
    requires RecordsRows(env, round, 2) && j < |t|
    requires Boosts(round, t, 1).rounds[0][j].Attempted? && Boosts(round, t, 1).rounds[0][j].result.Ok?
    requires !Boosts(round, t, 2).rounds[1][j].AlreadySent?
    ensures |Boosts(round, t, 1).table| == |t| && |Boosts(round, t, 2).table| == |t|
    ensures |Boosts(round, t, 1).rounds[0]| == |t| && |Boosts(round, t, 2).rounds[1]| == |t|
    ensures Writes(Boosts(round, t, 1).rounds[0][j]) && Writes(Boosts(round, t, 2).rounds[1][j])
  {
    RowStep(env, round, t, 0, j);
    RowStep(env, round, t, 1, j);
    assert Boosts(round, t, 1).table[j].value.lastError.None?;
  }

  /** The updates of the first two notes are the first round's followed by
      the second's. */
  lemma RunUpdatesTwo(round: Rounder, t: Tables.Table<Follower>)
    requires Sizes(round, 2)
    ensures var b1 := Boosts(round, t, 1); var b2 := Boosts(round, t, 2);
      && |b1.table| == |t| && |b2.table| == |t| && |b1.rounds[0]| == |t| && |b2.rounds[1]| == |t|
      && RunUpdates(round, t, 1) == RoundUpdates(b1.rounds[0], b1.table, |t|)
      && RunUpdates(round, t, 2) == RunUpdates(round, t, 1) + RoundUpdates(b2.rounds[1], b2.table, |t|)
  {
    assert RunUpdates(round, t, 0) == [];
  }

  /** A round keeps every row's key and changes only the rows it writes. */
  predicate ChangesOnlyWritten(before: Tables.Table<Follower>, after: Tables.Table<Follower>, ds: seq<Delivery>)
    requires |after| == |before| && |ds| == |before|
  {
    forall j :: 0 <= j < |before| ==> after[j].key == before[j].key && (!Writes(ds[j]) ==> after[j] == before[j])
  }

  lemma RecordedChangesOnlyWritten(env: Env, before: Tables.Table<Follower>, after: Tables.Table<Follower>,
                                   ds: seq<Delivery>)
    requires |after| == |before| && |ds| == |before|
    requires forall j :: 0 <= j < |before| ==> Recorded(env, before[j], after[j], ds[j])
    ensures ChangesOnlyWritten(before, after, ds)
  {
  }

  /** Unchecked, a round's updates applied to the table before it give the
      rows it has written and leave the others as they were. */
  lemma AppliedRound(before: Tables.Table<Follower>, after: Tables.Table<Follower>, ds: seq<Delivery>, n: nat)
    requires |after| == |before| && |ds| == |before| && n <= |before|
    requires ChangesOnlyWritten(before, after, ds)
    ensures forall j :: 0 <= j < |before| ==>
      Tables.Applied(before, RoundUpdates(ds, after, n))[j] == if j < n then after[j] else before[j]
  {
    forall j | 0 <= j < |before|
      ensures Tables.Applied(before, RoundUpdates(ds, after, n))[j] == if j < n then after[j] else before[j]
    {
      AppliedRoundAt(before, after, ds, n, j);
    }
  }

  /** Row `j` after the updates for the first `n` rows. */
  lemma {:induction false} AppliedRoundAt(before: Tables.Table<Follower>, after: Tables.Table<Follower>,
                                          ds: seq<Delivery>, n: nat, j: nat)
    requires |after| == |before| && |ds| == |before| && n <= |before| && j < |before|
    requires ChangesOnlyWritten(before, after, ds)
    ensures Tables.Applied(before, RoundUpdates(ds, after, n))[j] == if j < n then after[j] else before[j]
    decreases n
  {
    if n > 0 {
      AppliedRoundAt(before, after, ds, n - 1, j);
      var us := RoundUpdates(ds, after, n - 1);
      if Writes(ds[n - 1]) {
        Tables.AppliedSnoc(before, us, Tables.Update(n - 1, after[n - 1].value));
      } else {
        assert RoundUpdates(ds, after, n) == us;
      }
    }
  }

  /** With the ETag taken from every response, each round's updates all go
      through and leave exactly the round's table. */
  lemma RefreshedRoundApplies(env: Env, before: Tables.Table<Follower>, after: Tables.Table<Follower>,
                              ds: seq<Delivery>, etags: seq<nat>)
    requires |after| == |before| && |ds| == |before| && |etags| == |before|
    requires forall j :: 0 <= j < |before| ==> Recorded(env, before[j], after[j], ds[j])
    ensures var us := RoundUpdates(ds, after, |before|);
      var r := Tables.CheckedUpdates(before, etags, etags, true, us);
      r.done == |us| && r.table == after
  {
    var us := RoundUpdates(ds, after, |before|);
    Tables.RefreshedUpdatesApply(before, etags, us);
    RecordedChangesOnlyWritten(env, before, after, ds);
    AppliedRound(before, after, ds, |before|);
  }

  /** With the ETag taken from every response, all the updates of the first
      `n` notes go through, and the table they leave is the outer loop's
      (`Boosts`), the one `BoostAll` computes. */
  lemma {:induction false} RefreshedRunIsBoosts(env: Env, round: Rounder, t: Tables.Table<Follower>, etags: seq<nat>, n: nat)
    requires RecordsRows(env, round, n) && |etags| == |t|
    ensures var us := RunUpdates(round, t, n);
      var r := Tables.CheckedUpdates(t, etags, etags, true, us);
      r.done == |us| && r.table == Boosts(round, t, n).table
    decreases n
  {
    var us := RunUpdates(round, t, n);
    Tables.RefreshedUpdatesApply(t, etags, us);
    AppliedRun(env, round, t, n);
  }

  /** Unchecked, the updates of the first `n` notes give the outer loop's
      table. */
  lemma {:induction false} AppliedRun(env: Env, round: Rounder, t: Tables.Table<Follower>, n: nat)
    requires RecordsRows(env, round, n)
    ensures Tables.Applied(t, RunUpdates(round, t, n)) == Boosts(round, t, n).table
    decreases n
  {
    if n > 0 {
      AppliedRun(env, round, t, n - 1);
      var before := Boosts(round, t, n - 1).table;
      var b := Boosts(round, t, n);
      var last := RoundUpdates(b.rounds[n - 1], b.table, |t|);
      Tables.AppliedAppend(t, RunUpdates(round, t, n - 1), last);
      assert ChangesOnlyWritten(before, b.table, b.rounds[n - 1]) by {
        forall j | 0 <= j < |t|
          ensures Recorded(env, before[j], b.table[j], b.rounds[n - 1][j])
        {
          RowStep(env, round, t, n - 1, j);
        }
        RecordedChangesOnlyWritten(env, before, b.table, b.rounds[n - 1]);
      }
      AppliedRound(before, b.table, b.rounds[n - 1], |t|);
    }
  }

  /** The whole run against the world: the followers table must exist by the
      time the notes are known; the requests join the world's log. */
  method Run(env: Env, opts: Options, boosted: set<string>, w: World, guid: nat -> string, published: nat -> string)
    returns (w': World, recorded: seq<string>, result: Outcome<()>)
    ensures w'.tables == w.tables && w'.replies == w.replies && w'.blobs == w.blobs
    ensures |w'.followers| == |w.followers|
    ensures forall x :: x in recorded ==> x !in boosted
    ensures opts.max <= 0 ==> recorded == []
    ensures opts.max > 0 ==> |recorded| <= opts.max
    ensures Discover(env, opts.account, boosted).result.Err? ==>
      w' == Log(w, Discover(env, opts.account, boosted).log) && result.Err? && recorded == []
    ensures result.Ok? && recorded != [] ==> FollowersTable in w.tables
    ensures forall j :: 0 <= j < |w.followers| && w.followers[j].value.lastError.Some? ==> w'.followers[j] == w.followers[j]
    ensures var found := Discover(env, opts.account, boosted);
      found.result.Ok? && found.result.value.None? ==> w' == Log(w, found.log) && result.Ok? && recorded == []
    ensures var found := Discover(env, opts.account, boosted);
      found.result.Ok? && found.result.value.Some? && FollowersTable !in w.tables ==>
        w' == Log(w, found.log) && result == Err(TableNotFound(FollowersTable)) && recorded == []
    ensures var found := Discover(env, opts.account, boosted);
      found.result.Ok? && found.result.value.Some? && FollowersTable in w.tables ==>
        var accountActor := found.result.value.value.0;
        var notes := found.result.value.value.1;
        && result.Ok? && recorded == notes[..Quota(opts, notes)]
        && forall round :: Announces(round, env, opts, accountActor, notes, guid, published) ==>
             var b := Boosts(round, w.followers, Quota(opts, notes));
             w'.followers == b.table && w'.sent == w.sent + found.log + b.log
  {
    var found := Discover(env, opts.account, boosted);
    w' := Log(w, found.log);
    recorded := [];
    if found.result.Err? {
      result := Err(found.result.error);
      return;
    }
    if found.result.value.None? {
      result := Ok(());
      return;
    }
    if FollowersTable !in w.tables {
      result := Err(TableNotFound(FollowersTable));
      return;
    }
    var (accountActor, notes) := found.result.value.value;
    var t', rounds, log;
    t', rounds, recorded, log := BoostAll(env, opts, accountActor, notes, w.followers, guid, published);
    assert forall x :: x in recorded ==> x in notes;
    w' := Log(w'.(followers := t'), log);
    result := Ok(());
  }
}

=== FILE: broadcast_post.dfy ===
/** BroadcastPost: wraps a note read from disk in a Create of the blog actor
    and posts it once to every distinct inbox among the followers. Unlike
    BoostPost it neither skips followers with a recorded error nor writes
    anything back to the table. */
module BroadcastPost {
  import opened Wrappers
  import opened Errors
  import opened Strings
  import opened Json
  import opened Uris
  import Http
  import opened Actors
  import opened FollowerEntity
  import opened Storage
  import opened ActorHelper

  // ---------------------------------------------------------------------
  // The Create

  /** `GetNoteId`: the last non-empty `/`-separated segment of the note's
      path, or the whole path when there is none. */
  function NoteId(path: string): (r: string)
    ensures '/' !in path ==> r == path
    ensures r != path ==> r != "" && '/' !in r
  {
    var parts := RemoveEmpty(Split(path, '/'));
    if |parts| > 0 then
      assert Last(parts) in Split(path, '/');
      assert '/' !in path ==> Last(parts) == path by {
        if '/' !in path {
          SplitWithout(path, '/');
        }
      }
      Last(parts)
    else path
  }

  /** The note id is what follows the last `/` once trailing slashes are
      dropped; a path made only of slashes is its own id. */
  lemma NoteIdIsLastSegment(path: string)
    ensures NoteId(path) == if TrimEnd(path, '/') == "" then path else AfterLast(TrimEnd(path, '/'), '/')
  {
    LastNonEmptyPiece(path, '/');
  }

  /** The `Cc` list `CreateNote` is initialised with. */
  const BlogCc: seq<string> := ["https://hachyderm.io/users/mapache/followers", "https://hachyderm.io/users/mapache"]

  /** The Create's id: under `notes/`, named by the note id. */
  function CreateId(domain: string, notePath: string): string {
    domain + "/notes/" + NoteId(notePath) + "/create"
  }

  /** The blog actor every Create is attributed to. */
  function BlogActor(domain: string): string {
    domain + "/@blog"
  }

  /** `CreateNote`, with the CLR member names. The note is a `JsonObject`
      whose `published` has been overwritten; its own names are written as
      read. */
  function CreateNote(domain: string, notePath: string, published: string, note: seq<Member>): Json {
    JObj([
      P("_context", JStr(ActivityStreams)),
      P("Id", JStr(CreateId(domain, notePath))),
      P("Type", JStr("Create")),
      P("Actor", JStr(BlogActor(domain))),
      P("Published", JStr(published)),
      P("To", Strs([PublicAddress])),
      P("Cc", Strs(BlogCc)),
      P("Object", Freeze(JObj(Set(note, "published", JStr(published)))))])
  }

  lemma LowerFirstNames()
    ensures ConvertName(ContextLowerFirst, "_context") == "@context"
    ensures ConvertName(ContextLowerFirst, "Id") == "id"
    ensures ConvertName(ContextLowerFirst, "Type") == "type"
    ensures ConvertName(ContextLowerFirst, "Actor") == "actor"
    ensures ConvertName(ContextLowerFirst, "Published") == "published"
    ensures ConvertName(ContextLowerFirst, "To") == "to"
    ensures ConvertName(ContextLowerFirst, "Cc") == "cc"
    ensures ConvertName(ContextLowerFirst, "Object") == "object"
  {
    assert LowerFirst("Id") == "id";
    assert LowerFirst("Type") == "type";
    assert LowerFirst("Actor") == "actor";
    assert LowerFirst("Published") == "published";
    assert LowerFirst("To") == "to";
    assert LowerFirst("Cc") == "cc";
    assert LowerFirst("Object") == "object";
  }

  /** The Create as written: `@context` and lower-cased names, the note as
      object with its names untouched. */
  lemma CreateOnWire(domain: string, notePath: string, published: string, note: seq<Member>)
    ensures Wire(ContextLowerFirst, CreateNote(domain, notePath, published, note)) == JObj([
      F("@context", JStr(ActivityStreams)),
      F("id", JStr(domain + "/notes/" + NoteId(notePath) + "/create")),
      F("type", JStr("Create")),
      F("actor", JStr(domain + "/@blog")),
      F("published", JStr(published)),
      F("to", Strs([PublicAddress])),
      F("cc", Strs(BlogCc)),
      F("object", Freeze(JObj(Set(note, "published", JStr(published)))))])
  {
    LowerFirstNames();
    WireStrs(ContextLowerFirst, [PublicAddress]);
    WireStrs(ContextLowerFirst, BlogCc);
    WireFrozen(ContextLowerFirst, JObj(Set(note, "published", JStr(published))));
    WireMembers(ContextLowerFirst, CreateNote(domain, notePath, published, note).members, [
      F("@context", JStr(ActivityStreams)),
      F("id", JStr(domain + "/notes/" + NoteId(notePath) + "/create")),
      F("type", JStr("Create")),
      F("actor", JStr(domain + "/@blog")),
      F("published", JStr(published)),
      F("to", Strs([PublicAddress])),
      F("cc", Strs(BlogCc)),
      F("object", Freeze(JObj(Set(note, "published", JStr(published)))))]);
  }

  /** The note carries the Create's own timestamp, and every other property
      of the note is kept. */
  lemma NotePublishedMatches(note: seq<Member>, published: string, other: string)
    requires other != "published"
    ensures Get(Freeze(JObj(Set(note, "published", JStr(published)))), "published") == Some(JStr(published))
    ensures Get(Freeze(JObj(Set(note, "published", JStr(published)))), other) ==
      if GetMember(note, other).Some? then Some(Freeze(GetMember(note, other).value)) else None
  {
    GetFrozen(Set(note, "published", JStr(published)), "published");
    GetFrozen(Set(note, "published", JStr(published)), other);
  }

  /** Lines 34 to 49: the note file parsed as an object, stamped and wrapped;
      text that is not a JSON object throws before anything is sent. */
  function Document(env: Env, domain: string, notePath: string, published: string, noteText: string): (r: Outcome<string>)
    ensures r.Ok? <==> env.decodeJson(noteText).Some? && env.decodeJson(noteText).value.JObj?
    ensures r.Ok? ==> r.value == env.encode(Wire(ContextLowerFirst,
      CreateNote(domain, notePath, published, env.decodeJson(noteText).value.members)))
  {
    match AsObject(env.decodeJson(noteText))
    case Err(e) => Err(e)
    case Ok(note) => Ok(env.encode(Wire(ContextLowerFirst, CreateNote(domain, notePath, published, note.members))))
  }

  // ---------------------------------------------------------------------
  // Where each follower is sent

  /** The fallback inbox: `scheme://authority/inbox` of the actor URI. */
  function FallbackInbox(u: Uri): string {
    LeftPartAuthority(u) + "/inbox"
  }

  /** Lines 68 to 76: the actor's shared inbox or inbox. Any failure to
      fetch it, and an actor without `endpoints`, falls back to the inbox at
      the root of the actor's host; a malformed actor URI there is not
      caught. */
  function Resolve(env: Env, f: Follower): (r: Call<Option<string>>)
    ensures r.log == FetchActor(env, Some(f.actorUri)).log
    ensures r.result.Err? <==> Parse(f.actorUri).None?
    ensures r.result.Err? ==> r.result.error == UriFormat(f.actorUri)
    ensures var fetched := FetchActor(env, Some(f.actorUri)).result;
      fetched.Ok? && fetched.value.endpoints.Some? ==> r.result == Ok(PreferredInbox(fetched.value))
    ensures var fetched := FetchActor(env, Some(f.actorUri)).result;
      (fetched.Err? || fetched.value.endpoints.None?) && Parse(f.actorUri).Some? ==>
        r.result == Ok(Some(LeftPartAuthority(Parse(f.actorUri).value) + "/inbox"))
  {
    var fetched := FetchActor(env, Some(f.actorUri));
    if fetched.result.Ok? && fetched.result.value.endpoints.Some? then
      assert Parse(f.actorUri).Some?;
      Call(fetched.log, Ok(PreferredInbox(fetched.result.value)))
    else
      match Parse(f.actorUri)
      case None => Call(fetched.log, Err(UriFormat(f.actorUri)))
      case Some(u) => Call(fetched.log, Ok(Some(FallbackInbox(u))))
  }

  // ---------------------------------------------------------------------
  // The fan-out

  /** The endpoints in order of first appearance, each once. */
  function Dedup<T(==)>(xs: seq<T>): (r: seq<T>)
    ensures |r| <= |xs|
    decreases |xs|
  {
    if |xs| == 0 then []
    else
      var d := Dedup(xs[..|xs| - 1]);
      if Last(xs) in d then d else d + [Last(xs)]
  }

  /** A new endpoint is appended; a repeated one changes nothing. */
  lemma DedupSnoc<T>(xs: seq<T>, x: T)
    ensures Dedup(xs + [x]) == if x in Dedup(xs) then Dedup(xs) else Dedup(xs) + [x]
  {
    assert (xs + [x])[..|xs|] == xs;
  }

  predicate Distinct<T(==)>(xs: seq<T>) {
    forall j, k :: 0 <= j < k < |xs| ==> xs[j] != xs[k]
  }

  /** Every endpoint appears once, and exactly the endpoints that occur. */
  lemma {:induction false} DedupSpec<T>(xs: seq<T>)
    ensures Distinct(Dedup(xs))
    ensures forall x :: x in Dedup(xs) <==> x in xs
    decreases |xs|
  {
    if |xs| > 0 {
      var init := xs[..|xs| - 1];
      DedupSpec(init);
      assert xs == init + [Last(xs)];
    }
  }

  /** How one follower is resolved and how one endpoint is posted to. */
  type Resolver = Follower -> Call<Option<string>>
  type Poster = Option<string> -> Call<()>

  /** Every follower resolves. */
  predicate AllResolve(resolve: Resolver, fs: seq<Follower>) {
    forall i :: 0 <= i < |fs| ==> resolve(fs[i]).result.Ok?
  }

  /** The endpoints of the followers, in order, when every one resolves. */
  function Endpoints(resolve: Resolver, fs: seq<Follower>): (r: seq<Option<string>>)
    requires AllResolve(resolve, fs)
    ensures |r| == |fs|
    decreases |fs|
  {
    if |fs| == 0 then []
    else Endpoints(resolve, fs[..|fs| - 1]) + [resolve(Last(fs)).result.value]
  }

  /** The `i`th endpoint is the `i`th follower's. */
  lemma {:induction false} EndpointAt(resolve: Resolver, fs: seq<Follower>, i: nat)
    requires AllResolve(resolve, fs)
    requires i < |fs|
    ensures Endpoints(resolve, fs)[i] == resolve(fs[i]).result.value
    decreases |fs|
  {
    if i < |fs| - 1 {
      EndpointAt(resolve, fs[..|fs| - 1], i);
    }
  }

  /** One more follower adds its endpoint at the end. */
  lemma EndpointsSnoc(resolve: Resolver, fs: seq<Follower>, i: nat)
    requires i < |fs| && AllResolve(resolve, fs[..i]) && resolve(fs[i]).result.Ok?
    ensures AllResolve(resolve, fs[..i + 1])
    ensures Endpoints(resolve, fs[..i + 1]) == Endpoints(resolve, fs[..i]) + [resolve(fs[i]).result.value]
  {
    assert fs[..i + 1][..i] == fs[..i];
  }

  /** The number of followers before the first one that cannot be resolved. */
  function FirstUnresolved(resolve: Resolver, fs: seq<Follower>): (k: nat)
    ensures k <= |fs|
    ensures forall j :: 0 <= j < k ==> resolve(fs[j]).result.Ok?
    ensures k < |fs| ==> resolve(fs[k]).result.Err?
    decreases |fs|
  {
    if |fs| == 0 || resolve(fs[0]).result.Err? then 0
    else 1 + FirstUnresolved(resolve, fs[1..])
  }

  /** The followers the loop handles: all of them, or up to and including
      the first that cannot be resolved. */
  function Handled(resolve: Resolver, fs: seq<Follower>): (n: nat)
    ensures n <= |fs|
  {
    if FirstUnresolved(resolve, fs) < |fs| then FirstUnresolved(resolve, fs) + 1 else |fs|
  }

  /** No earlier follower resolved to what the `i`th resolved to. */
  predicate Fresh(resolve: Resolver, fs: seq<Follower>, i: nat)
    requires i < |fs|
  {
    forall k :: 0 <= k < i ==> resolve(fs[k]).result != resolve(fs[i]).result
  }

  /** The requests made for the `i`th follower: those of resolving it, then
      those of the POST when it resolved to an endpoint no earlier follower
      resolved to. */
  function Piece(resolve: Resolver, post: Poster, fs: seq<Follower>, i: nat): seq<Http.Request>
    requires i < |fs|
  {
    resolve(fs[i]).log
      + if resolve(fs[i]).result.Ok? && Fresh(resolve, fs, i) then post(resolve(fs[i]).result.value).log else []
  }

  /** The requests made for the first `n` followers, in order. */
  function Requests(resolve: Resolver, post: Poster, fs: seq<Follower>, n: nat): seq<Http.Request>
    requires n <= |fs|
    decreases n
  {
    if n == 0 then [] else Requests(resolve, post, fs, n - 1) + Piece(resolve, post, fs, n - 1)
  }

  /** The endpoints posted to for the first `n` followers, in order: one per
      follower whose endpoint is fresh. */
  function Posted(resolve: Resolver, fs: seq<Follower>, n: nat): seq<Option<string>>
    requires n <= |fs|
    decreases n
  {
    if n == 0 then []
    else
      var i := n - 1;
      Posted(resolve, fs, i)
        + if resolve(fs[i]).result.Ok? && Fresh(resolve, fs, i) then [resolve(fs[i]).result.value] else []
  }

  lemma DedupHas(es: seq<Option<string>>, e: Option<string>)
    ensures e in Dedup(es) <==> e in es
  {
    DedupSpec(es);
  }

  /** A follower after the first that all resolve is fresh exactly when its
      endpoint is not among the distinct endpoints of those before it. */
  lemma FreshIffUnsent(resolve: Resolver, fs: seq<Follower>, i: nat)
    requires i < |fs| && AllResolve(resolve, fs[..i]) && resolve(fs[i]).result.Ok?
    ensures Fresh(resolve, fs, i) <==> resolve(fs[i]).result.value !in Dedup(Endpoints(resolve, fs[..i]))
  {
    var e := resolve(fs[i]).result.value;
    var es := Endpoints(resolve, fs[..i]);
    DedupHas(es, e);
    if e in es {
      var k :| 0 <= k < |es| && es[k] == e;
      EndpointAt(resolve, fs[..i], k);
      assert fs[..i][k] == fs[k];
      assert !Fresh(resolve, fs, i);
    } else {
      forall k | 0 <= k < i
        ensures resolve(fs[k]).result != resolve(fs[i]).result
      {
        EndpointAt(resolve, fs[..i], k);
        assert fs[..i][k] == fs[k];
        assert es[k] in es;
      }
      assert Fresh(resolve, fs, i);
    }
  }

  /** Posting to fresh endpoints posts to each distinct endpoint once, in
      order of first appearance. */
  lemma {:induction false} PostedIsDedup(resolve: Resolver, fs: seq<Follower>, n: nat)
    requires n <= |fs| && AllResolve(resolve, fs[..n])
    ensures Posted(resolve, fs, n) == Dedup(Endpoints(resolve, fs[..n]))
    decreases n
  {
    if n > 0 {
      var i := n - 1;
      assert fs[..n][..i] == fs[..i];
      assert AllResolve(resolve, fs[..i]);
      assert fs[..n][i] == fs[i];
      PostedIsDedup(resolve, fs, i);
      EndpointsSnoc(resolve, fs, i);
      DedupSnoc(Endpoints(resolve, fs[..i]), resolve(fs[i]).result.value);
      FreshIffUnsent(resolve, fs, i);
    }
  }

  /** `k` is the first unresolved follower when those before it resolve and
      it does not. */
  lemma FirstUnresolvedUnique(resolve: Resolver, fs: seq<Follower>, k: nat)
    requires k <= |fs| && AllResolve(resolve, fs[..k])
    requires k < |fs| ==> resolve(fs[k]).result.Err?
    ensures k == FirstUnresolved(resolve, fs)
  {
  }

  /** Where the loop stops: the followers handled, and the endpoints posted
      to, are the ones before the first failure and that failure itself. */
  lemma StopsAt(resolve: Resolver, post: Poster, fs: seq<Follower>, k: nat)
    requires k <= |fs| && AllResolve(resolve, fs[..k])
    requires k < |fs| ==> resolve(fs[k]).result.Err?
    ensures k == FirstUnresolved(resolve, fs)
    ensures Handled(resolve, fs) == if k < |fs| then k + 1 else k
    ensures Posted(resolve, fs, Handled(resolve, fs)) == Dedup(Endpoints(resolve, fs[..k]))
    ensures Requests(resolve, post, fs, Handled(resolve, fs))
      == Requests(resolve, post, fs, k) + if k < |fs| then resolve(fs[k]).log else []
  {
    assert k == FirstUnresolved(resolve, fs) by {
      FirstUnresolvedUnique(resolve, fs, k);
    }
    assert Posted(resolve, fs, k) == Dedup(Endpoints(resolve, fs[..k])) by {
      PostedIsDedup(resolve, fs, k);
    }
    if k < |fs| {
      assert Posted(resolve, fs, k + 1) == Posted(resolve, fs, k);
      assert Piece(resolve, post, fs, k) == resolve(fs[k]).log;
    }
  }

  /** One more follower handled adds its resolution's requests and, when
      its endpoint has not been posted to yet, that POST's requests. */
  lemma RequestsStep(resolve: Resolver, post: Poster, fs: seq<Follower>, i: nat)
    requires i < |fs| && AllResolve(resolve, fs[..i])
    ensures Requests(resolve, post, fs, i + 1) == Requests(resolve, post, fs, i) + resolve(fs[i]).log
      + if resolve(fs[i]).result.Ok? && resolve(fs[i]).result.value !in Dedup(Endpoints(resolve, fs[..i]))
        then post(resolve(fs[i]).result.value).log else []
  {
    if resolve(fs[i]).result.Ok? {
      FreshIffUnsent(resolve, fs, i);
    }
  }

  /** Lines 59 to 93, the loop over the followers in table order. Each
      endpoint is marked before it is posted to, so a failed POST is not
      retried for a later follower; a failed POST is swallowed. The first
      follower that cannot be resolved at all ends the run: `reached` is the
      number of followers handled before it. `posts` holds what each POST
      returned, in order. */
  method FanOut(resolve: Resolver, post: Poster, fs: seq<Follower>)
    returns (reached: nat, sent: seq<Option<string>>, posts: seq<Outcome<()>>, log: seq<Http.Request>, result: Outcome<()>)
    ensures reached <= |fs| && AllResolve(resolve, fs[..reached])
    ensures result.Ok? <==> reached == |fs|
    ensures result.Err? ==> resolve(fs[reached]).result == Err(result.error)
    ensures sent == Dedup(Endpoints(resolve, fs[..reached]))
    ensures |posts| == |sent|
    ensures forall k :: 0 <= k < |sent| ==> posts[k] == post(sent[k]).result
    ensures reached == FirstUnresolved(resolve, fs)
    ensures log == Requests(resolve, post, fs, Handled(resolve, fs))
    ensures sent == Posted(resolve, fs, Handled(resolve, fs))
  {
    sent := [];
    posts := [];
    log := [];
    ghost var endpoints: seq<Option<string>> := [];
    reached := 0;
    while reached < |fs|
      invariant reached <= |fs|
      invariant AllResolve(resolve, fs[..reached])
      invariant endpoints == Endpoints(resolve, fs[..reached])
      invariant sent == Dedup(endpoints)
      invariant |posts| == |sent|
      invariant forall k :: 0 <= k < |sent| ==> posts[k] == post(sent[k]).result
      invariant log == Requests(resolve, post, fs, reached)
    {
      var resolved := resolve(fs[reached]);
      log := log + resolved.log;
      if resolved.result.Err? {
        StopsAt(resolve, post, fs, reached);
        result := Err(resolved.result.error);
        return;
      }
      RequestsStep(resolve, post, fs, reached);
      var endpoint := resolved.result.value;
      EndpointsSnoc(resolve, fs, reached);
      DedupSnoc(endpoints, endpoint);
      endpoints := endpoints + [endpoint];
      if endpoint !in sent {
        var posted := post(endpoint);
        sent := sent + [endpoint];
        posts := posts + [posted.result];
        log := log + posted.log;
      }
      reached := reached + 1;
    }
    assert fs[..reached] == fs;
    StopsAt(resolve, post, fs, reached);
    result := Ok(());
  }

  /** Every follower that resolves is reached: the first follower that
      resolved to the same endpoint, this one or an earlier one, is fresh,
      and the requests made for it include the POST to that endpoint. */
  lemma {:induction false} EveryFollowerReached(resolve: Resolver, post: Poster, fs: seq<Follower>, i: nat)
    requires i < |fs| && resolve(fs[i]).result.Ok?
    ensures exists j :: 0 <= j <= i && Fresh(resolve, fs, j) && resolve(fs[j]).result == resolve(fs[i]).result
                     && Piece(resolve, post, fs, j) == resolve(fs[j]).log + post(resolve(fs[i]).result.value).log
    decreases i
  {
    if Fresh(resolve, fs, i) {
      assert Piece(resolve, post, fs, i) == resolve(fs[i]).log + post(resolve(fs[i]).result.value).log;
    } else {
      var k :| 0 <= k < i && resolve(fs[k]).result == resolve(fs[i]).result;
      EveryFollowerReached(resolve, post, fs, k);
    }
  }

  /** Only endpoints followers resolved to are posted to, each of them once:
      the endpoints posted to for the first `n` followers are exactly those
      some of them resolved to, without repetition. */
  lemma {:induction false} OnlyFollowersPosted(resolve: Resolver, fs: seq<Follower>, n: nat)
    requires n <= |fs|
    ensures forall e :: e in Posted(resolve, fs, n) <==> exists i :: 0 <= i < n && resolve(fs[i]).result == Ok(e)
    ensures Distinct(Posted(resolve, fs, n))
    decreases n
  {
    if n > 0 {
      var i := n - 1;
      OnlyFollowersPosted(resolve, fs, i);
      var r := resolve(fs[i]).result;
      forall e | e in Posted(resolve, fs, n)
        ensures exists j :: 0 <= j < n && resolve(fs[j]).result == Ok(e)
      {
        if e !in Posted(resolve, fs, i) {
          assert r == Ok(e);
        }
      }
      forall e | exists j :: 0 <= j < n && resolve(fs[j]).result == Ok(e)
        ensures e in Posted(resolve, fs, n)
      {
        var j :| 0 <= j < n && resolve(fs[j]).result == Ok(e);
        if j == i && Fresh(resolve, fs, i) {
          assert Posted(resolve, fs, n) == Posted(resolve, fs, i) + [e];
        } else if j == i {
          var k :| 0 <= k < i && resolve(fs[k]).result == r;
          assert e in Posted(resolve, fs, i);
        } else {
          assert e in Posted(resolve, fs, i);
        }
      }
      if r.Ok? && Fresh(resolve, fs, i) {
        assert r.value !in Posted(resolve, fs, i);
      }
    }
  }

  /** How the program resolves followers and posts the document. */
  function ResolverOf(env: Env): Resolver {
    f => Resolve(env, f)
  }

  function PosterOf(env: Env, document: string): Poster {
    e => SendPost(env, document, e)
  }

  /** The follower rows' values, in table order. */
  function Followers(w: World): (fs: seq<Follower>)
    ensures |fs| == |w.followers|
    ensures forall j :: 0 <= j < |fs| ==> fs[j] == w.followers[j].value
  {
    seq(|w.followers|, j requires 0 <= j < |w.followers| => w.followers[j].value)
  }

  /** The program: read the note, then post it to the endpoints of the
      `followers` table, which must exist. No follower row is changed; the
      requests made are those of handling each follower in turn, up to the
      first that cannot be resolved. */
  method Run(env: Env, domain: string, notePath: string, noteText: string, published: string, w: World)
    returns (w': World, sent: seq<Option<string>>, result: Outcome<()>)
    ensures w'.tables == w.tables && w'.followers == w.followers && w'.replies == w.replies && w'.blobs == w.blobs
    ensures Document(env, domain, notePath, published, noteText).Err? ==> w' == w && result.Err? && sent == []
    ensures FollowersTable !in w.tables ==> w' == w && result.Err? && sent == []
    ensures Document(env, domain, notePath, published, noteText).Ok? && FollowersTable in w.tables ==>
      var resolve := ResolverOf(env);
      var post := PosterOf(env, Document(env, domain, notePath, published, noteText).value);
      var fs := Followers(w);
      && w' == Log(w, Requests(resolve, post, fs, Handled(resolve, fs)))
      && sent == Posted(resolve, fs, Handled(resolve, fs))
      && (result.Ok? <==> FirstUnresolved(resolve, fs) == |fs|)
    ensures result.Ok? ==> (
      && Document(env, domain, notePath, published, noteText).Ok?
      && FollowersTable in w.tables
      && forall j :: 0 <= j < |w.followers| ==>
           Resolve(env, w.followers[j].value).result.Ok? && Resolve(env, w.followers[j].value).result.value in sent)
    ensures Distinct(sent)
  {
    sent := [];
    w' := w;
    var document := Document(env, domain, notePath, published, noteText);
    if document.Err? {
      result := Err(document.error);
      return;
    }
    if FollowersTable !in w.tables {
      result := Err(TableNotFound(FollowersTable));
      return;
    }
    var fs := Followers(w);
    var resolve := ResolverOf(env);
    var post := PosterOf(env, document.value);
    var reached, posts, log;
    reached, sent, posts, log, result := FanOut(resolve, post, fs);
    w' := Log(w, log);
    OnlyFollowersPosted(resolve, fs, Handled(resolve, fs));
    if result.Ok? {
      forall j | 0 <= j < |w.followers|
        ensures Resolve(env, w.followers[j].value).result.Ok? && Resolve(env, w.followers[j].value).result.value in sent
      {
        assert fs[j] == w.followers[j].value;
        assert resolve(fs[j]).result.Ok?;
      }
    }
  }
}

=== FILE: crypto.dfy ===
/** Cryptographic primitives as parameters, and the one piece of hashing code the
    repository writes itself: lowercase two-digit hexadecimal per byte
    (`b.ToString("x2")`), used for every table row key and for note hashes. */
module Crypto {
  import opened Wrappers

  type Byte = b: int | 0 <= b < 256

  /** An MD5 digest is sixteen bytes. */
  type Md5Digest = d: seq<Byte> | |d| == 16
    witness [0, 0, 0, 0, 0, 0, 0, 0, 0, 0, 0, 0, 0, 0, 0, 0]

  /** The primitives the code calls into .NET for; all take the UTF-8 bytes of
      their string argument. */
  datatype Primitives = Primitives(
    md5: string -> Md5Digest,
    sha256: string -> seq<Byte>,
    base64: seq<Byte> -> string,
    // RSA PKCS#1 v1.5 over SHA-256 with the PEM key; None when the key cannot be
    // imported or cannot sign
    rsaSign: (string, string) -> Option<seq<Byte>>)

  /** A lowercase hexadecimal digit. */
  predicate IsHexDigit(ch: char) {
    '0' <= ch <= '9' || 'a' <= ch <= 'f'
  }

  /** The lowercase hex digit of a nibble. */
  function HexDigit(n: nat): (ch: char)
    requires n < 16
    ensures IsHexDigit(ch)
  {
    if n < 10 then ('0' as int + n) as char else ('a' as int + n - 10) as char
  }

  /** The two lowercase hex characters of one byte, high nibble first. */
  function ByteToHex(b: Byte): (r: string)
    ensures |r| == 2 && IsHexDigit(r[0]) && IsHexDigit(r[1])
  {
    [HexDigit(b / 16), HexDigit(b % 16)]
  }

  /** The concatenated `ToString("x2")` of every byte. */
  function Hex(bytes: seq<Byte>): (r: string)
    ensures |r| == 2 * |bytes|
    ensures forall i :: 0 <= i < |r| ==> IsHexDigit(r[i])
    decreases |bytes|
  {
    if |bytes| == 0 then ""
    else ByteToHex(bytes[0]) + Hex(bytes[1..])
  }

  /** The value of a lowercase hex digit, the inverse of `HexDigit`; any
      other character counts as zero. */
  function DigitValue(ch: char): (v: nat)
    ensures v < 16
    ensures IsHexDigit(ch) ==> HexDigit(v) == ch
  {
    if '0' <= ch <= '9' then ch as int - '0' as int
    else if 'a' <= ch <= 'f' then ch as int - 'a' as int + 10
    else 0
  }

  /** Hex decoding, two digits per byte; a trailing odd digit is dropped. */
  function Unhex(s: string): seq<Byte>
    decreases |s|
  {
    if |s| < 2 then []
    else [DigitValue(s[0]) * 16 + DigitValue(s[1])] + Unhex(s[2..])
  }

  /** Hex decoding inverts hex encoding, so distinct digests give distinct keys. */
  lemma {:induction false} UnhexHex(bytes: seq<Byte>)
    ensures Unhex(Hex(bytes)) == bytes
    decreases |bytes|
  {
    if |bytes| > 0 {
      UnhexHex(bytes[1..]);
      UnhexByte(bytes[0], Hex(bytes[1..]));
      assert bytes == [bytes[0]] + bytes[1..];
    }
  }

  /** Decoding the two digits of one byte gives that byte back. */
  lemma UnhexByte(b: Byte, t: string)
    ensures Unhex(ByteToHex(b) + t) == [b] + Unhex(t)
  {
    Nibbles(b);
    UnhexPair(b / 16, b % 16, t);
  }

  lemma Nibbles(b: Byte)
    ensures b / 16 < 16 && (b / 16) * 16 + b % 16 == b
  {
  }

  lemma UnhexPair(hi: nat, lo: nat, t: string)
    requires hi < 16 && lo < 16
    ensures Unhex([HexDigit(hi), HexDigit(lo)] + t) == [hi * 16 + lo] + Unhex(t)
  {
    var h := [HexDigit(hi), HexDigit(lo)] + t;
    assert h[0] == HexDigit(hi) && h[1] == HexDigit(lo) && h[2..] == t;
    DigitOfHexDigit(hi);
    DigitOfHexDigit(lo);
  }

  lemma DigitOfHexDigit(n: nat)
    requires n < 16
    ensures DigitValue(HexDigit(n)) == n
  {
  }

  /** Hex encoding is injective. */
  lemma HexInjective(a: seq<Byte>, b: seq<Byte>)
    requires Hex(a) == Hex(b)
    ensures a == b
  {
    UnhexHex(a);
    UnhexHex(b);
  }

  /** `GetMd5Hash` / `GetLinkUniqueHash`: hex of the MD5 of the UTF-8 bytes. */
  function Md5Hex(p: Primitives, input: string): (r: string)
    ensures |r| == 32
    ensures forall i :: 0 <= i < |r| ==> IsHexDigit(r[i])
    ensures Unhex(r) == p.md5(input)
  {
    UnhexHex(p.md5(input));
    Hex(p.md5(input))
  }
}

=== FILE: entities.dfy ===
/** `Follower`: a row of the followers table, keyed by the actor's host and the
    hex MD5 of the actor URI. */
module FollowerEntity {
  import opened Wrappers
  import opened Errors
  import opened Crypto
  import opened Uris
  import opened Tables

  datatype Follower = Follower(
    partitionKey: string,
    rowKey: string,
    actorUri: string,
    lastError: Option<string>,
    lastErrorDate: Option<string>,
    lastSuccessDate: Option<string>)

  /** No delivery outcome recorded yet. */
  predicate IsFresh(f: Follower) {
    f.lastError.None? && f.lastErrorDate.None? && f.lastSuccessDate.None?
  }

  function KeyOf(f: Follower): Key {
    Key(f.partitionKey, f.rowKey)
  }

  /** `Follower.GetFromMessage`: hashing a missing actor throws before the URI
      is parsed. */
  function GetFromMessage(crypto: Primitives, actor: Option<string>): (r: Outcome<Follower>)
    ensures actor.None? ==> r == Err(NullReference)
    ensures actor.Some? ==> r == FromActor(crypto, actor.value)
  {
    match actor
    case None => Err(NullReference)
    case Some(a) => FromActor(crypto, a)
  }

  /** The follower row for a present actor URI; a malformed URI throws
      `UriFormatException`. */
  function FromActor(crypto: Primitives, actor: string): (r: Outcome<Follower>)
    ensures r.Ok? <==> Parse(actor).Some?
    ensures r.Err? ==> r == Err(UriFormat(actor))
    ensures r.Ok? ==> r.value.actorUri == actor && IsFresh(r.value)
    ensures r.Ok? ==> |r.value.rowKey| == 32 && forall i :: 0 <= i < 32 ==> IsHexDigit(r.value.rowKey[i])
    ensures r.Ok? ==> Unhex(r.value.rowKey) == crypto.md5(actor)
    ensures r.Ok? ==> r.value.partitionKey == Parse(actor).value.host
    ensures r.Ok? ==> |r.value.partitionKey| > 0 && '/' !in r.value.partitionKey
  {
    var rowKey := Md5Hex(crypto, actor);
    var parsed := Parse(actor);
    if parsed.None? then Err(UriFormat(actor))
    else Ok(Follower(parsed.value.host, rowKey, actor, None, None, None))
  }

  /** Two actors land on the same row only when their hosts agree and their
      MD5 digests collide: the row key is exactly the digest, in hex. */
  lemma SameKeySameDigest(crypto: Primitives, a: string, b: string)
    requires FromActor(crypto, a).Ok? && FromActor(crypto, b).Ok?
    requires KeyOf(FromActor(crypto, a).value) == KeyOf(FromActor(crypto, b).value)
    ensures crypto.md5(a) == crypto.md5(b)
    ensures Parse(a).value.host == Parse(b).value.host
  {
  }
}

/** `Reply`: a row of the replies table, one per reply note, partitioned by the
    last path segment of the note it answers. */
module ReplyEntity {
  import opened Wrappers
  import opened Errors
  import opened Strings
  import opened Crypto
  import opened Tables

  /** The fields of a reply note the code reads. */
  datatype Note = Note(id: Option<string>, inReplyTo: Option<string>)

  datatype Reply = Reply(partitionKey: string, rowKey: string, id: string, noteId: string)

  function KeyOf(r: Reply): Key {
    Key(r.partitionKey, r.rowKey)
  }

  /** `Reply.GetFromNote`: hashing a missing id or splitting a missing
      `InReplyTo` throws. */
  function GetFromNote(crypto: Primitives, note: Note): (r: Outcome<Reply>)
    ensures r.Ok? <==> note.id.Some? && note.inReplyTo.Some?
    ensures r.Err? ==> r.error == NullReference
    ensures r.Ok? ==> r.value.id == note.id.value && r.value.noteId == note.inReplyTo.value
    ensures r.Ok? ==> |r.value.rowKey| == 32 && forall i :: 0 <= i < 32 ==> IsHexDigit(r.value.rowKey[i])
    ensures r.Ok? ==> Unhex(r.value.rowKey) == crypto.md5(note.id.value)
    ensures r.Ok? ==> r.value.partitionKey == AfterLast(note.inReplyTo.value, '/')
    ensures r.Ok? ==> '/' !in r.value.partitionKey
  {
    match note.id
    case None => Err(NullReference)
    case Some(id) =>
      var rowKey := Md5Hex(crypto, id);
      match note.inReplyTo
      case None => Err(NullReference)
      case Some(target) => Ok(Reply(LastPiece(target, '/'), rowKey, id, target))
  }

  /** A reply to `<anything>/<slug>` is filed under `<slug>`. */
  lemma ReplyPartitionIsSlug(crypto: Primitives, id: string, prefix: string, slug: string)
    requires '/' !in slug
    ensures GetFromNote(crypto, Note(Some(id), Some(prefix + "/" + slug))).value.partitionKey == slug
  {
    AfterLastOfSuffix(prefix, '/', slug);
  }
}

/** `Stamp`: the record of an approved quote, keyed by the stamp id. */
module StampEntity {
  import opened Wrappers
  import opened Strings
  import opened Crypto

  datatype Stamp = Stamp(
    partitionKey: string,
    rowKey: string,
    id: string,
    quotedObjectUrl: string,
    actor: Option<string>,
    quoteRequestId: Option<string>)

  /** `Stamp.GetFromQuoteRequest`. */
  function GetFromQuoteRequest(crypto: Primitives, actor: Option<string>, requestId: Option<string>,
                               stampId: string, quotedObjectUrl: string): (r: Stamp)
    ensures |r.rowKey| == 32 && forall i :: 0 <= i < 32 ==> IsHexDigit(r.rowKey[i])
    ensures Unhex(r.rowKey) == crypto.md5(stampId)
    ensures r.partitionKey == AfterLast(quotedObjectUrl, '/') && '/' !in r.partitionKey
    ensures r.actor == actor && r.quoteRequestId == requestId
    ensures r.id == stampId && r.quotedObjectUrl == quotedObjectUrl
  {
    Stamp(LastPiece(quotedObjectUrl, '/'), Md5Hex(crypto, stampId), stampId, quotedObjectUrl, actor, requestId)
  }
}

=== FILE: follow_service.dfy ===
/** `FollowService`: storing and removing followers, and answering a Follow
    with an Accept (section 7.5 of ActivityPub). */
module FollowService {
  import opened Wrappers
  import opened Errors
  import opened Json
  import Tables
  import opened Uris
  import opened Actors
  import opened FollowerEntity
  import opened InboxMessages
  import opened Storage
  import opened ActorHelper

  /** `CreateFollower`: the table is created first; an existing row is left as
      it is, and a missing one is inserted. */
  function CreateFollower(env: Env, w: World, m: InboxMessage): (r: Step<()>)
    ensures r.world.tables == w.tables + {FollowersTable}
    ensures r.world.replies == w.replies && r.world.blobs == w.blobs && r.world.sent == w.sent
    ensures r.result.Ok? <==> GetFromMessage(env.crypto, m.actor).Ok?
    ensures r.result.Err? ==> (r.world.followers == w.followers
      && r.result.error == GetFromMessage(env.crypto, m.actor).error)
    ensures r.result.Ok? ==> var f := GetFromMessage(env.crypto, m.actor).value;
      && Tables.Get(r.world.followers, KeyOf(f)).Some?
      && (Tables.Get(w.followers, KeyOf(f)).Some? ==> r.world.followers == w.followers)
      && (Tables.Get(w.followers, KeyOf(f)).None? ==> Tables.Get(r.world.followers, KeyOf(f)) == Some(f))
      && (forall k :: k != KeyOf(f) ==> Tables.Get(r.world.followers, k) == Tables.Get(w.followers, k))
  {
    var w1 := CreateTable(w, FollowersTable);
    match GetFromMessage(env.crypto, m.actor)
    case Err(e) => Step(w1, Err(e))
    case Ok(f) =>
      match Tables.Add(w1.followers, KeyOf(f), f)
      case Err(_) => Step(w1, Ok(()))
      case Ok(t) => Step(w1.(followers := t), Ok(()))
  }

  /** Following twice is following once: the second call finds the row and
      changes nothing. */
  lemma CreateFollowerIdempotent(env: Env, w: World, m: InboxMessage)
    ensures CreateFollower(env, CreateFollower(env, w, m).world, m) == CreateFollower(env, w, m)
  {
    var once := CreateFollower(env, w, m);
    assert CreateTable(once.world, FollowersTable) == once.world;
  }

  /** `DeleteFollower`: the table is created first; a missing row is not an
      error. */
  function DeleteFollower(env: Env, w: World, m: InboxMessage): (r: Step<()>)
    ensures r.world.tables == w.tables + {FollowersTable}
    ensures r.world.replies == w.replies && r.world.blobs == w.blobs && r.world.sent == w.sent
    ensures r.result.Ok? <==> GetFromMessage(env.crypto, m.actor).Ok?
    ensures r.result.Err? ==> (r.world.followers == w.followers
      && r.result.error == GetFromMessage(env.crypto, m.actor).error)
    ensures r.result.Ok? ==> var f := GetFromMessage(env.crypto, m.actor).value;
      && Tables.Get(r.world.followers, KeyOf(f)).None?
      && (Tables.Get(w.followers, KeyOf(f)).None? ==> r.world.followers == w.followers)
      && (forall k :: k != KeyOf(f) ==> Tables.Get(r.world.followers, k) == Tables.Get(w.followers, k))
  {
    var w1 := CreateTable(w, FollowersTable);
    match GetFromMessage(env.crypto, m.actor)
    case Err(e) => Step(w1, Err(e))
    case Ok(f) =>
      match Tables.Delete(w1.followers, KeyOf(f))
      case Err(_) => Step(w1, Ok(()))
      case Ok(t) => Step(w1.(followers := t), Ok(()))
  }

  /** `Unfollow` only deletes: nothing is sent, no blob or reply changes,
      the follower's row is gone and every other row is as it was. */
  function Unfollow(env: Env, w: World, m: InboxMessage): (r: Step<()>)
    ensures r.world.sent == w.sent && r.world.blobs == w.blobs && r.world.replies == w.replies
    ensures r.world.tables == w.tables + {FollowersTable}
    ensures r.result.Ok? <==> GetFromMessage(env.crypto, m.actor).Ok?
    ensures r.result.Err? ==> r.world.followers == w.followers
    ensures r.result.Ok? ==> var key := KeyOf(GetFromMessage(env.crypto, m.actor).value);
      && Tables.Get(r.world.followers, key).None?
      && (forall k :: k != key ==> Tables.Get(r.world.followers, k) == Tables.Get(w.followers, k))
    ensures r == DeleteFollower(env, w, m)
  {
    DeleteFollower(env, w, m)
  }

  /** Follow then Unfollow of the same actor leaves no row at its key and
      every other row as it was. */
  lemma FollowThenUnfollow(env: Env, w: World, m: InboxMessage)
    requires GetFromMessage(env.crypto, m.actor).Ok?
    ensures var f := GetFromMessage(env.crypto, m.actor).value;
      var after := DeleteFollower(env, CreateFollower(env, w, m).world, m).world;
      && Tables.Get(after.followers, KeyOf(f)).None?
      && forall k :: k != KeyOf(f) ==> Tables.Get(after.followers, k) == Tables.Get(w.followers, k)
  {
  }

  /** The Accept of a Follow, before the camel-case policy is applied. */
  function AcceptFor(messageId: Option<string>, target: string, actor: Actor): Json {
    JObj([
      F("@context", JStr(ActivityStreams)),
      P("Id", JStr(target + "#accepts/follows/" + OrEmpty(actor.id))),
      P("Type", JStr("Accept")),
      P("Actor", JStr(target)),
      P("Object", JObj([
        P("Id", OptStr(messageId)),
        P("Actor", OptStr(actor.url)),
        P("Type", JStr("Follow")),
        P("Object", JStr(target))]))])
  }

  /** The Accept as written: its id is the target with `#accepts/follows/` and
      the follower's id, its actor is the target, and its object restates the
      Follow with the follower's profile URL as actor. */
  lemma AcceptOnWire(messageId: Option<string>, target: string, actor: Actor)
    ensures Wire(CamelCase, AcceptFor(messageId, target, actor)) == JObj([
      F("@context", JStr(ActivityStreams)),
      F("id", JStr(target + "#accepts/follows/" + OrEmpty(actor.id))),
      F("type", JStr("Accept")),
      F("actor", JStr(target)),
      F("object", JObj([
        F("id", OptStr(messageId)),
        F("actor", OptStr(actor.url)),
        F("type", JStr("Follow")),
        F("object", JStr(target))]))])
  {
    CamelNames();
    var accept := AcceptFor(messageId, target, actor);
    var inner := [
      F("id", OptStr(messageId)),
      F("actor", OptStr(actor.url)),
      F("type", JStr("Follow")),
      F("object", JStr(target))];
    WireMembers(CamelCase, accept.members[4].value.members, inner);
    WireMembers(CamelCase, accept.members, [
      F("@context", JStr(ActivityStreams)),
      F("id", JStr(target + "#accepts/follows/" + OrEmpty(actor.id))),
      F("type", JStr("Accept")),
      F("actor", JStr(target)),
      F("object", JObj(inner))]);
  }

  /** The camel-case forms of the CLR names the Accepts use. */
  lemma CamelNames()
    ensures ConvertName(CamelCase, "Id") == "id"
    ensures ConvertName(CamelCase, "Type") == "type"
    ensures ConvertName(CamelCase, "Actor") == "actor"
    ensures ConvertName(CamelCase, "Object") == "object"
  {
    assert LowerFirst("Id") == "id";
    assert LowerFirst("Type") == "type";
    assert LowerFirst("Actor") == "actor";
    assert LowerFirst("Object") == "object";
  }

  /** `SendAcceptedFollowRequest`: the target is `message.Object` as text, the
      follower is fetched from `message.Actor`, and the Accept is POSTed to
      the follower's inbox. */
  function SendAcceptedFollowRequest(env: Env, m: InboxMessage): (r: Call<Json>)
    ensures |r.log| <= 2
    ensures m.obj.JNull? ==> r == Call([], Err(NullReference))
    ensures r.result.Ok? ==> (
      && ObjectText(env.encode, m.obj).Some?
      && FetchActor(env, m.actor).result.Ok?
      && var actor := FetchActor(env, m.actor).result.value;
      && r.result.value == AcceptFor(m.id, ObjectText(env.encode, m.obj).value, actor)
      && |r.log| == 2 && r.log[..1] == FetchActor(env, m.actor).log
      && actor.inbox.Some? && Parse(actor.inbox.value).Some?
      && CorrectedPost(env, env.encode(Wire(CamelCase, r.result.value)), Parse(actor.inbox.value).value) == Ok(r.log[1]))
  {
    match ObjectText(env.encode, m.obj)
    case None => Call([], Err(NullReference))
    case Some(target) =>
      var fetched := FetchActor(env, m.actor);
      match fetched.result
      case Err(e) => Call(fetched.log, Err(e))
      case Ok(actor) =>
        var accept := AcceptFor(m.id, target, actor);
        var posted := SendPost(env, env.encode(Wire(CamelCase, accept)), actor.inbox);
        match posted.result
        case Err(e) => Call(fetched.log + posted.log, Err(e))
        case Ok(_) => Call(fetched.log + posted.log, Ok(accept))
  }

  /** `Follow`: store the follower, then send the Accept. A failure to store
      sends nothing. */
  function Follow(env: Env, w: World, m: InboxMessage): (r: Step<()>)
    ensures r.world.followers == CreateFollower(env, w, m).world.followers
    ensures r.world.tables == w.tables + {FollowersTable}
    ensures r.world.replies == w.replies && r.world.blobs == w.blobs
    ensures CreateFollower(env, w, m).result.Err? ==> r == CreateFollower(env, w, m)
    ensures CreateFollower(env, w, m).result.Ok? ==>
      r.world.sent == w.sent + SendAcceptedFollowRequest(env, m).log
    ensures r.result.Ok? <==> CreateFollower(env, w, m).result.Ok? && SendAcceptedFollowRequest(env, m).result.Ok?
  {
    var created := CreateFollower(env, w, m);
    if created.result.Err? then created
    else
      var accepted := SendAcceptedFollowRequest(env, m);
      var w1 := Log(created.world, accepted.log);
      if accepted.result.Err? then Step(w1, Err(accepted.result.error)) else Step(w1, Ok(()))
  }
}

=== FILE: generators.dfy ===
/** `FollowersGenerator.Generate`: publishes the followers collection as one
    `CollectionPage` listing every follower's actor URI. */
module FollowersGenerator {
  import opened Wrappers
  import opened Errors
  import opened Json
  import opened Tables
  import opened FollowerEntity
  import opened Storage
  import ActorHelper

  const BlobName: string := "socialweb/followers"

  function CollectionId(domain: string): string {
    domain + "/socialweb/followers"
  }

  /** Every follower's actor URI, in row order, across all partitions. */
  function ActorUris(t: seq<Row<Follower>>): (r: seq<string>)
    ensures |r| == |t|
    ensures forall i :: 0 <= i < |t| ==> r[i] == t[i].value.actorUri
  {
    seq(|t|, i requires 0 <= i < |t| => t[i].value.actorUri)
  }

  /** A URI is listed exactly when some stored follower has it. */
  lemma ListedIffStored(t: Table<Follower>, u: string)
    ensures u in ActorUris(t) <==> exists k :: Tables.Get(t, k).Some? && Tables.Get(t, k).value.actorUri == u
  {
    if u in ActorUris(t) {
      var i :| 0 <= i < |t| && ActorUris(t)[i] == u;
      GetAt(t, t[i].key, i);
    }
    if exists k :: Tables.Get(t, k).Some? && Tables.Get(t, k).value.actorUri == u {
      var k :| Tables.Get(t, k).Some? && Tables.Get(t, k).value.actorUri == u;
      var i :| 0 <= i < |t| && t[i] == Row(k, Tables.Get(t, k).value);
      assert ActorUris(t)[i] == u;
    }
  }

  /** A follower added to the table is listed after the ones already there. */
  lemma AddedFollowerListedLast(t: Table<Follower>, k: Key, f: Follower)
    requires Add(t, k, f).Ok?
    ensures ActorUris(Add(t, k, f).value) == ActorUris(t) + [f.actorUri]
  {
    var t' := Add(t, k, f).value;
    assert |t'| == |t| + 1 by { assert |Values(t')| == |Values(t)| + 1; }
    forall i | 0 <= i < |t'|
      ensures ActorUris(t')[i] == (ActorUris(t) + [f.actorUri])[i]
    {
      assert Values(t')[i] == (Values(t) + [f])[i];
    }
  }

  /** The anonymous page object, with its CLR member names. */
  function Page(domain: string, items: seq<string>): Json {
    JObj([
      P("_context", JStr(ActivityStreams)),
      P("id", JStr(CollectionId(domain))),
      P("type", JStr("CollectionPage")),
      P("totalItems", JInt(|items|)),
      P("partOf", JStr(CollectionId(domain))),
      P("items", Strs(items))])
  }

  /** The document written for a followers table. */
  function Document(domain: string, t: seq<Row<Follower>>): Json {
    Wire(ContextOnly, Page(domain, ActorUris(t)))
  }

  /** As written, only `_context` is renamed; `id` and `partOf` are the same
      collection URL and `totalItems` counts the items. */
  lemma DocumentOnWire(domain: string, t: seq<Row<Follower>>)
    ensures Document(domain, t) == JObj([
      F("@context", JStr(ActivityStreams)),
      F("id", JStr(CollectionId(domain))),
      F("type", JStr("CollectionPage")),
      F("totalItems", JInt(|t|)),
      F("partOf", JStr(CollectionId(domain))),
      F("items", Strs(ActorUris(t)))])
  {
    WireStrs(ContextOnly, ActorUris(t));
    WireMembers(ContextOnly, Page(domain, ActorUris(t)).members, Document(domain, t).members);
  }

  /** The followers blob holds the document of the current table. */
  predicate Published(env: ActorHelper.Env, domain: string, w: World) {
    BlobName in w.blobs
    && w.blobs[BlobName] == Blob(env.encode(Document(domain, w.followers)), ActorHelper.ActivityJson)
  }

  /** `Generate()`: querying a table that was never created throws; otherwise
      the blob is overwritten with the current snapshot. */
  function Generate(env: ActorHelper.Env, domain: string, w: World): (r: Outcome<World>)
    ensures r.Ok? <==> FollowersTable in w.tables
    ensures r.Err? ==> r.error == TableNotFound(FollowersTable)
    ensures r.Ok? ==> Published(env, domain, r.value)
    ensures r.Ok? ==> (r.value.tables == w.tables && r.value.followers == w.followers
      && r.value.replies == w.replies && r.value.sent == w.sent)
    ensures r.Ok? ==> r.value.blobs.Keys == w.blobs.Keys + {BlobName}
    ensures r.Ok? ==> forall b :: b in w.blobs && b != BlobName ==> r.value.blobs[b] == w.blobs[b]
  {
    if FollowersTable !in w.tables then Err(TableNotFound(FollowersTable))
    else Ok(Upload(w, BlobName, Blob(env.encode(Document(domain, w.followers)), ActorHelper.ActivityJson)))
  }
}

/** `RepliesGenerator.Generate(noteUrl)`: publishes the replies to one note as
    a `CollectionPage`. */
module RepliesGenerator {
  import opened Wrappers
  import opened Errors
  import opened Strings
  import opened Json
  import opened Tables
  import opened ReplyEntity
  import opened Storage
  import ActorHelper

  /** The note's slug: the text after the last `/` of its URL. */
  function NoteId(noteUrl: string): (r: string)
    ensures r == AfterLast(noteUrl, '/')
    ensures '/' !in r
  {
    LastPiece(noteUrl, '/')
  }

  function BlobNameFor(noteId: string): string {
    "socialweb/replies/" + noteId
  }

  /** The query filter up to the opening quote of its string literal. */
  const FilterHead: string := "PartitionKey eq '"

  /** The query filter as written: the note id spliced between quotes. */
  function QueryFilter(noteId: string): string {
    FilterHead + noteId + "'"
  }

  /** The text of a string in an OData string literal: every quote doubled. */
  function EscapeQuotes(s: string): (r: string)
    ensures |r| >= |s|
    ensures '\'' in s ==> |r| > |s|
    decreases |s|
  {
    if |s| == 0 then ""
    else if s[0] == '\'' then "''" + EscapeQuotes(s[1..])
    else [s[0]] + EscapeQuotes(s[1..])
  }

  /** The filter with the note id written as a proper literal. */
  function EscapedFilter(noteId: string): string {
    FilterHead + EscapeQuotes(noteId) + "'"
  }

  /** Reads an OData string literal from just after its opening quote: the
      value, a doubled quote standing for one quote, and the text after the
      closing quote; None when the literal is not closed. */
  function ReadLiteral(s: string): (r: Option<(string, string)>)
    ensures r.Some? ==> |r.value.1| < |s|
    decreases |s|
  {
    if |s| == 0 then None
    else if s[0] == '\'' then
      if |s| >= 2 && s[1] == '\'' then
        match ReadLiteral(s[2..])
        case None => None
        case Some((v, rest)) => Some(("'" + v, rest))
      else Some(("", s[1..]))
    else
      match ReadLiteral(s[1..])
      case None => None
      case Some((v, rest)) => Some(([s[0]] + v, rest))
  }

  /** The filter selects exactly the rows whose partition key is `v`: it is
      the comparison with one literal that reads as `v`, and nothing
      follows. */
  predicate SelectsPartition(filter: string, v: string) {
    && |FilterHead| <= |filter| && filter[..|FilterHead|] == FilterHead
    && ReadLiteral(filter[|FilterHead|..]) == Some((v, ""))
  }

  /** An escaped value reads back as itself, up to its closing quote. */
  lemma {:induction false} ReadEscaped(v: string, rest: string)
    requires |rest| == 0 || rest[0] != '\''
    ensures ReadLiteral(EscapeQuotes(v) + "'" + rest) == Some((v, rest))
    decreases |v|
  {
    if |v| > 0 {
      ReadEscaped(v[1..], rest);
      var tail := EscapeQuotes(v[1..]) + "'" + rest;
      if v[0] == '\'' {
        assert EscapeQuotes(v) + "'" + rest == "''" + tail;
        assert ("''" + tail)[2..] == tail;
      } else {
        assert EscapeQuotes(v) + "'" + rest == [v[0]] + tail;
        assert ([v[0]] + tail)[1..] == tail;
      }
      assert [v[0]] + v[1..] == v;
    } else {
      assert EscapeQuotes(v) + "'" + rest == "'" + rest;
    }
  }

  /** Whatever a literal reads as, the text was that value escaped, the
      closing quote and the rest. */
  lemma {:induction false} ReadLiteralInverse(s: string)
    requires ReadLiteral(s).Some?
    ensures s == EscapeQuotes(ReadLiteral(s).value.0) + "'" + ReadLiteral(s).value.1
    decreases |s|
  {
    if s[0] == '\'' {
      if |s| >= 2 && s[1] == '\'' {
        ReadLiteralInverse(s[2..]);
        var v := ReadLiteral(s[2..]).value.0;
        assert ("'" + v)[1..] == v;
        assert s == "''" + s[2..];
      } else {
        assert s == "'" + s[1..];
      }
    } else {
      ReadLiteralInverse(s[1..]);
      var v := ReadLiteral(s[1..]).value.0;
      assert ([s[0]] + v)[1..] == v;
      assert s == [s[0]] + s[1..];
    }
  }

  lemma {:induction false} EscapeQuotesPlain(s: string)
    requires '\'' !in s
    ensures EscapeQuotes(s) == s
    decreases |s|
  {
    if |s| > 0 {
      EscapeQuotesPlain(s[1..]);
      assert [s[0]] + s[1..] == s;
    }
  }

  /** With the note id escaped, the filter selects the note's partition for
      every id. */
  lemma EscapedFilterSelects(noteId: string)
    ensures SelectsPartition(EscapedFilter(noteId), noteId)
  {
    ReadEscaped(noteId, "");
    assert EscapedFilter(noteId)[|FilterHead|..] == EscapeQuotes(noteId) + "'" + "";
  }

  /** As written, the filter selects the note's partition exactly when the
      id has no quote in it. */
  lemma QueryFilterSelects(noteId: string)
    ensures SelectsPartition(QueryFilter(noteId), noteId) <==> '\'' !in noteId
  {
    var body := QueryFilter(noteId)[|FilterHead|..];
    assert body == noteId + "'";
    if '\'' !in noteId {
      EscapeQuotesPlain(noteId);
      EscapedFilterSelects(noteId);
      assert QueryFilter(noteId) == EscapedFilter(noteId);
    } else if SelectsPartition(QueryFilter(noteId), noteId) {
      ReadLiteralInverse(body);
      assert false;
    }
  }

  /** An id that closes the literal early injects a clause of its own: the
      filter for `x' or PartitionKey ne '` compares with `x` and goes on with
      `or PartitionKey ne ''`, which every row meets. */
  lemma QueryFilterInjected()
    ensures ReadLiteral(QueryFilter("x' or PartitionKey ne '")[|FilterHead|..])
      == Some(("x", " or PartitionKey ne ''"))
  {
    assert QueryFilter("x' or PartitionKey ne '")[|FilterHead|..] == EscapeQuotes("x") + "'" + " or PartitionKey ne ''";
    ReadEscaped("x", " or PartitionKey ne ''");
  }

  function CollectionId(domain: string, noteId: string): string {
    domain + "/socialweb/replies/" + noteId
  }

  /** The `Id` of every reply row in partition `noteId`, in row order: the
      rows the query returns when the filter selects that partition, as
      `EscapedFilter` does for every id. */
  function ReplyIds(t: seq<Row<Reply>>, noteId: string): (r: seq<string>)
    ensures |r| <= |t|
    ensures forall i :: 0 <= i < |t| && t[i].key.partition == noteId ==> t[i].value.id in r
    ensures forall x :: x in r ==> exists i :: 0 <= i < |t| && t[i].key.partition == noteId && t[i].value.id == x
    decreases |t|
  {
    if |t| == 0 then []
    else
      var rest := ReplyIds(t[1..], noteId);
      assert forall i :: 1 <= i < |t| ==> t[i] == t[1..][i - 1];
      if t[0].key.partition == noteId then [t[0].value.id] + rest else rest
  }

  /** The ids keep the rows' order: the ids of two tables laid end to end
      are the ids of the first followed by those of the second, and one row
      contributes its id exactly when it is in the partition. */
  lemma {:induction false} ReplyIdsAppend(a: seq<Row<Reply>>, b: seq<Row<Reply>>, noteId: string)
    ensures ReplyIds(a + b, noteId) == ReplyIds(a, noteId) + ReplyIds(b, noteId)
    decreases |a|
  {
    if |a| == 0 {
      assert a + b == b;
    } else {
      assert (a + b)[1..] == a[1..] + b;
      ReplyIdsAppend(a[1..], b, noteId);
    }
  }

  lemma ReplyIdsSingle(row: Row<Reply>, noteId: string)
    ensures ReplyIds([row], noteId) == if row.key.partition == noteId then [row.value.id] else []
  {
    assert [row][1..] == [];
  }

  function Page(domain: string, noteId: string, items: seq<string>): Json {
    JObj([
      P("_context", JStr(ActivityStreams)),
      P("id", JStr(CollectionId(domain, noteId) + "?page=true")),
      P("partOf", JStr(CollectionId(domain, noteId))),
      P("type", JStr("CollectionPage")),
      P("items", Strs(items))])
  }

  function Document(domain: string, noteId: string, t: seq<Row<Reply>>): Json {
    Wire(ContextOnly, Page(domain, noteId, ReplyIds(t, noteId)))
  }

  /** As written: the page id is the collection URL with `?page=true`, and
      `partOf` is the collection URL itself. */
  lemma DocumentOnWire(domain: string, noteId: string, t: seq<Row<Reply>>)
    ensures Document(domain, noteId, t) == JObj([
      F("@context", JStr(ActivityStreams)),
      F("id", JStr(CollectionId(domain, noteId) + "?page=true")),
      F("partOf", JStr(CollectionId(domain, noteId))),
      F("type", JStr("CollectionPage")),
      F("items", Strs(ReplyIds(t, noteId)))])
  {
    WireStrs(ContextOnly, ReplyIds(t, noteId));
    WireMembers(ContextOnly, Page(domain, noteId, ReplyIds(t, noteId)).members, Document(domain, noteId, t).members);
  }

  /** The replies blob of `noteId` holds the document of the current table. */
  predicate Published(env: ActorHelper.Env, domain: string, noteId: string, w: World) {
    BlobNameFor(noteId) in w.blobs
    && w.blobs[BlobNameFor(noteId)] == Blob(env.encode(Document(domain, noteId, w.replies)), ActorHelper.ActivityJson)
  }

  /** `Generate(noteUrl)`: the page of the note's slug is overwritten. */
  function Generate(env: ActorHelper.Env, domain: string, noteUrl: string, w: World): (r: Outcome<World>)
    ensures r.Ok? <==> RepliesTable in w.tables
    ensures r.Err? ==> r.error == TableNotFound(RepliesTable)
    ensures r.Ok? ==> Published(env, domain, NoteId(noteUrl), r.value)
    ensures r.Ok? ==> (r.value.tables == w.tables && r.value.followers == w.followers
      && r.value.replies == w.replies && r.value.sent == w.sent)
    ensures r.Ok? ==> r.value.blobs.Keys == w.blobs.Keys + {BlobNameFor(NoteId(noteUrl))}
    ensures r.Ok? ==> forall b :: b in w.blobs && b != BlobNameFor(NoteId(noteUrl)) ==> r.value.blobs[b] == w.blobs[b]
  {
    if RepliesTable !in w.tables then Err(TableNotFound(RepliesTable))
    else
      var noteId := NoteId(noteUrl);
      Ok(Upload(w, BlobNameFor(noteId), Blob(env.encode(Document(domain, noteId, w.replies)), ActorHelper.ActivityJson)))
  }

  /** Called with a reply's `NoteId`, the generator regenerates exactly the
      partition the reply was filed under. */
  lemma NoteIdOfReply(r: Reply, note: Note)
    requires note.inReplyTo.Some? && r.noteId == note.inReplyTo.value
    requires r.partitionKey == AfterLast(note.inReplyTo.value, '/')
    ensures NoteId(r.noteId) == r.partitionKey
  {
  }

  /** A stored reply appears on the page regenerated for its note. */
  lemma StoredReplyListed(t: seq<Row<Reply>>, i: nat)
    requires i < |t| && t[i].key == KeyOf(t[i].value)
    requires t[i].value.partitionKey == NoteId(t[i].value.noteId)
    ensures t[i].value.id in ReplyIds(t, NoteId(t[i].value.noteId))
  {
  }
}

/** `StampsGenerator.GenerateStampFile`: publishes one `QuoteAuthorization`
    (FEP-044f) at the path of its id. */
module StampsGenerator {
  import opened Wrappers
  import opened Errors
  import opened Strings
  import opened Uris
  import opened Json
  import opened Storage
  import ActorHelper

  /** The JSON-LD context: the ActivityStreams URL and a dictionary whose keys
      are written verbatim. */
  function Context(): Json {
    JArr([
      JStr(ActivityStreams),
      JObj([
        F("QuoteAuthorization", JStr("https://w3id.org/fep/044f#QuoteAuthorization")),
        F("gts", JStr("https://gotosocial.org/ns#")),
        F("interactingObject", IdTerm("gts:interactingObject")),
        F("interactionTarget", IdTerm("gts:interactionTarget"))])])
  }

  /** A context term whose values are IRIs. */
  function IdTerm(id: string): Json {
    JObj([F("@id", JStr(id)), F("@type", JStr("@id"))])
  }

  function Page(stampId: string, actor: string, quoteStatusUrl: string, quotedPostUrl: string): Json {
    JObj([
      P("_context", Context()),
      P("type", JStr("QuoteAuthorization")),
      P("id", JStr(stampId)),
      P("attributedTo", JStr(actor)),
      P("interactingObject", JStr(quoteStatusUrl)),
      P("interactionTarget", JStr(quotedPostUrl))])
  }

  function Document(stampId: string, actor: string, quoteStatusUrl: string, quotedPostUrl: string): Json {
    Wire(ContextOnly, Page(stampId, actor, quoteStatusUrl, quotedPostUrl))
  }

  /** As written: every name but `_context` is kept as declared, the context
      keeps its dictionary keys, and the four fields carry the arguments. */
  lemma DocumentOnWire(stampId: string, actor: string, quoteStatusUrl: string, quotedPostUrl: string)
    ensures Document(stampId, actor, quoteStatusUrl, quotedPostUrl) == JObj([
      F("@context", Context()),
      F("type", JStr("QuoteAuthorization")),
      F("id", JStr(stampId)),
      F("attributedTo", JStr(actor)),
      F("interactingObject", JStr(quoteStatusUrl)),
      F("interactionTarget", JStr(quotedPostUrl))])
  {
    WireContext();
    WireMembers(ContextOnly, Page(stampId, actor, quoteStatusUrl, quotedPostUrl).members,
      Document(stampId, actor, quoteStatusUrl, quotedPostUrl).members);
  }

  /** The context's dictionary keys are not renamed. */
  lemma WireContext()
    ensures Wire(ContextOnly, Context()) == Context()
  {
    var c := Context();
    var dict := c.items[1];
    var target := dict.members[2].value;
    var interaction := dict.members[3].value;
    WireMembers(ContextOnly, target.members, target.members);
    WireMembers(ContextOnly, interaction.members, interaction.members);
    WireMembers(ContextOnly, dict.members, dict.members);
    assert Wire(ContextOnly, c).items == c.items;
  }

  /** `new Uri(stampId).AbsolutePath.TrimStart('/')`. */
  function BlobNameOf(stampId: string): (r: Outcome<string>)
    ensures r.Ok? <==> Parse(stampId).Some?
    ensures r.Err? ==> r.error == UriFormat(stampId)
    ensures r.Ok? ==> |r.value| == 0 || r.value[0] != '/'
    ensures r.Ok? ==> var path := AbsolutePath(Parse(stampId).value);
      |r.value| <= |path| && path[|path| - |r.value|..] == r.value
      && forall i :: 0 <= i < |path| - |r.value| ==> path[i] == '/'
  {
    match Parse(stampId)
    case None => Err(UriFormat(stampId))
    case Some(u) => Ok(TrimStart(AbsolutePath(u), '/'))
  }

  /** A stamp id minted as `<scheme>://<host>/socialweb/quotes/<g>` is
      published at `socialweb/quotes/<g>`. */
  lemma QuoteStampBlobName(scheme: string, host: string, g: string)
    requires ValidScheme(scheme) && forall i :: 0 <= i < |scheme| ==> !IsUpperAscii(scheme[i])
    requires |host| > 0 && forall i :: 0 <= i < |host| ==> IsHostChar(host[i])
    requires '?' !in g && '#' !in g
    ensures BlobNameOf(scheme + "://" + host + "/socialweb/quotes/" + g) == Ok("socialweb/quotes/" + g)
  {
    var path := "/socialweb/quotes/" + g;
    assert '?' !in path && '#' !in path;
    ParsePlain(scheme, host, path);
    assert scheme + "://" + host + "/socialweb/quotes/" + g == scheme + "://" + host + path;
    TrimQuotePath(g);
  }

  lemma TrimQuotePath(g: string)
    ensures TrimStart("/socialweb/quotes/" + g, '/') == "socialweb/quotes/" + g
  {
    var path := "/socialweb/quotes/" + g;
    assert path[1..] == "socialweb/quotes/" + g;
    assert path[1..][0] == 's';
  }

  /** `GenerateStampFile`: a stamp id that does not parse throws before the
      upload; otherwise the blob at the id's path is created or overwritten. */
  function GenerateStampFile(env: ActorHelper.Env, w: World, stampId: string, actor: string,
                             quoteStatusUrl: string, quotedPostUrl: string): (r: Outcome<World>)
    ensures r.Ok? <==> BlobNameOf(stampId).Ok?
    ensures r.Err? ==> r.error == UriFormat(stampId)
    ensures r.Ok? ==> var name := BlobNameOf(stampId).value;
      && r.value.blobs.Keys == w.blobs.Keys + {name}
      && r.value.blobs[name] == Blob(env.encode(Document(stampId, actor, quoteStatusUrl, quotedPostUrl)), ActorHelper.ActivityJson)
      && forall b :: b in w.blobs && b != name ==> r.value.blobs[b] == w.blobs[b]
    ensures r.Ok? ==> (r.value.tables == w.tables && r.value.followers == w.followers
      && r.value.replies == w.replies && r.value.sent == w.sent)
  {
    var content := env.encode(Document(stampId, actor, quoteStatusUrl, quotedPostUrl));
    match BlobNameOf(stampId)
    case Err(e) => Err(e)
    case Ok(name) => Ok(Upload(w, name, Blob(content, ActorHelper.ActivityJson)))
  }
}

=== FILE: http.dfy ===
/** HTTP requests as the model logs them, and responses as the transport
    returns them. */
module Http {
  import opened Wrappers
  import opened Strings
  import opened Uris

  datatype Method = Get | Post

  datatype Header = Header(name: string, value: string)

  /** A request handed to the transport: method, target, headers in the order
      they were added, and the body of a POST. */
  datatype Request = Request(verb: Method, url: Uri, headers: seq<Header>, body: Option<string>)

  /** What the transport gives back: a status and body, or an exception raised
      before any status arrived. */
  datatype Response = Response(status: int, body: string) | Unreachable

  /** `HttpResponseMessage.IsSuccessStatusCode`. */
  predicate IsSuccessStatus(code: int) {
    200 <= code <= 299
  }

  /** The lower-case token of a method, as in a `(request-target)` line. */
  function MethodToken(m: Method): string {
    match m
    case Get => "get"
    case Post => "post"
  }

  /** The value of the first header whose name, lower-cased, is `name`; header
      names are case-insensitive. */
  function HeaderValue(hs: seq<Header>, name: string): (r: Option<string>)
    ensures r.Some? ==> exists i :: 0 <= i < |hs| && LowerString(hs[i].name) == name && hs[i].value == r.value
    ensures r.None? ==> forall i :: 0 <= i < |hs| ==> LowerString(hs[i].name) != name
    decreases |hs|
  {
    if |hs| == 0 then None
    else if LowerString(hs[0].name) == name then Some(hs[0].value)
    else HeaderValue(hs[1..], name)
  }

  /** The lookup finds the first header with a matching name. */
  lemma {:induction false} HeaderValueAt(hs: seq<Header>, name: string, i: nat)
    requires i < |hs| && LowerString(hs[i].name) == name
    requires forall j :: 0 <= j < i ==> LowerString(hs[j].name) != name
    ensures HeaderValue(hs, name) == Some(hs[i].value)
    decreases i
  {
    if i > 0 {
      HeaderValueAt(hs[1..], name, i - 1);
    }
  }

  /** `HeaderValueAt` with the lower-case names given as a list, so that a
      caller can check the earlier names on the list alone. */
  lemma HeaderNamed(hs: seq<Header>, names: seq<string>, i: nat)
    requires |hs| == |names| && i < |hs|
    requires forall j :: 0 <= j < |hs| ==> LowerString(hs[j].name) == names[j]
    requires forall j :: 0 <= j < i ==> names[j] != names[i]
    ensures HeaderValue(hs, names[i]) == Some(hs[i].value)
  {
    HeaderValueAt(hs, names[i], i);
  }

  /** The lower-case forms of the header names the code sends. */
  lemma SentHeaderNames()
    ensures LowerString("Host") == "host"
    ensures LowerString("Date") == "date"
    ensures LowerString("Signature") == "signature"
    ensures LowerString("Accept") == "accept"
    ensures LowerString("Digest") == "digest"
    ensures LowerString("Content-Type") == "content-type"
  {
    LowerOf("Host", "host");
    LowerOf("Date", "date");
    LowerOf("Signature", "signature");
    LowerOf("Accept", "accept");
    LowerOf("Digest", "digest");
    LowerOf("Content-Type", "content-type");
  }

  lemma LowerOf(s: string, t: string)
    requires |s| == |t| && forall i :: 0 <= i < |s| ==> LowerAscii(s[i]) == t[i]
    ensures LowerString(s) == t
  {
  }
}

/** The fields of a fetched actor document the code reads. Every one may be
    missing from the JSON, so every one is optional. */
module Actors {
  import opened Wrappers

  datatype Endpoints = Endpoints(sharedInbox: Option<string>)

  datatype Actor = Actor(
    id: Option<string>,
    name: Option<string>,
    url: Option<string>,
    inbox: Option<string>,
    outbox: Option<string>,
    endpoints: Option<Endpoints>)

  /** `actor.Endpoints?.SharedInbox ?? actor.Inbox`: the shared inbox when the
      actor publishes one, else its own inbox. */
  function PreferredInbox(a: Actor): (r: Option<string>)
    ensures a.endpoints.Some? && a.endpoints.value.sharedInbox.Some? ==> r == a.endpoints.value.sharedInbox
    ensures (a.endpoints.None? || a.endpoints.value.sharedInbox.None?) ==> r == a.inbox
  {
    match a.endpoints
    case Some(Endpoints(Some(shared))) => Some(shared)
    case _ => a.inbox
  }
}

=== FILE: inbox.dfy ===
/** `Inbox.Run`: the HTTP entry point. It decodes the activity, dispatches on
    its type to the follow and reply services, and answers 200 with the
    ActivityStreams content type; any exception along the way is rethrown,
    so no 200 is sent. */
module Inbox {
  import opened Wrappers
  import opened Errors
  import opened Json
  import Tables
  import opened Actors
  import opened FollowerEntity
  import opened InboxMessages
  import opened Storage
  import opened Server
  import opened ActorHelper
  import FollowService
  import RepliesService
  import FollowersGenerator

  /** The status and `Content-Type` of the response. */
  datatype HttpReply = HttpReply(status: int, contentType: string)

  const Accepted: HttpReply := HttpReply(200, ActivityJson)

  /** The outcome of one dispatch as the response: success answers 200. */
  function Respond(s: Step<()>): (r: Step<HttpReply>)
    ensures r.world == s.world
    ensures r.result.Ok? <==> s.result.Ok?
    ensures r.result.Ok? ==> r.result.value == Accepted
    ensures r.result.Err? ==> r.result.error == s.result.error
  {
    match s.result
    case Ok(_) => Step(s.world, Ok(Accepted))
    case Err(e) => Step(s.world, Err(e))
  }

  /** `UpdateFollowersCollection`, after a step that succeeded. */
  function ThenPublishFollowers(env: Env, cfg: ServerConfig, s: Step<()>): (r: Step<()>)
    ensures s.result.Err? ==> r == s
    ensures s.result.Ok? && FollowersTable in s.world.tables ==> (
      && r.result.Ok? && FollowersGenerator.Published(env, cfg.baseDomain, r.world)
      && r.world.tables == s.world.tables && r.world.followers == s.world.followers
      && r.world.replies == s.world.replies && r.world.sent == s.world.sent)
  {
    if s.result.Err? then s
    else
      match FollowersGenerator.Generate(env, cfg.baseDomain, s.world)
      case Err(e) => Step(s.world, Err(e))
      case Ok(w1) => Step(w1, Ok(()))
  }

  /** The Accept sent back for an Undo: its object is the whole incoming
      activity, parsed as a JSON element, so its names are written as
      received. */
  function UndoAccept(cfg: ServerConfig, uuid: string, original: Json): Json {
    JObj([
      F("@context", JStr(ActivityStreams)),
      P("Id", JStr(cfg.baseDomain + "/" + uuid)),
      P("Type", JStr("Accept")),
      P("Actor", JStr(ActorId(cfg))),
      P("Object", Freeze(original))])
  }

  /** The Undo's Accept as written: id `BaseDomain/uuid`, actor
      `BaseDomain/ActorName`, and the received activity unchanged as object. */
  lemma UndoAcceptOnWire(cfg: ServerConfig, uuid: string, original: Json)
    ensures Wire(CamelCase, UndoAccept(cfg, uuid, original)) == JObj([
      F("@context", JStr(ActivityStreams)),
      F("id", JStr(cfg.baseDomain + "/" + uuid)),
      F("type", JStr("Accept")),
      F("actor", JStr(cfg.baseDomain + "/" + cfg.actorName)),
      F("object", Freeze(original))])
  {
    FollowService.CamelNames();
    WireFrozen(CamelCase, original);
    WireMembers(CamelCase, UndoAccept(cfg, uuid, original).members, [
      F("@context", JStr(ActivityStreams)),
      F("id", JStr(cfg.baseDomain + "/" + uuid)),
      F("type", JStr("Accept")),
      F("actor", JStr(cfg.baseDomain + "/" + cfg.actorName)),
      F("object", Freeze(original))]);
  }

  /** A Follow: store the follower and accept, then republish the followers. */
  function OnFollow(env: Env, cfg: ServerConfig, w: World, m: InboxMessage): (r: Step<()>)
    ensures FollowService.Follow(env, w, m).result.Err? ==> r == FollowService.Follow(env, w, m)
    ensures r.result.Ok? ==> (
      && FollowService.Follow(env, w, m).result.Ok?
      && r.world.followers == FollowService.CreateFollower(env, w, m).world.followers
      && r.world.sent == FollowService.Follow(env, w, m).world.sent
      && FollowersGenerator.Published(env, cfg.baseDomain, r.world))
  {
    ThenPublishFollowers(env, cfg, FollowService.Follow(env, w, m))
  }

  /** An Undo: remove the follower, fetch the actor, send it an Accept of the
      Undo, then republish the followers. */
  function OnUndo(env: Env, cfg: ServerConfig, w: World, m: InboxMessage, body: string, uuid: string): (r: Step<()>)
    ensures FollowService.Unfollow(env, w, m).result.Err? ==> r == FollowService.Unfollow(env, w, m)
    ensures var unfollowed := FollowService.Unfollow(env, w, m); var fetched := FetchActor(env, m.actor);
      unfollowed.result.Ok? && fetched.result.Err? ==> r == Step(Log(unfollowed.world, fetched.log), Err(fetched.result.error))
    ensures var unfollowed := FollowService.Unfollow(env, w, m); var fetched := FetchActor(env, m.actor);
      unfollowed.result.Ok? && fetched.result.Ok? && env.decodeJson(body).None? ==>
        r == Step(Log(unfollowed.world, fetched.log), Err(JsonInvalid))
    ensures var unfollowed := FollowService.Unfollow(env, w, m); var fetched := FetchActor(env, m.actor);
      unfollowed.result.Ok? && fetched.result.Ok? && env.decodeJson(body).Some? ==>
        var document := env.encode(Wire(CamelCase, UndoAccept(cfg, uuid, env.decodeJson(body).value)));
        var posted := SendPost(env, document, fetched.result.value.inbox);
        posted.result.Err? ==> r == Step(Log(Log(unfollowed.world, fetched.log), posted.log), Err(posted.result.error))
    ensures r.result.Ok? ==> (
      && FollowService.Unfollow(env, w, m).result.Ok?
      && r.world.followers == FollowService.Unfollow(env, w, m).world.followers
      && FetchActor(env, m.actor).result.Ok?
      && env.decodeJson(body).Some?
      && var actor := FetchActor(env, m.actor).result.value;
      && var document := env.encode(Wire(CamelCase, UndoAccept(cfg, uuid, env.decodeJson(body).value)));
      && r.world.sent == w.sent + FetchActor(env, m.actor).log + SendPost(env, document, actor.inbox).log
      && SendPost(env, document, actor.inbox).result.Ok?
      && FollowersGenerator.Published(env, cfg.baseDomain, r.world))
  {
    var unfollowed := FollowService.Unfollow(env, w, m);
    if unfollowed.result.Err? then unfollowed
    else
      var fetched := FetchActor(env, m.actor);
      var w1 := Log(unfollowed.world, fetched.log);
      match fetched.result
      case Err(e) => Step(w1, Err(e))
      case Ok(actor) =>
        match env.decodeJson(body)
        case None => Step(w1, Err(JsonInvalid))
        case Some(original) =>
          var document := env.encode(Wire(CamelCase, UndoAccept(cfg, uuid, original)));
          var posted := SendPost(env, document, actor.inbox);
          var w2 := Log(w1, posted.log);
          if posted.result.Err? then Step(w2, Err(posted.result.error))
          else ThenPublishFollowers(env, cfg, Step(w2, Ok(())))
  }

  /** `Run`. `decode` is the deserializer: None when it throws, Some(None) for
      a body that is the JSON `null`. `uuid` is the GUID drawn for an Undo. */
  function Run(env: Env, cfg: ServerConfig, w: World, body: string,
               decode: string -> Option<Option<InboxMessage>>, uuid: string): (r: Step<HttpReply>)
    ensures decode(body).None? ==> r == Step(w, Err(JsonInvalid))
    ensures r.result.Ok? ==> r.result.value == Accepted
    ensures decode(body) == Some(None) ==> r == Step(w, Ok(Accepted))
    ensures decode(body).Some? && decode(body).value.Some? ==>
      var m := decode(body).value.value;
      && (m.typ.None? ==> r == Step(w, Err(NullReference)))
      && (m.typ.Some? ==> match KindOf(m.typ.value)
           case Delete => r == Step(w, Err(NotImplemented("Delete not supported")))
           case Follow => r == Respond(OnFollow(env, cfg, w, m))
           case Undo => r == Respond(OnUndo(env, cfg, w, m, body, uuid))
           case Create => r == Respond(RepliesService.AddReply(env, cfg.baseDomain, w, m))
           case QuoteRequest => r == Step(w, Ok(Accepted))
           case Other => r == Step(w, Ok(Accepted)))
  {
    match decode(body)
    case None => Step(w, Err(JsonInvalid))
    case Some(None) => Step(w, Ok(Accepted))
    case Some(Some(m)) =>
      if m.typ.None? then Step(w, Err(NullReference))
      else if IsDelete(m) then Step(w, Err(NotImplemented("Delete not supported")))
      else if IsFollow(m) then Respond(OnFollow(env, cfg, w, m))
      else if IsUndoFollow(m) then Respond(OnUndo(env, cfg, w, m, body, uuid))
      else if IsCreateActivity(m) then Respond(RepliesService.AddReply(env, cfg.baseDomain, w, m))
      else Step(w, Ok(Accepted))
  }

  /** The message `Run` dispatches on, when the body decodes to one with a type. */
  predicate Decodes(decode: string -> Option<Option<InboxMessage>>, body: string, m: InboxMessage) {
    decode(body) == Some(Some(m)) && m.typ.Some?
  }

  /** An accepted Follow leaves the sender's row in the table and the
      followers page republished from the table as it now is. */
  lemma FollowAnswered(env: Env, cfg: ServerConfig, w: World, body: string,
                       decode: string -> Option<Option<InboxMessage>>, uuid: string, m: InboxMessage)
    requires Decodes(decode, body, m) && IsFollow(m)
    requires Run(env, cfg, w, body, decode, uuid).result.Ok?
    ensures var r := Run(env, cfg, w, body, decode, uuid).world;
      && GetFromMessage(env.crypto, m.actor).Ok?
      && Tables.Get(r.followers, KeyOf(GetFromMessage(env.crypto, m.actor).value)).Some?
      && FollowersGenerator.Published(env, cfg.baseDomain, r)
  {
    PredicatesMatchKind(m);
    var s := OnFollow(env, cfg, w, m);
    assert Run(env, cfg, w, body, decode, uuid) == Respond(s);
    assert FollowService.Follow(env, w, m).result.Ok?;
    assert FollowService.CreateFollower(env, w, m).result.Ok?;
  }

  /** An accepted Undo leaves no row at the sender's key, has POSTed the
      Accept to the sender's inbox, and leaves the followers page
      republished. */
  lemma UndoAnswered(env: Env, cfg: ServerConfig, w: World, body: string,
                     decode: string -> Option<Option<InboxMessage>>, uuid: string, m: InboxMessage)
    requires Decodes(decode, body, m) && IsUndoFollow(m)
    requires Run(env, cfg, w, body, decode, uuid).result.Ok?
    ensures var r := Run(env, cfg, w, body, decode, uuid).world;
      && GetFromMessage(env.crypto, m.actor).Ok?
      && Tables.Get(r.followers, KeyOf(GetFromMessage(env.crypto, m.actor).value)).None?
      && |r.sent| == |w.sent| + 2
      && FollowersGenerator.Published(env, cfg.baseDomain, r)
  {
    PredicatesMatchKind(m);
    assert Run(env, cfg, w, body, decode, uuid) == Respond(OnUndo(env, cfg, w, m, body, uuid));
    UndoStep(env, cfg, w, m, body, uuid);
  }

  lemma UndoStep(env: Env, cfg: ServerConfig, w: World, m: InboxMessage, body: string, uuid: string)
    requires OnUndo(env, cfg, w, m, body, uuid).result.Ok?
    ensures var r := OnUndo(env, cfg, w, m, body, uuid).world;
      && GetFromMessage(env.crypto, m.actor).Ok?
      && Tables.Get(r.followers, KeyOf(GetFromMessage(env.crypto, m.actor).value)).None?
      && |r.sent| == |w.sent| + 2
      && FollowersGenerator.Published(env, cfg.baseDomain, r)
  {
    assert FollowService.Unfollow(env, w, m).result.Ok?;
    var actor := FetchActor(env, m.actor).result.value;
    var document := env.encode(Wire(CamelCase, UndoAccept(cfg, uuid, env.decodeJson(body).value)));
    assert SendPost(env, document, actor.inbox).log != [];
  }

  /** A Create touches only the replies: no follower changes and nothing is
      sent. */
  lemma CreateOnlyReplies(env: Env, cfg: ServerConfig, w: World, body: string,
                          decode: string -> Option<Option<InboxMessage>>, uuid: string, m: InboxMessage)
    requires Decodes(decode, body, m) && IsCreateActivity(m)
    ensures var r := Run(env, cfg, w, body, decode, uuid).world;
      r.followers == w.followers && r.sent == w.sent
  {
    PredicatesMatchKind(m);
  }
}

=== FILE: json.dfy ===
/** JSON documents as `System.Text.Json` sees them: CLR member names on the way
    in, and a naming policy that decides the property names written out. Turning
    a tree into text is left to a parameter (`encode` in the environments of the
    other modules); this module fixes the tree and its property names. */
module Json {
  import opened Wrappers
  import opened Strings
  import opened Errors

  /** A CLR member name or dictionary key; never empty. */
  type Name = s: string | |s| > 0 witness "_"

  datatype Json =
    | JNull
    | JStr(s: string)
    | JInt(n: int)
    | JArr(items: seq<Json>)
    | JObj(members: seq<Member>)
    | JRaw(text: string)  // a `JsonElement` taken from an input document, written out verbatim

  /** One property. `fixed` marks a name the policy does not touch: a
      `[JsonPropertyName]` name or a dictionary key. */
  datatype Member = Member(name: Name, fixed: bool, value: Json)

  /** The naming policies the repository uses. */
  datatype Policy =
    | ContextOnly        // the generators' `ContextNamePolicy`: `_context` becomes `@context`
    | ContextLowerFirst  // BoostPost and BroadcastPost: also lower-cases every other first character
    | ContextLowerUpper  // Rss2Outbox: lower-cases the first character only when it is upper case
    | CamelCase          // `JsonNamingPolicy.CamelCase`, for names with one leading capital

  const ContextName: Name := "_context"
  const ContextWire: Name := "@context"

  /** The first character lower-cased, the rest unchanged. */
  function LowerFirst(n: Name): (r: Name)
    ensures |r| == |n| && r[1..] == n[1..]
    ensures !IsUpperAscii(r[0])
  {
    [LowerAscii(n[0])] + n[1..]
  }

  /** `ConvertName` of each policy. `CamelCase` lower-cases the first
      character only; `JsonNamingPolicy.CamelCase` also lower-cases the rest
      of a leading run of capitals ("ID" becomes "id"). The two agree on every
      name written with it here, each of which has a single leading capital
      (`Id`, `Type`, `Actor`, `Object`, `To`, `Cc`, `State`, `Published`,
      `Result`). */
  function ConvertName(p: Policy, n: Name): (r: Name)
    ensures p != CamelCase && n == ContextName ==> r == ContextWire
    ensures p == ContextOnly && n != ContextName ==> r == n
    ensures p in {ContextLowerFirst, ContextLowerUpper, CamelCase} && n != ContextName ==> !IsUpperAscii(r[0]) && r[1..] == n[1..]
  {
    match p
    case ContextOnly => if n == ContextName then ContextWire else n
    case ContextLowerFirst => if n == ContextName then ContextWire else LowerFirst(n)
    case ContextLowerUpper =>
      if n == ContextName then ContextWire
      else if IsUpperAscii(n[0]) then LowerFirst(n) else n
    case CamelCase => if IsUpperAscii(n[0]) then LowerFirst(n) else n
  }

  /** The generators' policy renames exactly one name. */
  lemma ContextOnlyRenamesOnlyContext(n: Name)
    ensures ConvertName(ContextOnly, n) != n <==> n == ContextName
  {
  }

  /** Rss2Outbox's guarded policy and the unconditional one of BoostPost and
      BroadcastPost give the same name for every input, with upper case meaning
      ASCII upper case as everywhere in this model: lower-casing a character
      that is not upper case leaves it alone. */
  lemma LowerUpperAgreesWithLowerFirst(n: Name)
    ensures ConvertName(ContextLowerUpper, n) == ConvertName(ContextLowerFirst, n)
  {
    if n != ContextName && !IsUpperAscii(n[0]) {
      assert [n[0]] + n[1..] == n;
    }
  }

  /** The property name written for a member. */
  function WireName(p: Policy, m: Member): Name {
    if m.fixed then m.name else ConvertName(p, m.name)
  }

  /** The tree with every non-fixed property renamed by the policy, at every depth. */
  function Wire(p: Policy, j: Json): (r: Json)
    ensures j.JObj? <==> r.JObj?
    ensures j.JObj? ==> |r.members| == |j.members|
    ensures j.JArr? <==> r.JArr?
    ensures j.JArr? ==> |r.items| == |j.items|
    decreases j
  {
    match j
    case JArr(items) => JArr(seq(|items|, i requires 0 <= i < |items| => Wire(p, items[i])))
    case JObj(ms) =>
      JObj(seq(|ms|, i requires 0 <= i < |ms| => Member(WireName(p, ms[i]), true, Wire(p, ms[i].value))))
    case _ => j
  }

  /** The same tree with every name marked verbatim: a `JsonElement` read from
      an input document is written back with the names it was read with. */
  function Freeze(j: Json): (r: Json)
    ensures Names(r) == Names(j)
    ensures j.JObj? <==> r.JObj?
    decreases j
  {
    match j
    case JArr(items) => JArr(seq(|items|, i requires 0 <= i < |items| => Freeze(items[i])))
    case JObj(ms) => JObj(seq(|ms|, i requires 0 <= i < |ms| => Member(ms[i].name, true, Freeze(ms[i].value))))
    case _ => j
  }

  /** No naming policy renames anything in a frozen tree. */
  lemma {:induction false} WireFrozen(p: Policy, j: Json)
    ensures Wire(p, Freeze(j)) == Freeze(j)
    decreases j
  {
    match j
    case JArr(items) =>
      forall i | 0 <= i < |items|
        ensures Wire(p, Freeze(items[i])) == Freeze(items[i])
      {
        WireFrozen(p, items[i]);
      }
    case JObj(ms) =>
      forall i | 0 <= i < |ms|
        ensures Wire(p, Freeze(ms[i].value)) == Freeze(ms[i].value)
      {
        WireFrozen(p, ms[i].value);
      }
    case _ =>
  }

  /** An object whose members the policy maps one by one onto `expected`. */
  lemma WireMembers(p: Policy, ms: seq<Member>, expected: seq<Member>)
    requires |ms| == |expected|
    requires forall i :: 0 <= i < |ms| ==> expected[i] == Member(WireName(p, ms[i]), true, Wire(p, ms[i].value))
    ensures Wire(p, JObj(ms)) == JObj(expected)
  {
  }

  /** An array of strings has no names to rename. */
  lemma WireStrs(p: Policy, xs: seq<string>)
    ensures Wire(p, Strs(xs)) == Strs(xs)
  {
  }

  /** The property names of an object, in order. */
  function Names(j: Json): seq<string> {
    if j.JObj? then seq(|j.members|, i requires 0 <= i < |j.members| => j.members[i].name) else []
  }

  /** The top-level names written for an object are its members' names under the policy. */
  lemma WireNames(p: Policy, ms: seq<Member>)
    ensures Names(Wire(p, JObj(ms))) == seq(|ms|, i requires 0 <= i < |ms| => WireName(p, ms[i]))
  {
  }

  /** `node[name]`: the value of the first property with that name. */
  function Get(j: Json, name: string): (r: Option<Json>)
    ensures r.Some? ==> j.JObj? && exists i :: 0 <= i < |j.members| && j.members[i].name == name && j.members[i].value == r.value
    ensures r.None? && j.JObj? ==> forall i :: 0 <= i < |j.members| ==> j.members[i].name != name
  {
    if !j.JObj? then None else GetMember(j.members, name)
  }

  function GetMember(ms: seq<Member>, name: string): (r: Option<Json>)
    ensures r.Some? ==> exists i :: 0 <= i < |ms| && ms[i].name == name && ms[i].value == r.value
    ensures r.None? ==> forall i :: 0 <= i < |ms| ==> ms[i].name != name
    decreases |ms|
  {
    if |ms| == 0 then None
    else if ms[0].name == name then Some(ms[0].value)
    else GetMember(ms[1..], name)
  }

  /** In an object whose names are distinct, each member is found by its name. */
  lemma {:induction false} GetDistinct(ms: seq<Member>, i: nat)
    requires i < |ms|
    requires forall j :: 0 <= j < |ms| && j != i ==> ms[j].name != ms[i].name
    ensures GetMember(ms, ms[i].name) == Some(ms[i].value)
    decreases i
  {
    if i > 0 {
      GetDistinct(ms[1..], i - 1);
    }
  }

  /** `GetDistinct` with the names given as a list, so that a caller can
      check distinctness on the names alone. */
  lemma GetNamed(ms: seq<Member>, names: seq<string>, i: nat)
    requires |ms| == |names| && i < |ms|
    requires forall j :: 0 <= j < |ms| ==> ms[j].name == names[j]
    requires forall j :: 0 <= j < |names| && j != i ==> names[j] != names[i]
    ensures GetMember(ms, names[i]) == Some(ms[i].value)
  {
    GetDistinct(ms, i);
  }

  /** Freezing an object keeps every lookup: the value found is the frozen
      value of the original. */
  lemma {:induction false} GetFrozen(ms: seq<Member>, name: string)
    ensures Get(Freeze(JObj(ms)), name) == if GetMember(ms, name).Some? then Some(Freeze(GetMember(ms, name).value)) else None
    decreases |ms|
  {
    if |ms| > 0 {
      GetFrozen(ms[1..], name);
      assert Freeze(JObj(ms)).members[1..] == Freeze(JObj(ms[1..])).members;
    }
  }

  /** `JsonObject.ContainsKey`. */
  predicate HasKey(j: Json, name: string) {
    Get(j, name).Some?
  }

  /** `node[name] = value` on a `JsonObject`: replaces the first property of
      that name, or appends one. */
  function Set(ms: seq<Member>, name: Name, value: Json): (r: seq<Member>)
    ensures GetMember(r, name) == Some(value)
    ensures forall other :: other != name ==> GetMember(r, other) == GetMember(ms, other)
    decreases |ms|
  {
    if |ms| == 0 then [Member(name, true, value)]
    else if ms[0].name == name then [Member(name, true, value)] + ms[1..]
    else [ms[0]] + Set(ms[1..], name, value)
  }

  function Strs(xs: seq<string>): (r: Json)
    ensures r.JArr? && |r.items| == |xs|
    ensures forall i :: 0 <= i < |xs| ==> r.items[i] == JStr(xs[i])
  {
    JArr(seq(|xs|, i requires 0 <= i < |xs| => JStr(xs[i])))
  }

  function OptStr(s: Option<string>): Json {
    if s.Some? then JStr(s.value) else JNull
  }

  /** A member named by the CLR (renamed by the policy). */
  function P(name: Name, value: Json): Member {
    Member(name, false, value)
  }

  /** A member whose name is written verbatim. */
  function F(name: Name, value: Json): Member {
    Member(name, true, value)
  }

  /** `JsonNode.Parse(text)!.AsObject()`: text that is not JSON throws, the
      literal `null` gives a null node, and any other non-object throws on
      `AsObject`. */
  function AsObject(parsed: Option<Json>): (r: Outcome<Json>)
    ensures r.Ok? <==> parsed.Some? && parsed.value.JObj?
    ensures r.Ok? ==> r.value == parsed.value
    ensures parsed == Some(JNull) ==> r == Err(NullReference)
  {
    match parsed
    case None => Err(JsonInvalid)
    case Some(JNull) => Err(NullReference)
    case Some(JObj(ms)) => Ok(JObj(ms))
    case Some(_) => Err(JsonInvalid)
  }

  const ActivityStreams: string := "https://www.w3.org/ns/activitystreams"
  const PublicAddress: string := "https://www.w3.org/ns/activitystreams#Public"
}

=== FILE: messages.dfy ===
/** `InboxMessage`: an incoming activity as deserialized from the request body,
    and the predicates that classify it by its `type`. */
module InboxMessages {
  import opened Wrappers
  import Json
  import Strings

  /** The deserialized activity. A property missing from the body is None,
      except `obj`, the `object` property as a `JsonElement`, which is `JNull`
      when missing or null. `instrumentId` is `message.Instrument?.Id`. */
  datatype InboxMessage = InboxMessage(
    context: Json.Json,
    actor: Option<string>,
    cc: Option<seq<string>>,
    id: Option<string>,
    obj: Json.Json,
    published: Option<string>,
    state: Option<string>,
    to: Option<seq<string>>,
    typ: Option<string>,
    instrumentId: Option<string>)

  /** Every predicate calls `Type.Equals`, so none of them can be asked of a
      message whose `type` is missing: the call throws. */
  predicate IsFollow(m: InboxMessage)
    requires m.typ.Some?
  {
    m.typ.value == "Follow"
  }

  predicate IsUndoFollow(m: InboxMessage)
    requires m.typ.Some?
  {
    m.typ.value == "Undo"
  }

  predicate IsDelete(m: InboxMessage)
    requires m.typ.Some?
  {
    m.typ.value == "Delete"
  }

  predicate IsCreateActivity(m: InboxMessage)
    requires m.typ.Some?
  {
    m.typ.value == "Create"
  }

  predicate IsQuoteRequest(m: InboxMessage)
    requires m.typ.Some?
  {
    m.typ.value == "QuoteRequest"
  }

  /** The classes of activity the code tells apart. */
  datatype Kind = Follow | Undo | Delete | Create | QuoteRequest | Other

  /** The class of a type name: an exact, case-sensitive comparison. */
  function KindOf(typ: string): (k: Kind)
    ensures k == Follow <==> typ == "Follow"
    ensures k == Undo <==> typ == "Undo"
    ensures k == Delete <==> typ == "Delete"
    ensures k == Create <==> typ == "Create"
    ensures k == QuoteRequest <==> typ == "QuoteRequest"
    ensures k == Other <==> typ !in ["Follow", "Undo", "Delete", "Create", "QuoteRequest"]
  {
    if typ == "Follow" then Follow
    else if typ == "Undo" then Undo
    else if typ == "Delete" then Delete
    else if typ == "Create" then Create
    else if typ == "QuoteRequest" then QuoteRequest
    else Other
  }

  /** The predicates agree with `KindOf`, so at most one of them holds, and a
      type that is none of the five makes all of them false. `IsUndoFollow`
      looks at nothing but the type: every Undo counts, whatever it undoes. */
  lemma PredicatesMatchKind(m: InboxMessage)
    requires m.typ.Some?
    ensures IsFollow(m) <==> KindOf(m.typ.value) == Follow
    ensures IsUndoFollow(m) <==> KindOf(m.typ.value) == Undo
    ensures IsDelete(m) <==> KindOf(m.typ.value) == Delete
    ensures IsCreateActivity(m) <==> KindOf(m.typ.value) == Create
    ensures IsQuoteRequest(m) <==> KindOf(m.typ.value) == QuoteRequest
    ensures KindOf(m.typ.value) == Other <==>
      !IsFollow(m) && !IsUndoFollow(m) && !IsDelete(m) && !IsCreateActivity(m) && !IsQuoteRequest(m)
  {
  }

  /** At most one classification predicate holds of any message. */
  lemma AtMostOnePredicate(m: InboxMessage)
    requires m.typ.Some?
    ensures (if IsFollow(m) then 1 else 0) + (if IsUndoFollow(m) then 1 else 0)
      + (if IsDelete(m) then 1 else 0) + (if IsCreateActivity(m) then 1 else 0)
      + (if IsQuoteRequest(m) then 1 else 0) <= 1
  {
  }

  /** The type names the server classifies. */
  const KindNames: seq<string> := ["Follow", "Undo", "Delete", "Create", "QuoteRequest"]

  /** Case matters: a type that spells one of the names in a different case
      (`follow`, `FOLLOW`, `uNDO`, ...) is `Other`. */
  lemma CaseSensitive(t: string, name: string)
    requires name in KindNames
    requires Strings.LowerString(t) == Strings.LowerString(name) && t != name
    ensures KindOf(t) == Other
  {
    // The five names already differ in their first letter, ignoring case.
    assert Strings.LowerString(t)[0] == Strings.LowerString(name)[0];
  }


  /** `object?.ToString()`: no text for a missing object, the string itself for
      a JSON string, and the element's JSON text otherwise (written by
      `encode`). */
  function ObjectText(encode: Json.Json -> string, obj: Json.Json): (r: Option<string>)
    ensures r.None? <==> obj.JNull?
    ensures obj.JStr? ==> r == Some(obj.s)
  {
    match obj
    case JNull => None
    case JStr(s) => Some(s)
    case _ => Some(encode(obj))
  }

  function OptStrs(xs: Option<seq<string>>): Json.Json {
    if xs.Some? then Json.Strs(xs.value) else Json.JNull
  }

  /** The message serialized back with the camel-case policy: `@context` is a
      fixed name, the other properties are CLR names, and the `object` element
      is written as it was read. */
  function MessageJson(m: InboxMessage): (r: Json.Json)
    ensures r.JObj? && |r.members| == 9
  {
    Json.JObj([
      Json.F("@context", Json.Freeze(m.context)),
      Json.P("Actor", Json.OptStr(m.actor)),
      Json.P("Cc", OptStrs(m.cc)),
      Json.P("Id", Json.OptStr(m.id)),
      Json.P("Object", Json.Freeze(m.obj)),
      Json.P("Published", Json.OptStr(m.published)),
      Json.P("State", Json.OptStr(m.state)),
      Json.P("To", OptStrs(m.to)),
      Json.P("Type", Json.OptStr(m.typ))])
  }

  /** The serialised message carries every field of the message under its
      property name, and the context as read under `@context`. */
  lemma MessageJsonFields(m: InboxMessage)
    ensures var r := MessageJson(m);
      && Json.Get(r, "@context") == Some(Json.Freeze(m.context))
      && Json.Get(r, "Actor") == Some(Json.OptStr(m.actor))
      && Json.Get(r, "Cc") == Some(OptStrs(m.cc))
      && Json.Get(r, "Id") == Some(Json.OptStr(m.id))
      && Json.Get(r, "Object") == Some(Json.Freeze(m.obj))
      && Json.Get(r, "Published") == Some(Json.OptStr(m.published))
      && Json.Get(r, "State") == Some(Json.OptStr(m.state))
      && Json.Get(r, "To") == Some(OptStrs(m.to))
      && Json.Get(r, "Type") == Some(Json.OptStr(m.typ))
  {
    MessageMembersFound(MessageJson(m).members);
  }

  const MessageNames: seq<string> := ["@context", "Actor", "Cc", "Id", "Object", "Published", "State", "To", "Type"]

  /** The message's property names are pairwise distinct. */
  lemma MessageNamesDistinct()
    ensures forall i, j :: 0 <= i < |MessageNames| && 0 <= j < |MessageNames| && i != j ==> MessageNames[i] != MessageNames[j]
  {
    forall i, j | 0 <= i < |MessageNames| && 0 <= j < |MessageNames| && i != j
      ensures MessageNames[i] != MessageNames[j]
    {
      assert |MessageNames[i]| != |MessageNames[j]| || MessageNames[i][0] != MessageNames[j][0];
    }
  }

  /** Members named in that order are each found under their own name. */
  lemma MessageMembersFound(ms: seq<Json.Member>)
    requires |ms| == |MessageNames| && forall j :: 0 <= j < |ms| ==> ms[j].name == MessageNames[j]
    ensures Json.GetMember(ms, "@context") == Some(ms[0].value)
    ensures Json.GetMember(ms, "Actor") == Some(ms[1].value)
    ensures Json.GetMember(ms, "Cc") == Some(ms[2].value)
    ensures Json.GetMember(ms, "Id") == Some(ms[3].value)
    ensures Json.GetMember(ms, "Object") == Some(ms[4].value)
    ensures Json.GetMember(ms, "Published") == Some(ms[5].value)
    ensures Json.GetMember(ms, "State") == Some(ms[6].value)
    ensures Json.GetMember(ms, "To") == Some(ms[7].value)
    ensures Json.GetMember(ms, "Type") == Some(ms[8].value)
  {
    MessageNamesDistinct();
    Json.GetNamed(ms, MessageNames, 0);
    Json.GetNamed(ms, MessageNames, 1);
    Json.GetNamed(ms, MessageNames, 2);
    Json.GetNamed(ms, MessageNames, 3);
    Json.GetNamed(ms, MessageNames, 4);
    Json.GetNamed(ms, MessageNames, 5);
    Json.GetNamed(ms, MessageNames, 6);
    Json.GetNamed(ms, MessageNames, 7);
    Json.GetNamed(ms, MessageNames, 8);
  }
}

=== FILE: outbox_config.dfy ===
/** `OutboxConfig`: the settings of one Rss2Outbox run, and the three values
    derived from them, which are recomputed on every read. */
module OutboxSettings {
  import opened Wrappers
  import opened Strings
  import opened Uris

  datatype OutboxConfig = OutboxConfig(
    authorUrl: string,
    authorUsername: string,
    domain: string,
    notesPath: string,
    outboxPath: string,
    staticPath: string,
    siteActorUri: string,
    repliesPath: string,
    authorUserId: string)

  /** `Path.Combine(a, b)` on a Unix file system: an empty part yields the
      other, a rooted `b` replaces `a`, and otherwise one `/` joins them unless
      `a` already ends in one. */
  function PathCombine(a: string, b: string): (r: string)
    ensures |b| <= |r| && r[|r| - |b|..] == b
    ensures b == "" ==> r == a
    ensures b != "" && b[0] == '/' ==> r == b
    ensures a != "" && b != "" && b[0] != '/' ==> a <= r && |r| <= |a| + 1 + |b|
  {
    if b == "" then a
    else if a == "" then b
    else if b[0] == '/' then b
    else if a[|a| - 1] == '/' then a + b
    else a + "/" + b
  }

  /** A file name joined to any directory is still the last path segment. */
  lemma FileNameKept(dir: string, name: string)
    requires name != "" && '/' !in name
    ensures AfterLast(PathCombine(dir, name), '/') == name
  {
    if dir == "" {
    } else if dir[|dir| - 1] == '/' {
      var parent := dir[..|dir| - 1];
      assert dir + name == parent + ['/'] + name;
      AfterLastOfSuffix(parent, '/', name);
    } else {
      assert dir + "/" + name == dir + ['/'] + name;
      AfterLastOfSuffix(dir, '/', name);
    }
  }

  /** `OutboxUrl`. */
  function OutboxUrl(c: OutboxConfig): string {
    c.domain + "/" + c.outboxPath
  }

  /** `NotesFullPath`. */
  function NotesFullPath(c: OutboxConfig): string {
    PathCombine(c.staticPath, c.notesPath)
  }

  /** `OutputFullPath`. */
  function OutputFullPath(c: OutboxConfig): string {
    PathCombine(c.staticPath, c.outboxPath)
  }

  /** With a domain of the form `scheme://host`, the outbox URL names that host
      and has the outbox path as its path. */
  lemma OutboxUrlParses(c: OutboxConfig, scheme: string, host: string)
    requires c.domain == scheme + "://" + host
    requires ValidScheme(scheme) && forall i :: 0 <= i < |scheme| ==> !IsUpperAscii(scheme[i])
    requires |host| > 0 && forall i :: 0 <= i < |host| ==> IsHostChar(host[i])
    requires '?' !in c.outboxPath && '#' !in c.outboxPath
    ensures Parse(OutboxUrl(c)) == Some(Uri(scheme, host, None, "/" + c.outboxPath, "", ""))
  {
    var path := "/" + c.outboxPath;
    assert '?' !in path && '#' !in path;
    assert OutboxUrl(c) == scheme + "://" + host + path;
    ParsePlain(scheme, host, path);
  }

  /** Moving the blog to another domain moves the outbox URL and nothing else:
      both file paths stay where they were. */
  lemma Rehosted(c: OutboxConfig, scheme: string, host: string)
    requires ValidScheme(scheme) && forall i :: 0 <= i < |scheme| ==> !IsUpperAscii(scheme[i])
    requires |host| > 0 && forall i :: 0 <= i < |host| ==> IsHostChar(host[i])
    requires '?' !in c.outboxPath && '#' !in c.outboxPath
    ensures var moved := c.(domain := scheme + "://" + host);
      && NotesFullPath(moved) == NotesFullPath(c)
      && OutputFullPath(moved) == OutputFullPath(c)
      && Parse(OutboxUrl(moved)) == Some(Uri(scheme, host, None, "/" + c.outboxPath, "", ""))
  {
    OutboxUrlParses(c.(domain := scheme + "://" + host), scheme, host);
  }
}

=== FILE: quote_service.dfy ===
/** `QuoteRequestService`: approves every FEP-044f quote request with an
    Accept and publishes a `QuoteAuthorization` stamp for it. */
module QuoteRequestService {
  import opened Wrappers
  import opened Errors
  import opened Strings
  import opened Json
  import opened Uris
  import opened Actors
  import Http
  import opened InboxMessages
  import opened Storage
  import opened Server
  import opened ActorHelper
  import StampsGenerator

  /** The Accept's id; `g` is the generated GUID. */
  function QuoteId(cfg: ServerConfig, g: string): string {
    cfg.baseDomain + "/activities/accept/" + g
  }

  /** The stamp's id, minted from the same GUID. */
  function StampId(cfg: ServerConfig, g: string): string {
    cfg.baseDomain + "/socialweb/quotes/" + g
  }

  /** Both ids end in the one generated GUID. */
  lemma IdsShareGuid(cfg: ServerConfig, g: string)
    requires '/' !in g
    ensures AfterLast(QuoteId(cfg, g), '/') == g && AfterLast(StampId(cfg, g), '/') == g
  {
    assert QuoteId(cfg, g) == cfg.baseDomain + "/activities/accept" + "/" + g;
    assert StampId(cfg, g) == cfg.baseDomain + "/socialweb/quotes" + "/" + g;
    AfterLastOfSuffix(cfg.baseDomain + "/activities/accept", '/', g);
    AfterLastOfSuffix(cfg.baseDomain + "/socialweb/quotes", '/', g);
  }

  /** `QuoteAcceptResponse`: every property carries a fixed name. The object
      is the request itself, serialized with the camel-case policy. */
  function QuoteAccept(quoteId: string, actorId: string, m: InboxMessage, stampId: string): Json {
    JObj([
      F("@context", JArr([JStr(ActivityStreams), JObj([F("QuoteRequest", JStr("https://w3id.org/fep/044f#QuoteRequest"))])])),
      F("type", JStr("Accept")),
      F("id", JStr(quoteId)),
      F("actor", JStr(actorId)),
      F("to", OptStr(m.actor)),
      F("object", MessageJson(m)),
      F("result", JStr(stampId))])
  }

  /** The Accept answers the request: it is an `Accept` by this server's
      actor, addressed to the requester, whose object is the request and
      whose result is the stamp. */
  lemma QuoteAcceptFields(quoteId: string, actorId: string, m: InboxMessage, stampId: string)
    ensures var r := QuoteAccept(quoteId, actorId, m, stampId);
      && Get(r, "type") == Some(JStr("Accept"))
      && Get(r, "id") == Some(JStr(quoteId))
      && Get(r, "actor") == Some(JStr(actorId))
      && Get(r, "to") == Some(OptStr(m.actor))
      && Get(r, "object") == Some(MessageJson(m))
      && Get(r, "result") == Some(JStr(stampId))
  {
    AcceptMembersFound(QuoteAccept(quoteId, actorId, m, stampId).members, quoteId, actorId, m.actor, MessageJson(m), stampId);
  }

  lemma AcceptMembersFound(ms: seq<Member>, quoteId: string, actorId: string, to: Option<string>, obj: Json, stampId: string)
    requires |ms| == 7 && ms[0].name == "@context"
    requires ms[1] == F("type", JStr("Accept"))
    requires ms[2] == F("id", JStr(quoteId))
    requires ms[3] == F("actor", JStr(actorId))
    requires ms[4] == F("to", OptStr(to))
    requires ms[5] == F("object", obj)
    requires ms[6] == F("result", JStr(stampId))
    ensures GetMember(ms, "type") == Some(JStr("Accept"))
    ensures GetMember(ms, "id") == Some(JStr(quoteId))
    ensures GetMember(ms, "actor") == Some(JStr(actorId))
    ensures GetMember(ms, "to") == Some(OptStr(to))
    ensures GetMember(ms, "object") == Some(obj)
    ensures GetMember(ms, "result") == Some(JStr(stampId))
  {
    var names := AcceptNames;
    assert forall j :: 0 <= j < |ms| ==> ms[j].name == names[j];
    AcceptNamesFound(ms, 1, 2);
    AcceptNamesFound(ms, 3, 4);
    AcceptNamesFound(ms, 5, 6);
  }

  const AcceptNames: seq<string> := ["@context", "type", "id", "actor", "to", "object", "result"]

  /** The Accept's names are pairwise distinct. */
  lemma AcceptNamesDistinct()
    ensures forall i, j :: 0 <= i < |AcceptNames| && 0 <= j < |AcceptNames| && i != j ==> AcceptNames[i] != AcceptNames[j]
  {
    forall i, j | 0 <= i < |AcceptNames| && 0 <= j < |AcceptNames| && i != j
      ensures AcceptNames[i] != AcceptNames[j]
    {
      assert |AcceptNames[i]| != |AcceptNames[j]| || AcceptNames[i][0] != AcceptNames[j][0];
    }
  }

  /** Two members of the Accept, each found by its name. */
  lemma AcceptNamesFound(ms: seq<Member>, a: nat, b: nat)
    requires |ms| == 7 && a < 7 && b < 7
    requires forall j :: 0 <= j < |ms| ==> ms[j].name == AcceptNames[j]
    ensures GetMember(ms, AcceptNames[a]) == Some(ms[a].value)
    ensures GetMember(ms, AcceptNames[b]) == Some(ms[b].value)
  {
    AcceptNamesDistinct();
    GetNamed(ms, AcceptNames, a);
    GetNamed(ms, AcceptNames, b);
  }

  /** `SendAcceptResponse`: fetch the requester and POST the Accept to its
      inbox. Every failure is caught here; the requests that reached the
      transport are returned. */
  function SendAcceptResponse(env: Env, document: string, actorUri: Option<string>): (r: seq<Http.Request>)
    ensures |r| <= 2
    ensures |FetchActor(env, actorUri).log| <= |r| && r[..|FetchActor(env, actorUri).log|] == FetchActor(env, actorUri).log
    ensures FetchActor(env, actorUri).result.Err? ==> r == FetchActor(env, actorUri).log
    ensures |r| == 2 <==> (
      && FetchActor(env, actorUri).result.Ok?
      && var actor := FetchActor(env, actorUri).result.value;
      && actor.inbox.Some? && Parse(actor.inbox.value).Some?
      && CorrectedPost(env, document, Parse(actor.inbox.value).value).Ok?)
    ensures |r| == 2 ==> (
      && FetchActor(env, actorUri).result.Ok?
      && var actor := FetchActor(env, actorUri).result.value;
      && actor.inbox.Some? && Parse(actor.inbox.value).Some?
      && CorrectedPost(env, document, Parse(actor.inbox.value).value) == Ok(r[1]))
  {
    var fetched := FetchActor(env, actorUri);
    match fetched.result
    case Err(_) => fetched.log
    case Ok(actor) =>
      assert |fetched.log| == 1;
      fetched.log + SendPost(env, document, actor.inbox).log
  }

  /** The Accept as written on the wire, for the server actor `actorUri`. */
  function AcceptDocument(env: Env, cfg: ServerConfig, m: InboxMessage, g: string, actorUri: Uri): string {
    env.encode(Wire(CamelCase, QuoteAccept(QuoteId(cfg, g), Canonical(actorUri), m, StampId(cfg, g))))
  }

  /** The stamp written for the request, when it names an instrument. */
  function StampFor(env: Env, cfg: ServerConfig, w: World, m: InboxMessage, g: string, actorUri: Uri, noteUrl: string): (r: World)
    ensures r.tables == w.tables && r.followers == w.followers && r.replies == w.replies && r.sent == w.sent
    ensures IsNullOrEmpty(m.instrumentId) ==> r == w
    ensures r.blobs != w.blobs ==> (
      && !IsNullOrEmpty(m.instrumentId)
      && var stamp := StampsGenerator.GenerateStampFile(env, w, StampId(cfg, g), Canonical(actorUri), m.instrumentId.value, noteUrl);
      && stamp.Ok? && r == stamp.value)
  {
    if IsNullOrEmpty(m.instrumentId) then w
    else
      match StampsGenerator.GenerateStampFile(env, w, StampId(cfg, g), Canonical(actorUri), m.instrumentId.value, noteUrl)
      case Err(_) => w
      case Ok(w2) => w2
  }

  /** `AutoApproveQuoteRequest`: every exception inside it is caught, so it
      yields only a new world. Nothing is sent or stored for a request without
      an object; otherwise the Accept goes to the requester's inbox before the
      stamp is written. */
  function AutoApprove(env: Env, cfg: ServerConfig, w: World, m: InboxMessage, g: string): (r: World)
    ensures r.tables == w.tables && r.followers == w.followers && r.replies == w.replies
    ensures IsNullOrEmpty(ObjectText(env.encode, m.obj)) ==> r == w
    ensures Parse(ActorId(cfg)).None? ==> r == w
    ensures !IsNullOrEmpty(ObjectText(env.encode, m.obj)) && Parse(ActorId(cfg)).Some? ==>
      r.sent == w.sent + SendAcceptResponse(env, AcceptDocument(env, cfg, m, g, Parse(ActorId(cfg)).value), m.actor)
    ensures IsNullOrEmpty(m.instrumentId) ==> r.blobs == w.blobs
  {
    var noteUrl := ObjectText(env.encode, m.obj);
    if IsNullOrEmpty(noteUrl) then w
    else
      match Parse(ActorId(cfg))
      case None => w
      case Some(actorUri) =>
        var w1 := Log(w, SendAcceptResponse(env, AcceptDocument(env, cfg, m, g, actorUri), m.actor));
        StampFor(env, cfg, w1, m, g, actorUri, noteUrl.value)
  }

  /** A request with an object and an instrument, on a server whose base URL
      is `scheme://host`, leaves its stamp at `socialweb/quotes/<g>` whatever
      became of the Accept's delivery. */
  lemma QuoteStampStored(env: Env, cfg: ServerConfig, w: World, m: InboxMessage, g: string, scheme: string, host: string)
    requires cfg.baseDomain == scheme + "://" + host
    requires ValidScheme(scheme) && forall i :: 0 <= i < |scheme| ==> !IsUpperAscii(scheme[i])
    requires |host| > 0 && forall i :: 0 <= i < |host| ==> IsHostChar(host[i])
    requires '?' !in g && '#' !in g
    requires !IsNullOrEmpty(ObjectText(env.encode, m.obj)) && !IsNullOrEmpty(m.instrumentId)
    requires Parse(ActorId(cfg)).Some?
    ensures var name := "socialweb/quotes/" + g;
      var r := AutoApprove(env, cfg, w, m, g);
      && name in r.blobs
      && r.blobs[name] == Blob(env.encode(StampsGenerator.Document(StampId(cfg, g),
           Canonical(Parse(ActorId(cfg)).value), m.instrumentId.value, ObjectText(env.encode, m.obj).value)),
           ActivityJson)
  {
    var actorUri := Parse(ActorId(cfg)).value;
    var note := ObjectText(env.encode, m.obj).value;
    var w1 := Log(w, SendAcceptResponse(env, AcceptDocument(env, cfg, m, g, actorUri), m.actor));
    assert AutoApprove(env, cfg, w, m, g) == StampFor(env, cfg, w1, m, g, actorUri, note);
    assert StampId(cfg, g) == scheme + "://" + host + "/socialweb/quotes/" + g;
    StampsGenerator.QuoteStampBlobName(scheme, host, g);
    var stamp := StampsGenerator.GenerateStampFile(env, w1, StampId(cfg, g), Canonical(actorUri), m.instrumentId.value, note);
    assert stamp.Ok?;
  }

  /** `ProcessQuoteRequest`: anything but a quote request is ignored. Asking
      `IsQuoteRequest` of a message without a type throws before the guarded
      block; past that point nothing escapes. */
  function ProcessQuoteRequest(env: Env, cfg: ServerConfig, w: World, message: Option<InboxMessage>, g: string): (r: Step<()>)
    ensures message.None? ==> r == Step(w, Ok(()))
    ensures message.Some? && message.value.typ.None? ==> r == Step(w, Err(NullReference))
    ensures message.Some? && message.value.typ.Some? ==> r.result.Ok?
    ensures message.Some? && message.value.typ.Some? && !IsQuoteRequest(message.value) ==> r.world == w
    ensures message.Some? && message.value.typ.Some? && IsQuoteRequest(message.value) ==>
      r.world == AutoApprove(env, cfg, w, message.value, g)
  {
    match message
    case None => Step(w, Ok(()))
    case Some(m) =>
      if m.typ.None? then Step(w, Err(NullReference))
      else if !IsQuoteRequest(m) then Step(w, Ok(()))
      else Step(AutoApprove(env, cfg, w, m, g), Ok(()))
  }
}

=== FILE: replies_service.dfy ===
/** `RepliesService.AddReply`: files a Create whose object answers one of this
    server's notes, and regenerates that note's replies page. */
module RepliesService {
  import opened Wrappers
  import opened Errors
  import opened Strings
  import opened Json
  import Tables
  import opened ReplyEntity
  import opened InboxMessages
  import opened Storage
  import opened ActorHelper
  import RepliesGenerator

  /** A string-valued property of the note: missing or null is None, any other
      kind of value does not deserialize into a string. */
  function NoteField(j: Json, name: string): (r: Outcome<Option<string>>)
    ensures Get(j, name).None? ==> r == Ok(None)
    ensures r.Ok? && r.value.Some? ==> Get(j, name) == Some(JStr(r.value.value))
    ensures r.Err? ==> r.error == JsonInvalid
  {
    match Get(j, name)
    case None => Ok(None)
    case Some(JNull) => Ok(None)
    case Some(JStr(s)) => Ok(Some(s))
    case Some(_) => Err(JsonInvalid)
  }

  /** `Deserialize<Note>(Serialize(message.Object))`: a missing object
      deserializes to null, which the next line dereferences; an object that is
      not a JSON object does not deserialize. */
  function NoteOf(obj: Json): (r: Outcome<Note>)
    ensures obj.JNull? ==> r == Err(NullReference)
    ensures r.Ok? ==> obj.JObj?
    ensures r.Ok? && r.value.inReplyTo.Some? ==> Get(obj, "inReplyTo") == Some(JStr(r.value.inReplyTo.value))
    ensures r.Ok? && r.value.id.Some? ==> Get(obj, "id") == Some(JStr(r.value.id.value))
    ensures obj.JObj? && Get(obj, "id").None? && Get(obj, "inReplyTo").None? ==> r == Ok(Note(None, None))
  {
    match obj
    case JNull => Err(NullReference)
    case JObj(_) =>
      var id :- NoteField(obj, "id");
      var inReplyTo :- NoteField(obj, "inReplyTo");
      Ok(Note(id, inReplyTo))
    case _ => Err(JsonInvalid)
  }

  /** The filter: a reply to a URL that starts with the domain, as a plain
      prefix test with no host or segment boundary. */
  predicate RepliesHere(note: Note, domain: string) {
    note.inReplyTo.Some? && StartsWith(note.inReplyTo.value, domain)
  }

  /** `AddReply(message)`: create the table, read the note, drop it unless it
      answers this domain, insert it (a row already present is a conflict), and
      regenerate the page of the note it answers. */
  function AddReply(env: Env, domain: string, w: World, m: InboxMessage): (r: Step<()>)
    ensures r.world.tables == w.tables + {RepliesTable}
    ensures r.world.followers == w.followers && r.world.sent == w.sent
    ensures NoteOf(m.obj).Err? ==> r == Step(CreateTable(w, RepliesTable), Err(NoteOf(m.obj).error))
    ensures NoteOf(m.obj).Ok? && !RepliesHere(NoteOf(m.obj).value, domain) ==>
      r == Step(CreateTable(w, RepliesTable), Ok(()))
    ensures r.world.replies != w.replies ==> (
      && r.result.Ok? && NoteOf(m.obj).Ok? && RepliesHere(NoteOf(m.obj).value, domain)
      && GetFromNote(env.crypto, NoteOf(m.obj).value).Ok?
      && var reply := GetFromNote(env.crypto, NoteOf(m.obj).value).value;
      && Tables.Get(w.replies, KeyOf(reply)).None?
      && Tables.Get(r.world.replies, KeyOf(reply)) == Some(reply)
      && Tables.Values(r.world.replies) == Tables.Values(w.replies) + [reply]
      && RepliesGenerator.Published(env, domain, RepliesGenerator.NoteId(reply.noteId), r.world))
    ensures r.result.Ok? && NoteOf(m.obj).Ok? && RepliesHere(NoteOf(m.obj).value, domain) ==>
      r.world.replies != w.replies
    ensures r.world.replies == w.replies ==> r.world.blobs == w.blobs
  {
    var w1 := CreateTable(w, RepliesTable);
    match NoteOf(m.obj)
    case Err(e) => Step(w1, Err(e))
    case Ok(note) =>
      if !RepliesHere(note, domain) then Step(w1, Ok(()))
      else
        match GetFromNote(env.crypto, note)
        case Err(e) => Step(w1, Err(e))
        case Ok(reply) =>
          match Tables.Add(w1.replies, KeyOf(reply), reply)
          case Err(e) => Step(w1, Err(e))
          case Ok(t) =>
            var w2 := w1.(replies := t);
            match RepliesGenerator.Generate(env, domain, reply.noteId, w2)
            case Err(e) => Step(w2, Err(e))
            case Ok(w3) => Step(w3, Ok(()))
  }

  /** Redelivering a reply that was just filed throws on the insert: nothing
      is stored and no page is regenerated. */
  lemma AddReplyTwiceConflicts(env: Env, domain: string, w: World, m: InboxMessage)
    requires AddReply(env, domain, w, m).world.replies != w.replies
    ensures var once := AddReply(env, domain, w, m).world;
      AddReply(env, domain, once, m) == Step(once, Err(EntityConflict))
  {
    var once := AddReply(env, domain, w, m).world;
    var reply := GetFromNote(env.crypto, NoteOf(m.obj).value).value;
    assert Tables.Get(once.replies, KeyOf(reply)).Some?;
    assert CreateTable(once, RepliesTable) == once;
  }
}

=== FILE: rss2outbox.dfy ===
/** The Rss2Outbox command: reads a blog's RSS feed, writes one Note file per
    item and the outbox collection listing a Create for each. Reading the files
    and parsing the XML are left out; an item arrives as the elements it had. */
module Rss2Outbox {
  import opened Wrappers
  import opened Errors
  import opened Strings
  import opened Json
  import opened OutboxSettings
  import opened RssUtils
  import opened Crypto

  /** The elements of one `<item>` that the program reads, each missing or
      present; `categories` are its `<category>` elements and `tagElements` the
      `<tag>` elements under its `<tags>`, both in document order. */
  datatype RawItem = RawItem(
    title: Option<string>,
    link: Option<string>,
    description: Option<string>,
    encoded: Option<string>,
    pubDate: Option<string>,
    creator: Option<string>,
    categories: seq<string>,
    tagElements: seq<string>)

  /** The projection of an `<item>`: a missing title falls back to the
      description, a missing `content:encoded` to the raw description, and the
      tags are the categories followed by the tag elements. */
  function ReadItem(x: RawItem): Item {
    Item(
      if x.title.Some? then x.title else x.description,
      x.link,
      x.description,
      if x.encoded.Some? then x.encoded else x.description,
      x.pubDate,
      x.creator,
      x.categories + x.tagElements)
  }

  /** An item without a title is headed by its description. */
  lemma TitleFallsBack(x: RawItem, baseTagUrl: string, authorName: string, authorUri: string)
    requires x.title.None?
    ensures Values(ReadItem(x), baseTagUrl, authorName, authorUri)[0] == OrEmpty(x.description)
  {
  }

  /** Without `content:encoded`, `{content}` is the description exactly as the
      feed has it, while `{description}` has its line breaks turned into
      paragraph breaks; the two differ as soon as the description has a line
      break. */
  lemma ContentKeepsRawDescription(x: RawItem, baseTagUrl: string, authorName: string, authorUri: string, d: string)
    requires x.encoded.None? && x.description == Some(d)
    ensures var v := Values(ReadItem(x), baseTagUrl, authorName, authorUri);
      && v[5] == d
      && v[1] == Join("</p><p>", Split(d, '\n'))
      && ('\n' in d ==> v[1] != v[5])
  {
    ParagraphsAreLines(d);
  }

  /** The content's hashtags list the categories before the tag elements. */
  lemma CategoriesFirst(x: RawItem, baseTagUrl: string)
    ensures TagsMarkup(baseTagUrl, ReadItem(x).tags)
      == TagsMarkup(baseTagUrl, x.categories) + TagsMarkup(baseTagUrl, x.tagElements)
  {
    TagsMarkupAppend(baseTagUrl, x.categories, x.tagElements);
  }

  /** The user id and domain of a handle `@user@domain`: the second and third
      pieces of splitting at `@`. With fewer pieces the index is out of range;
      pieces after the third are ignored. */
  function SplitHandle(handle: string): (r: Outcome<(string, string)>)
    ensures r.Err? <==> |Split(handle, '@')| < 3
    ensures r.Err? ==> r.error == IndexOutOfRange
    ensures r.Ok? ==> '@' !in r.value.0 && '@' !in r.value.1
  {
    var parts := Split(handle, '@');
    if |parts| < 3 then Err(IndexOutOfRange) else Ok((parts[1], parts[2]))
  }

  /** A handle of the documented form gives its user and domain back. */
  lemma HandleRoundTrip(user: string, domain: string)
    requires '@' !in user && '@' !in domain
    ensures SplitHandle("@" + user + "@" + domain) == Ok((user, domain))
  {
    var parts := ["", user, domain];
    JoinThree("@", parts);
    assert "@" + user + "@" + domain == Join("@", parts);
    SplitJoin(parts, '@');
  }

  /** A handle without the leading `@` has only two pieces and is refused. */
  lemma HandleWithoutLeadingAt(user: string, domain: string)
    requires '@' !in user && '@' !in domain
    ensures SplitHandle(user + "@" + domain) == Err(IndexOutOfRange)
  {
    var parts := [user, domain];
    assert user + "@" + domain == Join("@", parts);
    SplitJoin(parts, '@');
  }

  const NotesPath := "socialweb/notes"
  const OutboxPath := "socialweb/outbox"
  const RepliesPath := "socialweb/replies"

  /** The command's handler up to `GenerateOutbox`: the settings built from
      its options. A missing domain stays empty, and only a missing author URI
      (not an empty one) is replaced by the one guessed from the handle. */
  function Configure(staticPath: string, authorUsername: string, siteActorUri: string, domain: Option<string>, authorUri: Option<string>): (r: Outcome<OutboxConfig>)
    ensures r.Err? <==> SplitHandle(authorUsername).Err?
    ensures r.Ok? ==> r.value.notesPath == NotesPath && r.value.outboxPath == OutboxPath && r.value.repliesPath == RepliesPath
    ensures r.Ok? ==> r.value.staticPath == staticPath && r.value.siteActorUri == siteActorUri && r.value.authorUsername == authorUsername
    ensures r.Ok? && authorUri.Some? ==> r.value.authorUrl == authorUri.value
  {
    match SplitHandle(authorUsername)
    case Err(e) => Err(e)
    case Ok((userId, authorDomain)) =>
      Ok(OutboxConfig(
        if authorUri.Some? then authorUri.value else "https://" + authorDomain + "/users/" + userId,
        authorUsername,
        OrEmpty(domain),
        NotesPath,
        OutboxPath,
        staticPath,
        siteActorUri,
        RepliesPath,
        userId))
  }

  /** For `@user@domain` and no author URI, the author is
      `https://domain/users/user` and mentions carry the bare user id. */
  lemma AuthorGuessedFromHandle(staticPath: string, user: string, domain: string, siteActorUri: string, blogDomain: Option<string>)
    requires '@' !in user && '@' !in domain
    ensures var r := Configure(staticPath, "@" + user + "@" + domain, siteActorUri, blogDomain, None);
      && r.Ok?
      && r.value.authorUrl == "https://" + domain + "/users/" + user
      && r.value.authorUserId == user
      && r.value.domain == OrEmpty(blogDomain)
  {
    HandleRoundTrip(user, domain);
  }

  /** The template used when none is given, written out piece by piece. */
  const DefaultTemplate: string :=
    "<p>" + ("{title}" + ("</p><p>" + ("{description}" + ("</p><p> Link: <a href='" + ("{link}" + ("'>" + ("{link}"
    + ("</a> by " + ("{author}" + (":</p><p>" + ("{tags}" + "</p>")))))))))))

  /** The template option, or the default when it is missing or empty. */
  function ChooseTemplate(option: Option<string>): (r: string)
    ensures r != ""
    ensures !IsNullOrEmpty(option) ==> r == option.value
    ensures IsNullOrEmpty(option) ==> r == DefaultTemplate
  {
    if IsNullOrEmpty(option) then DefaultTemplate else option.value
  }

  /** The default template cut at its placeholders. */
  const DefaultPieces: seq<Piece> :=
    Seg("<p>", 0) + (Seg("</p><p>", 1) + (Seg("</p><p> Link: <a href='", 2) + (Seg("'>", 2)
    + (Seg("</a> by ", 3) + (Seg(":</p><p>", 4) + [Text("</p>")])))))

  /** Six text-and-slot pairs and a closing text render to the texts with
      the fills between them. */
  lemma RenderSix(t0: string, t1: string, t2: string, t3: string, t4: string, t5: string, t6: string,
                  k0: nat, k1: nat, k2: nat, k3: nat, k4: nat, k5: nat, fill: seq<string>)
    requires k0 < |fill| && k1 < |fill| && k2 < |fill| && k3 < |fill| && k4 < |fill| && k5 < |fill|
    ensures Render(Seg(t0, k0) + (Seg(t1, k1) + (Seg(t2, k2) + (Seg(t3, k3) + (Seg(t4, k4) + (Seg(t5, k5) + [Text(t6)]))))), fill)
      == t0 + (fill[k0] + (t1 + (fill[k1] + (t2 + (fill[k2] + (t3 + (fill[k3] + (t4 + (fill[k4] + (t5 + (fill[k5] + t6)))))))))))
  {
    var p6: seq<Piece> := [Text(t6)];
    assert Render(p6, fill) == t6 by {
      assert p6[1..] == [];
    }
    RenderThree(t3, t4, t5, k3, k4, k5, p6, fill);
    var p3 := Seg(t3, k3) + (Seg(t4, k4) + (Seg(t5, k5) + p6));
    RenderThree(t0, t1, t2, k0, k1, k2, p3, fill);
  }

  lemma RenderThree(t0: string, t1: string, t2: string, k0: nat, k1: nat, k2: nat, rest: seq<Piece>, fill: seq<string>)
    requires k0 < |fill| && k1 < |fill| && k2 < |fill|
    ensures Render(Seg(t0, k0) + (Seg(t1, k1) + (Seg(t2, k2) + rest)), fill)
      == t0 + (fill[k0] + (t1 + (fill[k1] + (t2 + (fill[k2] + Render(rest, fill))))))
  {
    var p2 := Seg(t2, k2) + rest;
    RenderSeg(t2, k2, rest, fill);
    var p1 := Seg(t1, k1) + p2;
    RenderSeg(t1, k1, p2, fill);
    RenderSeg(t0, k0, p1, fill);
  }

  /** The default template with each placeholder replaced by its fill. */
  lemma RenderDefault(fill: seq<string>)
    requires |fill| == 6
    ensures Render(DefaultPieces, fill)
      == "<p>" + (fill[0] + ("</p><p>" + (fill[1] + ("</p><p> Link: <a href='" + (fill[2] + ("'>" + (fill[2]
         + ("</a> by " + (fill[3] + (":</p><p>" + (fill[4] + "</p>")))))))))))
  {
    RenderSix("<p>", "</p><p>", "</p><p> Link: <a href='", "'>", "</a> by ", ":</p><p>", "</p>", 0, 1, 2, 2, 3, 4, fill);
  }

  lemma DefaultTemplateIsPieces()
    ensures Render(DefaultPieces, Placeholders) == DefaultTemplate
  {
    RenderDefault(Placeholders);
    assert Placeholders[0] == "{title}" && Placeholders[1] == "{description}" && Placeholders[2] == "{link}";
    assert Placeholders[3] == "{author}" && Placeholders[4] == "{tags}";
  }

  lemma DefaultPiecesPlain()
    ensures Plain(DefaultPieces)
  {
    var ps := DefaultPieces;
    forall i | 0 <= i < |ps|
      ensures ps[i].Text? ==> '{' !in ps[i].text
      ensures ps[i].Slot? ==> ps[i].k < 6
    {
      if ps[i].Text? {
        assert ps[i].text in {"<p>", "</p><p>", "</p><p> Link: <a href='", "'>", "</a> by ", ":</p><p>", "</p>"};
      }
    }
  }

  /** Under the default template the content is the title, the description,
      the link twice, the author's mention and the tags, in that order, when
      no value brings a `{` of its own. */
  lemma DefaultContent(item: Item, baseTagUrl: string, authorName: string, authorUri: string)
    requires forall i :: 0 <= i < 6 ==> '{' !in Values(item, baseTagUrl, authorName, authorUri)[i]
    ensures var v := Values(item, baseTagUrl, authorName, authorUri);
      GetContent(item, baseTagUrl, authorName, authorUri, DefaultTemplate)
        == "<p>" + (v[0] + ("</p><p>" + (v[1] + ("</p><p> Link: <a href='" + (v[2] + ("'>" + (v[2]
           + ("</a> by " + (v[3] + (":</p><p>" + (v[4] + "</p>")))))))))))
  {
    DefaultPiecesPlain();
    DefaultTemplateIsPieces();
    RenderDefault(Values(item, baseTagUrl, authorName, authorUri));
    TemplateFilled(item, baseTagUrl, authorName, authorUri, DefaultPieces);
  }

  /** The outbox's summary: the first channel's description, or a sentence
      naming the author when the feed has none. */
  function Summary(c: OutboxConfig, channelDescription: Option<string>): string {
    if channelDescription.Some? then channelDescription.value
    else "Outbox for " + c.authorUsername + " blog"
  }

  /** A file the command writes, with the JSON written into it. */
  datatype FileWrite = FileWrite(path: string, content: Json)

  /** The file of one note, named by its hash under the notes folder. */
  function NoteFile(c: OutboxConfig, n: RssNote): FileWrite {
    FileWrite(PathCombine(NotesFullPath(c), n.hash), Wire(ContextLowerUpper, NoteJson(n)))
  }

  /** The outbox document: a Create per note, in the notes' order. */
  function OutboxDoc(c: OutboxConfig, summary: string, notes: seq<RssNote>): Json {
    OutboxJson(OutboxUrl(c), seq(|notes|, i requires 0 <= i < |notes| => CreateJson(c, notes[i])), summary)
  }

  function OutboxFile(c: OutboxConfig, summary: string, notes: seq<RssNote>): FileWrite {
    FileWrite(OutputFullPath(c), Wire(ContextLowerUpper, OutboxDoc(c, summary, notes)))
  }

  /** The outbox is published at `Domain/OutboxPath`, and is summarised by the
      channel's description, or else by a sentence naming the author. */
  lemma OutboxNamedAndSummarised(c: OutboxConfig, channelDescription: Option<string>, notes: seq<RssNote>)
    ensures var doc := OutboxDoc(c, Summary(c, channelDescription), notes);
      && Get(doc, "id") == Some(JStr(c.domain + "/" + c.outboxPath))
      && Get(doc, "summary")
        == Some(JStr(if channelDescription.Some? then channelDescription.value else "Outbox for " + c.authorUsername + " blog"))
  {
    var creates := seq(|notes|, i requires 0 <= i < |notes| => CreateJson(c, notes[i]));
    OutboxCounts(OutboxUrl(c), creates, Summary(c, channelDescription));
  }

  /** The position of the first item without a link, or the item count. */
  function FirstUnlinked(items: seq<Item>): (k: nat)
    ensures k <= |items|
    ensures forall j :: 0 <= j < k ==> items[j].link.Some?
    ensures k < |items| ==> items[k].link.None?
    decreases |items|
  {
    if |items| == 0 || items[0].link.None? then 0
    else 1 + FirstUnlinked(items[1..])
  }

  /** The notes of items that all have links. */
  function Notes(s: Services, c: OutboxConfig, template: string, items: seq<Item>): (r: seq<RssNote>)
    requires forall j :: 0 <= j < |items| ==> items[j].link.Some?
    ensures |r| == |items|
    ensures forall j :: 0 <= j < |items| ==> GetNote(s, c, template, items[j]) == Ok(r[j])
  {
    seq(|items|, j requires 0 <= j < |items| => GetNote(s, c, template, items[j]).value)
  }

  /** The files written, and how the run ended. */
  datatype Written = Written(writes: seq<FileWrite>, result: Outcome<()>)

  /** `GenerateOutbox` after the feed is read: each item's note file in
      turn, then the outbox file. An item without a link throws, leaving the
      note files before it written and no outbox. */
  function GenerateOutbox(s: Services, c: OutboxConfig, template: string, summary: string, items: seq<Item>): (r: Written)
    ensures r.result.Ok? <==> FirstUnlinked(items) == |items|
    ensures r.result.Err? ==> r.result.error == NullReference && |r.writes| == FirstUnlinked(items)
    ensures r.result.Ok? ==> (|r.writes| == |items| + 1
      && r.writes[|items|] == OutboxFile(c, summary, Notes(s, c, template, items)))
    ensures forall j, n :: 0 <= j < FirstUnlinked(items) && GetNote(s, c, template, items[j]) == Ok(n) ==>
      r.writes[j] == NoteFile(c, n)
  {
    var k := FirstUnlinked(items);
    var files := seq(k, j requires 0 <= j < k => NoteFile(c, GetNote(s, c, template, items[j]).value));
    if k < |items| then Written(files, Err(NullReference))
    else Written(files + [OutboxFile(c, summary, Notes(s, c, template, items))], Ok(()))
  }

  /** Each note file is named by the MD5 of its item's link, in hex, so the
      same link always lands in the same file. */
  lemma NoteFilesNamedByLinks(s: Services, c: OutboxConfig, template: string, summary: string, items: seq<Item>, j: nat)
    requires j < FirstUnlinked(items)
    ensures j < |GenerateOutbox(s, c, template, summary, items).writes|
    ensures AfterLast(GenerateOutbox(s, c, template, summary, items).writes[j].path, '/') == Md5Hex(s.crypto, items[j].link.value)
  {
    var item := items[j];
    var link := item.link.value;
    var content := GetContent(item, TagBase(c), c.authorUserId, c.authorUrl, template);
    var n := NoteOf(s, c, link, content, ParsePubDate(s, item.pubDate), item.tags);
    assert GetNote(s, c, template, item) == Ok(n);
    NoteNamedByLink(s, c, link, content, ParsePubDate(s, item.pubDate), item.tags);
  }

  /** The outbox lists one Create per item, in the items' order, each
      wrapping the note written for that item. */
  lemma OutboxListsNotes(s: Services, c: OutboxConfig, template: string, summary: string, items: seq<Item>)
    requires forall j :: 0 <= j < |items| ==> items[j].link.Some?
    ensures var notes := Notes(s, c, template, items);
      var doc := OutboxDoc(c, summary, notes);
      && Get(doc, "totalItems") == Some(JInt(|items|))
      && Get(doc, "summary") == Some(JStr(summary))
      && Get(doc, "orderedItems").Some? && Get(doc, "orderedItems").value.JArr?
      && var creates := Get(doc, "orderedItems").value.items;
      && |creates| == |items|
      && forall j :: 0 <= j < |items| ==>
           Get(creates[j], "object") == Some(NoteJson(notes[j]))
           && Get(creates[j], "id") == Some(JStr(notes[j].id + "/create"))
  {
    var notes := Notes(s, c, template, items);
    var creates := seq(|notes|, i requires 0 <= i < |notes| => CreateJson(c, notes[i]));
    OutboxCounts(OutboxUrl(c), creates, summary);
    forall j | 0 <= j < |items|
      ensures Get(creates[j], "object") == Some(NoteJson(notes[j]))
      ensures Get(creates[j], "id") == Some(JStr(notes[j].id + "/create"))
    {
      CreateWrapsNote(c, notes[j]);
    }
  }

  const OutboxWireNames: seq<string> := ["@context", "id", "type", "summary", "totalItems", "orderedItems"]

  /** The outbox is written with `@context` and its other names as declared. */
  lemma OutboxOnWire(c: OutboxConfig, summary: string, notes: seq<RssNote>)
    ensures Names(OutboxFile(c, summary, notes).content) == OutboxWireNames
  {
    var ms := OutboxDoc(c, summary, notes).members;
    WireNames(ContextLowerUpper, ms);
    forall i | 0 <= i < |ms|
      ensures WireName(ContextLowerUpper, ms[i]) == OutboxWireNames[i]
    {
      assert !IsUpperAscii(ms[i].name[0]);
    }
  }

  /** The whole command on a read feed. A handle without two `@` stops it
      before anything is written. */
  function Run(s: Services, staticPath: string, authorUsername: string, siteActorUri: string,
               domain: Option<string>, authorUri: Option<string>, templateOption: Option<string>,
               channelDescription: Option<string>, raw: seq<RawItem>): (r: Written)
    ensures SplitHandle(authorUsername).Err? ==> r == Written([], Err(IndexOutOfRange))
    ensures r.result.Ok? ==> SplitHandle(authorUsername).Ok? && |r.writes| == |raw| + 1
    ensures r.result.Ok? <==> SplitHandle(authorUsername).Ok? && forall j :: 0 <= j < |raw| ==> raw[j].link.Some?
  {
    match Configure(staticPath, authorUsername, siteActorUri, domain, authorUri)
    case Err(e) => Written([], Err(e))
    case Ok(c) =>
      var items := seq(|raw|, j requires 0 <= j < |raw| => ReadItem(raw[j]));
      assert forall j :: 0 <= j < |raw| ==> items[j].link == raw[j].link;
      GenerateOutbox(s, c, ChooseTemplate(templateOption), Summary(c, channelDescription), items)
  }
}

=== FILE: rss_utils.dfy ===
/** `RssUtils`: turns one RSS item into an ActivityStreams Note and its Create,
    and collects the Creates into the outbox collection. */
module RssUtils {
  import opened Wrappers
  import opened Errors
  import opened Strings
  import opened Crypto
  import opened Json
  import opened OutboxSettings

  /** One RSS item as the program hands it over, after the fallbacks applied
      while reading the feed. Every element may be missing. */
  datatype Item = Item(
    title: Option<string>,
    link: Option<string>,
    description: Option<string>,
    content: Option<string>,
    pubDate: Option<string>,
    author: Option<string>,
    tags: seq<string>)

  /** The .NET services the conversion calls: MD5, and `DateTimeOffset.TryParse`
      followed by formatting as `yyyy-MM-ddTHH:mm:sszzz` (None when the text
      does not parse). */
  datatype Services = Services(crypto: Primitives, parseDate: string -> Option<string>)

  /** `GetHashTag`. */
  function HashTag(tag: string, link: string): string {
    "<a href =\"" + link + "\" class=\"mention hashtag\" rel=\"tag\">#<span>" + tag + "</span></a>"
  }

  /** `GetMention`. */
  function Mention(name: string, link: string): string {
    "<a href=\"" + link + "\" class=\"u-url mention\">@<span>" + name + "</span></a>"
  }

  /** The `{tags}` text: a space and a hashtag link for each tag, in order. */
  function TagsMarkup(baseTagUrl: string, tags: seq<string>): (r: string)
    ensures r == "" <==> |tags| == 0
    decreases |tags|
  {
    if |tags| == 0 then ""
    else " " + HashTag(tags[0], baseTagUrl + "/" + tags[0]) + TagsMarkup(baseTagUrl, tags[1..])
  }

  /** The tag markup of two runs of tags is the markup of each, in order. */
  lemma {:induction false} TagsMarkupAppend(baseTagUrl: string, a: seq<string>, b: seq<string>)
    ensures TagsMarkup(baseTagUrl, a + b) == TagsMarkup(baseTagUrl, a) + TagsMarkup(baseTagUrl, b)
    decreases |a|
  {
    if |a| == 0 {
      assert a + b == b;
    } else {
      assert (a + b)[0] == a[0] && (a + b)[1..] == a[1..] + b;
      TagsMarkupAppend(baseTagUrl, a[1..], b);
    }
  }

  /** The description with every line break turned into a paragraph break; a
      missing description gives the empty text. */
  function Paragraphs(description: Option<string>): (r: string)
    ensures '\n' !in r
    ensures description.None? ==> r == ""
  {
    if description.None? then ""
    else
      ReplaceCharRemovesIt(description.value, '\n', "</p><p>");
      ReplaceAll(description.value, "\n", "</p><p>")
  }

  /** Each line of the description becomes one paragraph body. */
  lemma ParagraphsAreLines(d: string)
    ensures Paragraphs(Some(d)) == Join("</p><p>", Split(d, '\n'))
  {
    ReplaceCharIsJoinSplit(d, '\n', "</p><p>");
  }

  /** The placeholders, in the order `GetContent` replaces them. */
  const Placeholders: seq<string> := ["{title}", "{description}", "{link}", "{author}", "{tags}", "{content}"]

  /** `{` only first and `}` only last. */
  predicate Braced(p: string) {
    && |p| >= 2 && p[0] == '{' && p[|p| - 1] == '}'
    && forall i :: 0 < i < |p| - 1 ==> p[i] != '{' && p[i] != '}'
  }

  lemma PlaceholdersBraced()
    ensures forall k :: 0 <= k < |Placeholders| ==> Braced(Placeholders[k])
    ensures forall k, m :: 0 <= k < |Placeholders| && 0 <= m < |Placeholders| && k != m ==> Placeholders[k] != Placeholders[m]
  {
    forall k, m | 0 <= k < |Placeholders| && 0 <= m < |Placeholders| && k != m
      ensures Placeholders[k] != Placeholders[m]
    {
      assert |Placeholders[k]| != |Placeholders[m]| || Placeholders[k][1] != Placeholders[m][1];
    }
  }

  /** Text without `{` goes through a replacement of a braced pattern as is. */
  lemma {:induction false} ReplacePlainPrefix(x: string, y: string, p: string, v: string)
    requires |p| > 0 && p[0] == '{' && '{' !in x
    ensures ReplaceAll(x + y, p, v) == x + ReplaceAll(y, p, v)
    decreases |x|
  {
    if |x| == 0 {
      assert x + y == y;
    } else {
      var s := x + y;
      assert s[0] == x[0];
      if |s| >= |p| {
        assert s[..|p|][0] != p[0];
      }
      assert s[1..] == x[1..] + y;
      ReplacePlainPrefix(x[1..], y, p, v);
      assert [x[0]] + (x[1..] + ReplaceAll(y, p, v)) == x + ReplaceAll(y, p, v);
    }
  }

  /** An occurrence of the pattern is replaced by the value. */
  lemma ReplaceHit(y: string, p: string, v: string)
    requires |p| > 0
    ensures ReplaceAll(p + y, p, v) == v + ReplaceAll(y, p, v)
  {
    assert (p + y)[..|p|] == p && (p + y)[|p|..] == y;
  }

  /** One braced pattern never starts another. */
  lemma BracedNotPrefix(p: string, q: string, y: string)
    requires Braced(p) && Braced(q) && p != q && |q + y| >= |p|
    ensures (q + y)[..|p|] != p
  {
    var s := q + y;
    if |p| < |q| {
      assert s[..|p|][|p| - 1] == q[|p| - 1] != p[|p| - 1];
    } else if |p| == |q| {
      assert s[..|p|] == q;
    } else {
      assert s[..|p|][|q| - 1] == q[|q| - 1] != p[|q| - 1];
    }
  }

  /** A different placeholder goes through a replacement as is. */
  lemma ReplaceMiss(q: string, y: string, p: string, v: string)
    requires Braced(p) && Braced(q) && p != q
    ensures ReplaceAll(q + y, p, v) == q + ReplaceAll(y, p, v)
  {
    var s := q + y;
    if |s| >= |p| {
      BracedNotPrefix(p, q, y);
    }
    assert s[1..] == q[1..] + y;
    assert '{' !in q[1..] by {
      forall i | 0 <= i < |q[1..]| ensures q[1..][i] != '{' {
        assert q[1..][i] == q[i + 1];
      }
    }
    ReplacePlainPrefix(q[1..], y, p, v);
    assert [q[0]] + (q[1..] + ReplaceAll(y, p, v)) == q + ReplaceAll(y, p, v);
  }

  /** A template cut into plain text and placeholder slots; slot `k` stands for
      `Placeholders[k]`. */
  datatype Piece = Text(text: string) | Slot(k: nat)

  /** No piece of text holds a `{`, and every slot names a placeholder. */
  predicate Plain(ps: seq<Piece>) {
    forall i :: 0 <= i < |ps| ==> (ps[i].Text? ==> '{' !in ps[i].text) && (ps[i].Slot? ==> ps[i].k < 6)
  }

  function PieceText(p: Piece, fill: seq<string>): string {
    match p
    case Text(t) => t
    case Slot(k) => if k < |fill| then fill[k] else ""
  }

  /** The pieces with slot `k` written as `fill[k]`. */
  function Render(ps: seq<Piece>, fill: seq<string>): string
    decreases |ps|
  {
    if |ps| == 0 then "" else PieceText(ps[0], fill) + Render(ps[1..], fill)
  }

  /** Two pieces, a text and a slot, in front of the rest. */
  function Seg(t: string, k: nat): seq<Piece> {
    [Text(t), Slot(k)]
  }

  lemma RenderSeg(t: string, k: nat, rest: seq<Piece>, fill: seq<string>)
    requires k < |fill|
    ensures Render(Seg(t, k) + rest, fill) == t + (fill[k] + Render(rest, fill))
  {
    assert (Seg(t, k) + rest)[1..] == [Slot(k)] + rest;
    assert ([Slot(k)] + rest)[1..] == rest;
  }

  /** The passes `j` to 5 of `GetContent`, in order: every occurrence of
      `Placeholders[j]` becomes `values[j]`. */
  function ReplaceFrom(s: string, values: seq<string>, j: nat): string
    requires |values| == 6 && j <= 6
    decreases 6 - j
  {
    if j == 6 then s
    else
      assert |Placeholders[j]| > 0;
      ReplaceFrom(ReplaceAll(s, Placeholders[j], values[j]), values, j + 1)
  }

  /** The fill after the first `j` passes: earlier slots hold their values,
      later ones still their placeholders. */
  function Partial(values: seq<string>, j: nat): (r: seq<string>)
    requires |values| == 6
    ensures |r| == 6
    ensures forall i :: 0 <= i < 6 ==> r[i] == if i < j then values[i] else Placeholders[i]
  {
    seq(6, i requires 0 <= i < 6 => if i < j then values[i] else Placeholders[i])
  }

  /** One pass fills one slot. */
  lemma {:induction false} RenderPass(ps: seq<Piece>, fill: seq<string>, j: nat, v: string)
    requires Plain(ps) && |fill| == 6 && j < 6 && fill[j] == Placeholders[j]
    requires forall i :: 0 <= i < 6 ==> fill[i] == Placeholders[i] || '{' !in fill[i]
    ensures ReplaceAll(Render(ps, fill), Placeholders[j], v) == Render(ps, fill[j := v])
    decreases |ps|
  {
    PlaceholdersBraced();
    var p := Placeholders[j];
    if |ps| > 0 {
      var rest := Render(ps[1..], fill);
      assert Plain(ps[1..]) by {
        forall i | 0 <= i < |ps[1..]| ensures ps[1..][i] == ps[i + 1] { }
      }
      RenderPass(ps[1..], fill, j, v);
      match ps[0]
      case Text(t) =>
        ReplacePlainPrefix(t, rest, p, v);
      case Slot(k) =>
        if k == j {
          ReplaceHit(rest, p, v);
        } else if fill[k] == Placeholders[k] {
          ReplaceMiss(fill[k], rest, p, v);
        } else {
          ReplacePlainPrefix(fill[k], rest, p, v);
        }
    }
  }

  lemma {:induction false} FillFrom(ps: seq<Piece>, values: seq<string>, j: nat)
    requires Plain(ps) && |values| == 6 && j <= 6
    requires forall i :: 0 <= i < 6 ==> '{' !in values[i]
    ensures ReplaceFrom(Render(ps, Partial(values, j)), values, j) == Render(ps, values)
    decreases 6 - j
  {
    if j == 6 {
      assert Partial(values, 6) == values;
    } else {
      RenderPass(ps, Partial(values, j), j, values[j]);
      assert Partial(values, j)[j := values[j]] == Partial(values, j + 1);
      FillFrom(ps, values, j + 1);
    }
  }

  /** The six passes fill every placeholder of a template whose text holds no
      other `{`, provided no value brings a `{` of its own. */
  lemma Fill(ps: seq<Piece>, values: seq<string>)
    requires Plain(ps) && |values| == 6
    requires forall i :: 0 <= i < 6 ==> '{' !in values[i]
    ensures ReplaceFrom(Render(ps, Placeholders), values, 0) == Render(ps, values)
  {
    assert Partial(values, 0) == Placeholders;
    FillFrom(ps, values, 0);
  }

  /** What each placeholder stands for. `{content}` is the item's content, or
      the converted description when there is none. */
  function Values(item: Item, baseTagUrl: string, authorName: string, authorUri: string): (r: seq<string>)
    ensures |r| == 6
  {
    var description := Paragraphs(item.description);
    [OrEmpty(item.title), description, OrEmpty(item.link), Mention(authorName, authorUri),
     TagsMarkup(baseTagUrl, item.tags), if item.content.Some? then item.content.value else description]
  }

  /** `GetContent`: the template with its placeholders replaced one kind after
      another; a missing title or link replaces its placeholder by nothing. */
  function GetContent(item: Item, baseTagUrl: string, authorName: string, authorUri: string, template: string): string {
    ReplaceFrom(template, Values(item, baseTagUrl, authorName, authorUri), 0)
  }

  /** Every placeholder of a template is replaced by its value, when neither
      the template's text nor any value holds a stray `{`. */
  lemma TemplateFilled(item: Item, baseTagUrl: string, authorName: string, authorUri: string, ps: seq<Piece>)
    requires Plain(ps)
    requires forall i :: 0 <= i < 6 ==> '{' !in Values(item, baseTagUrl, authorName, authorUri)[i]
    ensures GetContent(item, baseTagUrl, authorName, authorUri, Render(ps, Placeholders))
      == Render(ps, Values(item, baseTagUrl, authorName, authorUri))
  {
    Fill(ps, Values(item, baseTagUrl, authorName, authorUri));
  }

  /** A template without any `{` is the content whatever the item holds. */
  lemma PlainTemplateKept(item: Item, baseTagUrl: string, authorName: string, authorUri: string, template: string)
    requires '{' !in template
    ensures GetContent(item, baseTagUrl, authorName, authorUri, template) == template
  {
    PlainPasses(template, Values(item, baseTagUrl, authorName, authorUri), 0);
  }

  lemma {:induction false} PlainPasses(s: string, values: seq<string>, j: nat)
    requires '{' !in s && |values| == 6 && j <= 6
    ensures ReplaceFrom(s, values, j) == s
    decreases 6 - j
  {
    if j < 6 {
      PlaceholdersBraced();
      ReplacePlainPrefix(s, "", Placeholders[j], values[j]);
      assert s + "" == s;
      PlainPasses(s, values, j + 1);
    }
  }

  /** The replacements run in sequence, so text brought in by an earlier one is
      searched by the later ones: a title reading `{link}` shows the link. */
  lemma EarlierValuesReplacedLater(item: Item, baseTagUrl: string, authorName: string, authorUri: string, link: string)
    requires item.title == Some("{link}") && item.link == Some(link) && '{' !in link
    ensures GetContent(item, baseTagUrl, authorName, authorUri, "{title}") == link
  {
    var values := Values(item, baseTagUrl, authorName, authorUri);
    PlaceholdersBraced();
    ReplaceHit("", "{title}", "{link}");
    assert "{title}" + "" == "{title}" && "{link}" + "" == "{link}";
    var s1 := ReplaceAll("{title}", Placeholders[0], values[0]);
    assert s1 == "{link}";
    assert ReplaceAll(s1, Placeholders[1], values[1]) == s1;
    ReplaceHit("", "{link}", link);
    assert link + "" == link;
    PlainPasses(link, values, 3);
  }

  /** `NoteTag`. */
  datatype NoteTag = NoteTag(typ: string, href: string, name: string)

  /** `$"{Domain}/tags"`, the base of every hashtag link. */
  function TagBase(c: OutboxConfig): string {
    c.domain + "/tags"
  }

  function Hashtags(baseTagUrl: string, tags: seq<string>): (r: seq<NoteTag>)
    ensures |r| == |tags|
  {
    seq(|tags|, i requires 0 <= i < |tags| => NoteTag("Hashtag", baseTagUrl + "/" + tags[i], "#" + tags[i]))
  }

  /** The note's tag list: the author's mention first, then a hashtag per tag. */
  function NoteTags(c: OutboxConfig, tags: seq<string>): (r: seq<NoteTag>)
    ensures |r| == |tags| + 1
  {
    [NoteTag("Mention", c.authorUrl, c.authorUsername)] + Hashtags(TagBase(c), tags)
  }

  /** The tag list gives the item's tags back in order: each hashtag's name is
      `#` and the tag, and a tag that is a single path segment is the last
      segment of its link. */
  lemma NoteTagsRecoverTags(c: OutboxConfig, tags: seq<string>)
    ensures var r := NoteTags(c, tags);
      && r[0] == NoteTag("Mention", c.authorUrl, c.authorUsername)
      && var hs := r[1..];
      && (forall i :: 0 <= i < |hs| ==> hs[i].typ == "Hashtag" && |hs[i].name| > 0 && hs[i].name[0] == '#')
      && seq(|hs|, i requires 0 <= i < |hs| => hs[i].name[1..]) == tags
      && (forall i :: 0 <= i < |tags| && '/' !in tags[i] ==> AfterLast(hs[i].href, '/') == tags[i])
  {
    var hs := Hashtags(TagBase(c), tags);
    assert NoteTags(c, tags)[1..] == hs;
    forall i | 0 <= i < |tags|
      ensures hs[i].name[1..] == tags[i]
      ensures '/' !in tags[i] ==> AfterLast(hs[i].href, '/') == tags[i]
    {
      assert hs[i].href == TagBase(c) + ['/'] + tags[i];
      if '/' !in tags[i] {
        AfterLastOfSuffix(TagBase(c), '/', tags[i]);
      }
    }
  }

  /** The links the content writes for the tags, from a tag list. */
  function TagLinks(ts: seq<NoteTag>): string
    decreases |ts|
  {
    if |ts| == 0 then ""
    else
      var name := ts[0].name;
      " " + HashTag(if |name| > 0 then name[1..] else name, ts[0].href) + TagLinks(ts[1..])
  }

  /** The content's hashtag links are exactly the note's hashtags. */
  lemma {:induction false} ContentLinksAreNoteTags(baseTagUrl: string, tags: seq<string>)
    ensures TagsMarkup(baseTagUrl, tags) == TagLinks(Hashtags(baseTagUrl, tags))
    decreases |tags|
  {
    if |tags| > 0 {
      var hs := Hashtags(baseTagUrl, tags);
      assert hs[1..] == Hashtags(baseTagUrl, tags[1..]);
      assert hs[0].name[1..] == tags[0];
      ContentLinksAreNoteTags(baseTagUrl, tags[1..]);
    }
  }

  /** The note's id: `Domain/NotesPath/hash`. */
  function NoteId(c: OutboxConfig, hash: string): string {
    c.domain + "/" + c.notesPath + "/" + hash
  }

  /** The id of the note's replies collection: `Domain/RepliesPath/hash`. */
  function RepliesId(c: OutboxConfig, hash: string): string {
    c.domain + "/" + c.repliesPath + "/" + hash
  }

  /** The anonymous note object of `GetNote`. */
  datatype RssNote = RssNote(
    id: string,
    hash: string,
    content: string,
    url: string,
    attributedTo: string,
    published: Option<string>,
    tags: seq<NoteTag>,
    repliesId: string)

  /** `ParsePubDate`: the date in the output format when it parses, the text
      as it was otherwise, and nothing for a missing date. */
  function ParsePubDate(s: Services, pubDate: Option<string>): (r: Option<string>)
    ensures r.None? <==> pubDate.None?
    ensures pubDate.Some? && s.parseDate(pubDate.value).None? ==> r == pubDate
    ensures pubDate.Some? && s.parseDate(pubDate.value).Some? ==> r == s.parseDate(pubDate.value)
  {
    if pubDate.None? then None
    else
      match s.parseDate(pubDate.value)
      case Some(formatted) => Some(formatted)
      case None => pubDate
  }

  /** `GetNote`. Hashing a missing link throws before anything is built. */
  function GetNote(s: Services, c: OutboxConfig, template: string, item: Item): (r: Outcome<RssNote>)
    ensures r.Err? <==> item.link.None?
    ensures r.Err? ==> r.error == NullReference
    ensures r.Ok? ==> r.value.url == item.link.value && r.value.tags == NoteTags(c, item.tags)
    ensures r.Ok? ==> (Unhex(r.value.hash) == s.crypto.md5(item.link.value)
      && r.value.id == NoteId(c, r.value.hash) && r.value.repliesId == RepliesId(c, r.value.hash))
    ensures r.Ok? ==> r.value.published == ParsePubDate(s, item.pubDate) && r.value.attributedTo == c.siteActorUri
  {
    match item.link
    case None => Err(NullReference)
    case Some(link) =>
      var content := GetContent(item, TagBase(c), c.authorUserId, c.authorUrl, template);
      Ok(NoteOf(s, c, link, content, ParsePubDate(s, item.pubDate), item.tags))
  }

  /** The note for the item at `link`, once its content and date are known. */
  function NoteOf(s: Services, c: OutboxConfig, link: string, content: string, published: Option<string>, tags: seq<string>): RssNote {
    var hash := Md5Hex(s.crypto, link);
    RssNote(NoteId(c, hash), hash, content, link, c.siteActorUri, published, NoteTags(c, tags), RepliesId(c, hash))
  }

  /** Lower-case hex has no `/`. */
  lemma HexHasNoSlash(h: string)
    requires forall i :: 0 <= i < |h| ==> IsHexDigit(h[i])
    ensures '/' !in h
  {
    forall i | 0 <= i < |h|
      ensures h[i] != '/'
    {
      assert IsHexDigit(h[i]);
    }
  }

  /** A note is named by the MD5 of its link: its hash is that digest in hex,
      and its id, its replies collection and its file all end in the hash. */
  lemma NoteNamedByLink(s: Services, c: OutboxConfig, link: string, content: string, published: Option<string>, tags: seq<string>)
    ensures var n := NoteOf(s, c, link, content, published, tags);
      && |n.hash| == 32 && Unhex(n.hash) == s.crypto.md5(link)
      && AfterLast(n.id, '/') == n.hash
      && AfterLast(n.repliesId, '/') == n.hash
      && AfterLast(PathCombine(NotesFullPath(c), n.hash), '/') == n.hash
  {
    var n := NoteOf(s, c, link, content, published, tags);
    HexHasNoSlash(n.hash);
    assert n.id == c.domain + "/" + c.notesPath + ['/'] + n.hash;
    AfterLastOfSuffix(c.domain + "/" + c.notesPath, '/', n.hash);
    assert n.repliesId == c.domain + "/" + c.repliesPath + ['/'] + n.hash;
    AfterLastOfSuffix(c.domain + "/" + c.repliesPath, '/', n.hash);
    FileNameKept(NotesFullPath(c), n.hash);
  }

  function TagJson(t: NoteTag): Json {
    JObj([P("Type", JStr(t.typ)), P("Href", JStr(t.href)), P("Name", JStr(t.name))])
  }

  /** The `replies` collection: empty, with a first page pointing back at it. */
  function RepliesJson(repliesId: string): Json {
    JObj([
      P("id", JStr(repliesId)),
      P("type", JStr("Collection")),
      P("first", FirstPageJson(repliesId))])
  }

  function FirstPageJson(repliesId: string): Json {
    JObj([
      P("type", JStr("CollectionPage")),
      P("next", JStr(repliesId + "?page=true")),
      P("partOf", JStr(repliesId)),
      P("items", Strs([]))])
  }

  function NoteJson(n: RssNote): Json {
    JObj([
      P("_context", JStr(ActivityStreams)),
      P("id", JStr(n.id)),
      P("type", JStr("Note")),
      P("hash", JStr(n.hash)),
      P("content", JStr(n.content)),
      P("url", JStr(n.url)),
      P("attributedTo", JStr(n.attributedTo)),
      P("to", Strs([PublicAddress])),
      P("cc", Strs([])),
      P("published", OptStr(n.published)),
      P("tag", JArr(seq(|n.tags|, i requires 0 <= i < |n.tags| => TagJson(n.tags[i])))),
      P("replies", RepliesJson(n.repliesId))])
  }

  /** `GetCreateNote`. */
  function CreateJson(c: OutboxConfig, n: RssNote): Json {
    JObj([
      P("_context", JStr(ActivityStreams)),
      P("id", JStr(n.id + "/create")),
      P("type", JStr("Create")),
      P("actor", JStr(c.siteActorUri)),
      P("to", Strs([PublicAddress])),
      P("cc", Strs([])),
      P("published", OptStr(n.published)),
      P("object", NoteJson(n))])
  }

  /** `GetOutbox`. */
  function OutboxJson(outboxUrl: string, orderedItems: seq<Json>, summary: string): Json {
    JObj([
      P("_context", JStr(ActivityStreams)),
      P("id", JStr(outboxUrl)),
      P("type", JStr("OrderedCollection")),
      P("summary", JStr(summary)),
      P("totalItems", JInt(|orderedItems|)),
      P("orderedItems", JArr(orderedItems))])
  }

  const CreateNames: seq<string> := ["_context", "id", "type", "actor", "to", "cc", "published", "object"]
  const NoteNames: seq<string> := ["_context", "id", "type", "hash", "content", "url", "attributedTo", "to", "cc", "published", "tag", "replies"]
  const OutboxNames: seq<string> := ["_context", "id", "type", "summary", "totalItems", "orderedItems"]

  /** None of the three objects repeats a property name. */
  lemma NamesDistinct(names: seq<string>)
    requires names == CreateNames || names == NoteNames || names == OutboxNames
    ensures forall i, j :: 0 <= i < |names| && 0 <= j < |names| && i != j ==> names[i] != names[j]
  {
    forall i, j | 0 <= i < |names| && 0 <= j < |names| && i != j
      ensures names[i] != names[j]
    {
      assert |names[i]| != |names[j]| || names[i][0] != names[j][0];
    }
  }

  /** A member of one of the three objects, found by its name. */
  lemma Found(ms: seq<Member>, names: seq<string>, i: nat)
    requires names == CreateNames || names == NoteNames || names == OutboxNames
    requires |ms| == |names| && i < |ms|
    requires forall j :: 0 <= j < |ms| ==> ms[j].name == names[j]
    ensures GetMember(ms, names[i]) == Some(ms[i].value)
  {
    NamesDistinct(names);
    GetNamed(ms, names, i);
  }

  /** The Create wraps the note: its id is the note's id and `/create`, it is
      published when the note is, by the site's actor, and its object is the
      note. */
  lemma CreateWrapsNote(c: OutboxConfig, n: RssNote)
    ensures var r := CreateJson(c, n);
      && Get(r, "id") == Some(JStr(n.id + "/create"))
      && Get(r, "actor") == Some(JStr(c.siteActorUri))
      && Get(r, "object") == Some(NoteJson(n))
      && Get(r, "published") == Get(NoteJson(n), "published")
  {
    var ms := CreateJson(c, n).members;
    assert forall j :: 0 <= j < |ms| ==> ms[j].name == CreateNames[j];
    Found(ms, CreateNames, 1);
    Found(ms, CreateNames, 3);
    Found(ms, CreateNames, 6);
    Found(ms, CreateNames, 7);
    NotePublished(n);
  }

  lemma NotePublished(n: RssNote)
    ensures Get(NoteJson(n), "published") == Some(OptStr(n.published))
  {
    var ns := NoteJson(n).members;
    assert forall j :: 0 <= j < |ns| ==> ns[j].name == NoteNames[j];
    Found(ns, NoteNames, 9);
  }

  /** A note carries its replies collection under `replies`. */
  lemma NoteReplies(n: RssNote)
    ensures Get(NoteJson(n), "replies") == Some(RepliesJson(n.repliesId))
  {
    var ms := NoteJson(n).members;
    assert forall j :: 0 <= j < |ms| ==> ms[j].name == NoteNames[j];
    Found(ms, NoteNames, 11);
  }

  /** A replies collection is named by its id and opens on its first page. */
  lemma RepliesLinked(repliesId: string)
    ensures Get(RepliesJson(repliesId), "id") == Some(JStr(repliesId))
    ensures Get(RepliesJson(repliesId), "type") == Some(JStr("Collection"))
    ensures Get(RepliesJson(repliesId), "first") == Some(FirstPageJson(repliesId))
  {
    var rm := RepliesJson(repliesId).members;
    GetDistinct(rm, 0);
    GetDistinct(rm, 1);
    GetDistinct(rm, 2);
  }

  /** The first page points on to the `?page=true` view of the collection's id
      and back to the id itself, and holds no items. */
  lemma FirstPageLinked(repliesId: string)
    ensures Get(FirstPageJson(repliesId), "next") == Some(JStr(repliesId + "?page=true"))
    ensures Get(FirstPageJson(repliesId), "partOf") == Some(JStr(repliesId))
    ensures Get(FirstPageJson(repliesId), "items") == Some(JArr([]))
  {
    var fm := FirstPageJson(repliesId).members;
    GetDistinct(fm, 1);
    GetDistinct(fm, 2);
    GetDistinct(fm, 3);
  }

  /** The outbox is named by its URL, counts its items and lists them as given. */
  lemma OutboxCounts(outboxUrl: string, orderedItems: seq<Json>, summary: string)
    ensures var r := OutboxJson(outboxUrl, orderedItems, summary);
      && Get(r, "totalItems") == Some(JInt(|orderedItems|))
      && Get(r, "orderedItems") == Some(JArr(orderedItems))
      && Get(r, "summary") == Some(JStr(summary))
      && Get(r, "id") == Some(JStr(outboxUrl))
  {
    var ms := OutboxJson(outboxUrl, orderedItems, summary).members;
    assert forall j :: 0 <= j < |ms| ==> ms[j].name == OutboxNames[j];
    Found(ms, OutboxNames, 1);
    Found(ms, OutboxNames, 3);
    Found(ms, OutboxNames, 4);
    Found(ms, OutboxNames, 5);
  }

  /** A tag is written with lower-case names under Rss2Outbox's policy. */
  lemma TagOnWire(t: NoteTag)
    ensures Wire(ContextLowerUpper, TagJson(t)) == JObj([F("type", JStr(t.typ)), F("href", JStr(t.href)), F("name", JStr(t.name))])
  {
    assert LowerFirst("Type") == "type";
    assert LowerFirst("Href") == "href";
    assert LowerFirst("Name") == "name";
    WireMembers(ContextLowerUpper, TagJson(t).members,
      [F("type", JStr(t.typ)), F("href", JStr(t.href)), F("name", JStr(t.name))]);
  }
}

=== FILE: storage.dfy ===
/** The state the inbox functions act on: which tables exist, the followers
    and replies tables, the `$web` blob container, and every request handed to
    the transport so far. */
module Storage {
  import opened Wrappers
  import opened Errors
  import opened Tables
  import opened Http
  import opened FollowerEntity
  import opened ReplyEntity

  const FollowersTable: string := "followers"
  const RepliesTable: string := "replies"

  /** A blob of the `$web` container: its text and its `Content-Type`. */
  datatype Blob = Blob(content: string, contentType: string)

  datatype World = World(
    tables: set<string>,
    followers: Table<Follower>,
    replies: Table<Reply>,
    blobs: map<string, Blob>,
    sent: seq<Request>)

  /** The world after a step, and what the step returned or threw. Effects made
      before an exception stay in the world. */
  datatype Step<T> = Step(world: World, result: Outcome<T>)

  /** `CreateTableIfNotExistsAsync`. */
  function CreateTable(w: World, name: string): (r: World)
    ensures r.tables == w.tables + {name}
    ensures r.followers == w.followers && r.replies == w.replies && r.blobs == w.blobs && r.sent == w.sent
  {
    w.(tables := w.tables + {name})
  }

  /** `UploadAsync` with no conditions: creates or overwrites the blob. */
  function Upload(w: World, name: string, blob: Blob): (r: World)
    ensures r.blobs.Keys == w.blobs.Keys + {name} && r.blobs[name] == blob
    ensures forall other :: other in w.blobs && other != name ==> r.blobs[other] == w.blobs[other]
    ensures r.tables == w.tables && r.followers == w.followers && r.replies == w.replies && r.sent == w.sent
  {
    w.(blobs := w.blobs[name := blob])
  }

  /** Requests handed to the transport, appended in order. */
  function Log(w: World, reqs: seq<Request>): (r: World)
    ensures r.sent == w.sent + reqs
    ensures r.tables == w.tables && r.followers == w.followers && r.replies == w.replies && r.blobs == w.blobs
  {
    w.(sent := w.sent + reqs)
  }
}

/** `ServerConfig`: the server's base URL and the name of its one actor. */
module Server {
  datatype ServerConfig = ServerConfig(baseDomain: string, actorName: string)

  /** The server actor's id, `BaseDomain/ActorName`. */
  function ActorId(cfg: ServerConfig): string {
    cfg.baseDomain + "/" + cfg.actorName
  }
}

=== FILE: strings.dfy ===
/** The .NET string operations the modelled code relies on, over `seq<char>`.
    Character classification is ASCII only. */
module Strings {

  /** `string.Split(c)`: the pieces between occurrences of `c`, empty pieces kept. */
  function Split(s: string, c: char): (parts: seq<string>)
    ensures |parts| >= 1
    ensures forall i :: 0 <= i < |parts| ==> c !in parts[i]
    decreases |s|
  {
    if |s| == 0 then [""]
    else
      var rest := Split(s[1..], c);
      if s[0] == c then [""] + rest
      else [[s[0]] + rest[0]] + rest[1..]
  }

  /** The inverse of `Split`: the parts separated by `sep`. */
  function Join(sep: string, parts: seq<string>): string
    decreases |parts|
  {
    if |parts| == 0 then ""
    else if |parts| == 1 then parts[0]
    else parts[0] + sep + Join(sep, parts[1..])
  }

  /** `Enumerable.Last` on a non-empty sequence. */
  function Last<T>(xs: seq<T>): T
    requires |xs| > 0
  {
    xs[|xs| - 1]
  }

  /** The text after the last `c` of `s`, or all of `s` when `c` does not occur.
      This is the reference definition that `Split(c).Last()` is proved equal to. */
  function AfterLast(s: string, c: char): (r: string)
    ensures c !in r
    ensures |r| <= |s| && r == s[|s| - |r|..]
    ensures |r| == |s| || s[|s| - |r| - 1] == c
    decreases |s|
  {
    if c !in s then s
    else if c !in s[1..] then s[1..]
    else AfterLast(s[1..], c)
  }

  /** `s.Split(c).Last()`, the form the source writes. */
  function LastPiece(s: string, c: char): (r: string)
    ensures r == AfterLast(s, c)
    ensures c !in r
  {
    SplitLastIsAfterLast(s, c);
    Last(Split(s, c))
  }

  lemma {:induction false} SplitWithout(s: string, c: char)
    requires c !in s
    ensures Split(s, c) == [s]
    decreases |s|
  {
    if |s| > 0 {
      SplitWithout(s[1..], c);
      assert [s[0]] + s[1..] == s;
    }
  }

  lemma {:induction false} SplitLastIsAfterLast(s: string, c: char)
    ensures Last(Split(s, c)) == AfterLast(s, c)
    decreases |s|
  {
    if c !in s {
      SplitWithout(s, c);
    } else {
      assert s == [s[0]] + s[1..];
      if c !in s[1..] {
        SplitWithout(s[1..], c);
      } else {
        SplitLastIsAfterLast(s[1..], c);
        SplitHasTwo(s[1..], c);
      }
    }
  }

  /** Text holding the separator splits into at least two pieces. */
  lemma {:induction false} SplitHasTwo(t: string, c: char)
    requires c in t
    ensures |Split(t, c)| >= 2
    decreases |t|
  {
    assert t == [t[0]] + t[1..];
    if t[0] != c {
      SplitHasTwo(t[1..], c);
    }
  }

  /** Joining the pieces of a split gives back the original text. */
  lemma {:induction false} SplitConcat(s: string, c: char)
    ensures Join([c], Split(s, c)) == s
    decreases |s|
  {
    if |s| > 0 {
      SplitConcat(s[1..], c);
      var rest := Split(s[1..], c);
      if s[0] == c {
        JoinCons([c], "", rest);
      } else {
        if |rest| == 1 {
        } else {
          JoinCons([c], rest[0], rest[1..]);
          JoinCons([c], [s[0]] + rest[0], rest[1..]);
          assert [s[0]] + rest[0] + [c] + Join([c], rest[1..])
              == [s[0]] + (rest[0] + [c] + Join([c], rest[1..]));
        }
      }
    }
  }

  lemma JoinCons(sep: string, x: string, xs: seq<string>)
    requires |xs| > 0
    ensures Join(sep, [x] + xs) == x + sep + Join(sep, xs)
  {
    assert ([x] + xs)[1..] == xs;
  }

  lemma JoinThree(sep: string, xs: seq<string>)
    requires |xs| == 3
    ensures Join(sep, xs) == xs[0] + sep + xs[1] + sep + xs[2]
  {
    assert xs[1..][1..] == [xs[2]];
    assert Join(sep, xs[1..]) == xs[1] + sep + xs[2];
    assert xs[0] + sep + (xs[1] + sep + xs[2]) == xs[0] + sep + xs[1] + sep + xs[2];
  }

  lemma JoinFour(sep: string, xs: seq<string>)
    requires |xs| == 4
    ensures Join(sep, xs) == xs[0] + sep + xs[1] + sep + xs[2] + sep + xs[3]
  {
    JoinThree(sep, xs[1..]);
    assert xs[0] + sep + (xs[1] + sep + xs[2] + sep + xs[3]) == xs[0] + sep + xs[1] + sep + xs[2] + sep + xs[3];
  }

  /** Splitting a join of pieces that do not contain the separator gives back the
      pieces: the round trip that makes newline-joined signing strings parseable. */
  lemma {:induction false} SplitJoin(parts: seq<string>, c: char)
    requires |parts| > 0
    requires forall i :: 0 <= i < |parts| ==> c !in parts[i]
    ensures Split(Join([c], parts), c) == parts
    decreases |parts|
  {
    if |parts| == 1 {
      SplitWithout(parts[0], c);
    } else {
      SplitJoin(parts[1..], c);
      SplitAfterPiece(parts[0], c, Join([c], parts[1..]));
      assert Join([c], parts) == parts[0] + ([c] + Join([c], parts[1..]));
      assert [parts[0]] + parts[1..] == parts;
    }
  }

  /** Splitting `a + c + b` where `a` has no `c` puts `a` first. */
  lemma {:induction false} SplitAfterPiece(a: string, c: char, b: string)
    requires c !in a
    ensures Split(a + ([c] + b), c) == [a] + Split(b, c)
    decreases |a|
  {
    if |a| == 0 {
      assert a + ([c] + b) == [c] + b;
      assert ([c] + b)[1..] == b;
    } else {
      SplitAfterPiece(a[1..], c, b);
      assert (a + ([c] + b))[1..] == a[1..] + ([c] + b);
      assert [a[0]] + a[1..] == a;
    }
  }

  /** The text after the last `c` of `a + [c] + b` is `b` when `b` has no `c`. */
  lemma {:induction false} AfterLastOfSuffix(a: string, c: char, b: string)
    requires c !in b
    ensures AfterLast(a + [c] + b, c) == b
    decreases |a|
  {
    var s := a + [c] + b;
    assert c in s by { assert s[|a|] == c; }
    if |a| == 0 {
      assert s[1..] == b;
    } else {
      assert s[1..] == a[1..] + [c] + b;
      assert c in s[1..] by { assert s[1..][|a| - 1] == c; }
      AfterLastOfSuffix(a[1..], c, b);
    }
  }

  /** Splitting text that ends in the separator adds one empty piece. */
  lemma {:induction false} SplitEndsWithSeparator(s: string, c: char)
    ensures Split(s + [c], c) == Split(s, c) + [""]
    decreases |s|
  {
    if |s| > 0 {
      assert (s + [c])[1..] == s[1..] + [c];
      SplitEndsWithSeparator(s[1..], c);
    }
  }

  /** `StringSplitOptions.RemoveEmptyEntries`: the pieces that are not empty,
      in order. */
  function RemoveEmpty(parts: seq<string>): (r: seq<string>)
    ensures forall i :: 0 <= i < |r| ==> r[i] != "" && r[i] in parts
    decreases |parts|
  {
    if |parts| == 0 then []
    else
      var rest := RemoveEmpty(parts[..|parts| - 1]);
      if Last(parts) == "" then rest else rest + [Last(parts)]
  }

  /** `s.TrimEnd(c)`: drops every trailing `c`. */
  function TrimEnd(s: string, c: char): (r: string)
    ensures r <= s
    ensures |r| == 0 || r[|r| - 1] != c
    ensures forall i :: |r| <= i < |s| ==> s[i] == c
    decreases |s|
  {
    if |s| > 0 && s[|s| - 1] == c then TrimEnd(s[..|s| - 1], c) else s
  }

  /** The last non-empty piece of a split is the text after the last
      separator once the trailing separators are trimmed, and there is none
      exactly when the text is all separators. */
  lemma {:induction false} LastNonEmptyPiece(s: string, c: char)
    ensures |RemoveEmpty(Split(s, c))| == 0 <==> TrimEnd(s, c) == ""
    ensures |RemoveEmpty(Split(s, c))| > 0 ==> Last(RemoveEmpty(Split(s, c))) == AfterLast(TrimEnd(s, c), c)
    decreases |s|
  {
    if |s| > 0 {
      var init := s[..|s| - 1];
      assert s == init + [s[|s| - 1]];
      if s[|s| - 1] == c {
        SplitEndsWithSeparator(init, c);
        var parts := Split(s, c);
        assert parts[..|parts| - 1] == Split(init, c);
        LastNonEmptyPiece(init, c);
      } else {
        SplitLastIsAfterLast(s, c);
        var r := AfterLast(s, c);
        assert r != "";
      }
    }
  }

  /** `s.StartsWith(p)` with ordinal comparison. */
  predicate StartsWith(s: string, p: string) {
    p <= s
  }

  /** `p` occurs in `s` starting at index `i`. */
  predicate OccursAt(s: string, p: string, i: int) {
    0 <= i && i + |p| <= |s| && s[i..i + |p|] == p
  }

  /** `s` contains `p` as a contiguous piece. */
  ghost predicate Contains(s: string, p: string) {
    exists i :: OccursAt(s, p, i)
  }

  /** `s.Replace(p, r)`: scans left to right and replaces non-overlapping occurrences. */
  function ReplaceAll(s: string, p: string, r: string): string
    requires |p| > 0
    decreases |s|
  {
    if |s| < |p| then s
    else if s[..|p|] == p then r + ReplaceAll(s[|p|..], p, r)
    else [s[0]] + ReplaceAll(s[1..], p, r)
  }

  /** Replacing a pattern that does not occur leaves the text unchanged. */
  lemma {:induction false} ReplaceAbsent(s: string, p: string, r: string)
    requires |p| > 0
    requires !Contains(s, p)
    ensures ReplaceAll(s, p, r) == s
    decreases |s|
  {
    if |s| >= |p| {
      assert !OccursAt(s, p, 0);
      assert !Contains(s[1..], p) by {
        if Contains(s[1..], p) {
          var i :| OccursAt(s[1..], p, i);
          assert s[1..][i..i + |p|] == s[i + 1..i + 1 + |p|];
          assert OccursAt(s, p, i + 1);
        }
      }
      ReplaceAbsent(s[1..], p, r);
    }
  }

  /** Replacing a single character is joining the pieces between its occurrences
      with the replacement. */
  lemma {:induction false} ReplaceCharIsJoinSplit(s: string, c: char, r: string)
    ensures ReplaceAll(s, [c], r) == Join(r, Split(s, c))
    decreases |s|
  {
    if |s| > 0 {
      ReplaceCharIsJoinSplit(s[1..], c, r);
      var rest := Split(s[1..], c);
      assert s[..1] == [s[0]];
      assert s[1..] == s[|[c]|..];
      if s[0] == c {
        JoinCons(r, "", rest);
      } else if |rest| > 1 {
        JoinCons(r, rest[0], rest[1..]);
        JoinCons(r, [s[0]] + rest[0], rest[1..]);
      }
    }
  }

  /** After replacing character `c` by a text without `c`, no `c` is left. */
  lemma {:induction false} ReplaceCharRemovesIt(s: string, c: char, r: string)
    requires c !in r
    ensures c !in ReplaceAll(s, [c], r)
    decreases |s|
  {
    if |s| > 0 {
      ReplaceCharRemovesIt(s[1..], c, r);
      assert s[..1] == [s[0]];
      assert s[1..] == s[|[c]|..];
    }
  }

  /** `s.TrimStart(c)`: drops every leading `c`. */
  function TrimStart(s: string, c: char): (r: string)
    ensures |r| <= |s| && r == s[|s| - |r|..]
    ensures |r| == 0 || r[0] != c
    ensures forall i :: 0 <= i < |s| - |r| ==> s[i] == c
    decreases |s|
  {
    if |s| > 0 && s[0] == c then TrimStart(s[1..], c) else s
  }

  predicate IsUpperAscii(ch: char) {
    'A' <= ch <= 'Z'
  }

  /** `char.ToLowerInvariant` restricted to ASCII. */
  function LowerAscii(ch: char): (r: char)
    ensures !IsUpperAscii(r)
    ensures !IsUpperAscii(ch) ==> r == ch
  {
    if IsUpperAscii(ch) then (ch as int - 'A' as int + 'a' as int) as char else ch
  }

  /** `string.ToLowerInvariant` restricted to ASCII. */
  function LowerString(s: string): (r: string)
    ensures |r| == |s|
    ensures forall i :: 0 <= i < |s| ==> r[i] == LowerAscii(s[i])
  {
    seq(|s|, i requires 0 <= i < |s| => LowerAscii(s[i]))
  }
}

=== FILE: tables.dfy ===
/** An Azure table as the code uses it: rows addressed by a (partition, row)
    key, at most one row per key. Rows are kept in the order they were
    added, and a query returns them in that order; the service itself orders
    rows by (partition, row) key (see "Left out" in the README). */
module Tables {
  import opened Wrappers
  import opened Errors

  datatype Key = Key(partition: string, row: string)

  datatype Row<R> = Row(key: Key, value: R)

  predicate UniqueKeys<R(==)>(rows: seq<Row<R>>) {
    forall i, j :: 0 <= i < j < |rows| ==> rows[i].key != rows[j].key
  }

  type Table<R> = t: seq<Row<R>> | UniqueKeys(t) witness []

  /** The row stored under `k` holds `v`. */
  predicate Holds<R(==)>(t: seq<Row<R>>, k: Key, v: R) {
    exists i :: 0 <= i < |t| && t[i] == Row(k, v)
  }

  /** `GetEntityAsync`: the value under `k`, if any. */
  function Get<R(==)>(t: seq<Row<R>>, k: Key): (r: Option<R>)
    ensures r.Some? ==> Holds(t, k, r.value)
    ensures r.None? <==> forall i :: 0 <= i < |t| ==> t[i].key != k
    decreases |t|
  {
    if |t| == 0 then None
    else if t[0].key == k then Some(t[0].value)
    else
      var r := Get(t[1..], k);
      assert r.Some? ==> t[1..][0..] == t[1..] && Holds(t, k, r.value) by {
        if r.Some? {
          var i :| 0 <= i < |t[1..]| && t[1..][i] == Row(k, r.value);
          assert t[i + 1] == Row(k, r.value);
        }
      }
      r
  }

  lemma {:induction false} GetAt<R>(t: Table<R>, k: Key, i: nat)
    requires i < |t| && t[i].key == k
    ensures Get(t, k) == Some(t[i].value)
    decreases i
  {
    if i > 0 {
      assert t[0].key != k;
      GetAt(t[1..], k, i - 1);
    }
  }

  /** `AddEntityAsync`: inserts, and fails with a conflict when the key is taken. */
  function Add<R(==)>(t: Table<R>, k: Key, v: R): (r: Outcome<Table<R>>)
    ensures r.Ok? <==> Get(t, k).None?
    ensures r.Err? ==> r.error == EntityConflict
    ensures r.Ok? ==> Get(r.value, k) == Some(v)
    ensures r.Ok? ==> forall other :: other != k ==> Get(r.value, other) == Get(t, other)
    ensures r.Ok? ==> Values(r.value) == Values(t) + [v]
  {
    if Get(t, k).Some? then Err(EntityConflict)
    else
      var t' := t + [Row(k, v)];
      GetAt(t', k, |t|);
      forall other | other != k
        ensures Get(t', other) == Get(t, other)
      {
        GetAppend(t, Row(k, v), other);
      }
      Ok(t')
  }

  lemma {:induction false} GetAppend<R>(t: seq<Row<R>>, row: Row<R>, k: Key)
    requires row.key != k
    ensures Get(t + [row], k) == Get(t, k)
    decreases |t|
  {
    if |t| > 0 {
      assert (t + [row])[1..] == t[1..] + [row];
      GetAppend(t[1..], row, k);
    }
  }

  /** A row whose key the table lacks can go in front of it. */
  lemma ConsFresh<R>(row: Row<R>, rest: Table<R>)
    requires Get(rest, row.key).None?
    ensures UniqueKeys([row] + rest)
  {
    var r := [row] + rest;
    forall i, j | 0 <= i < j < |r|
      ensures r[i].key != r[j].key
    {
      assert r[j] == rest[j - 1];
      if i > 0 {
        assert r[i] == rest[i - 1];
      }
    }
  }

  /** The rows without the one under `k`. */
  function Remove<R(==)>(t: Table<R>, k: Key): (r: Table<R>)
    ensures forall i :: 0 <= i < |r| ==> r[i].key != k
    ensures forall other :: other != k ==> Get(r, other) == Get(t, other)
    ensures |r| == if Get(t, k).Some? then |t| - 1 else |t|
    decreases |t|
  {
    if |t| == 0 then t
    else
      var rest := Remove(t[1..], k);
      if t[0].key == k then
        assert Get(t[1..], k).None?;
        rest
      else
        assert Get(t[1..], t[0].key).None?;
        ConsFresh(t[0], rest);
        var r := [t[0]] + rest;
        assert r[1..] == rest;
        r
  }

  /** `DeleteEntityAsync`: removes the row, and fails when there is none. */
  function Delete<R(==)>(t: Table<R>, k: Key): (r: Outcome<Table<R>>)
    ensures r.Ok? <==> Get(t, k).Some?
    ensures r.Err? ==> r.error == EntityNotFound
    ensures r.Ok? ==> Get(r.value, k).None?
    ensures r.Ok? ==> forall other :: other != k ==> Get(r.value, other) == Get(t, other)
    ensures r.Ok? ==> |r.value| == |t| - 1
  {
    if Get(t, k).None? then Err(EntityNotFound) else Ok(Remove(t, k))
  }

  /** Every row updated at once: row `j` takes value `vs[j]` and keeps its
      key and its place. */
  function WithValues<R(==)>(t: Table<R>, vs: seq<R>): (r: Table<R>)
    requires |vs| == |t|
    ensures |r| == |t| && forall j :: 0 <= j < |t| ==> r[j] == Row(t[j].key, vs[j])
  {
    var r := seq(|t|, j requires 0 <= j < |t| => Row(t[j].key, vs[j]));
    assert UniqueKeys(r);
    r
  }

  /** `UpdateEntityAsync` of a row read from the table: the row at position
      `i` takes the new value and keeps its key and its place. */
  function Replace<R(==)>(t: Table<R>, i: nat, v: R): (r: Table<R>)
    requires i < |t|
    ensures |r| == |t| && r[i] == Row(t[i].key, v)
    ensures forall j :: 0 <= j < |t| && j != i ==> r[j] == t[j]
    ensures Get(r, t[i].key) == Some(v)
    ensures forall other :: other != t[i].key ==> Get(r, other) == Get(t, other)
  {
    var r := t[i := Row(t[i].key, v)];
    assert forall j, k :: 0 <= j < k < |r| ==> r[j].key == t[j].key && r[k].key == t[k].key;
    assert UniqueKeys(r);
    GetAt(r, t[i].key, i);
    forall other | other != t[i].key
      ensures Get(r, other) == Get(t, other)
    {
      ReplaceKeepsGet(t, i, v, other);
    }
    r
  }

  lemma {:induction false} ReplaceKeepsGet<R>(t: seq<Row<R>>, i: nat, v: R, k: Key)
    requires i < |t| && t[i].key != k
    ensures Get(t[i := Row(t[i].key, v)], k) == Get(t, k)
    decreases |t|
  {
    if i > 0 {
      assert t[i := Row(t[i].key, v)][1..] == t[1..][i - 1 := Row(t[i].key, v)];
      ReplaceKeepsGet(t[1..], i - 1, v, k);
    }
  }

  /** Every stored value, in row order. */
  function Values<R(==)>(t: seq<Row<R>>): (r: seq<R>)
    ensures |r| == |t|
    ensures forall i :: 0 <= i < |t| ==> r[i] == t[i].value
  {
    seq(|t|, i requires 0 <= i < |t| => t[i].value)
  }

  /** One update of a stored row: its position in the table as read, and
      the new value. */
  datatype Update<R> = Update(at: nat, value: R)

  predicate InRange<R>(us: seq<Update<R>>, n: nat) {
    forall k :: 0 <= k < |us| ==> us[k].at < n
  }

  /** The updates applied with no check, each replacing its row in turn. */
  function Applied<R(==)>(t: Table<R>, us: seq<Update<R>>): (r: Table<R>)
    requires InRange(us, |t|)
    ensures |r| == |t|
    decreases |us|
  {
    if |us| == 0 then t else Applied(Replace(t, us[0].at, us[0].value), us[1..])
  }

  lemma {:induction false} AppliedAppend<R>(t: Table<R>, a: seq<Update<R>>, b: seq<Update<R>>)
    requires InRange(a, |t|) && InRange(b, |t|)
    ensures InRange(a + b, |t|)
    ensures Applied(t, a + b) == Applied(Applied(t, a), b)
    decreases |a|
  {
    if |a| > 0 {
      assert (a + b)[1..] == a[1..] + b;
      AppliedAppend(Replace(t, a[0].at, a[0].value), a[1..], b);
    } else {
      assert a + b == b;
    }
  }

  /** One more update changes only its own row's value. */
  lemma AppliedSnoc<R>(t: Table<R>, us: seq<Update<R>>, u: Update<R>)
    requires InRange(us, |t|) && u.at < |t|
    ensures InRange(us + [u], |t|)
    ensures forall j :: 0 <= j < |t| ==>
      (Applied(t, us + [u])[j] == if j == u.at then Row(Applied(t, us)[j].key, u.value) else Applied(t, us)[j])
  {
    AppliedAppend(t, us, [u]);
    assert Applied(Applied(t, us), [u]) == Replace(Applied(t, us), u.at, u.value);
  }

  /** A run of updates against the service: the table and the rows' ETags
      afterwards, and how many updates went through before the first
      failure. */
  datatype Updated<R> = Updated(table: Table<R>, etags: seq<nat>, done: nat)

  /** `UpdateEntityAsync(entity, ifMatch, ...)` for each update in turn, as
      the table service checks it: every row carries an ETag that changes on
      each successful update, and an update whose `ifMatch` is not the row's
      current ETag fails with 412 Precondition Failed, which ends the run.
      ETags are modelled as counters. `known` is the ETag the caller holds
      for each row: with `refresh` the caller takes the new ETag from each
      response, without it the caller keeps passing the one it read. The
      result is the ETags afterwards and the number of updates that went
      through. */
  function CheckedRun<R>(etags: seq<nat>, known: seq<nat>, refresh: bool, us: seq<Update<R>>): (r: (seq<nat>, nat))
    requires |known| == |etags| && InRange(us, |etags|)
    ensures |r.0| == |etags| && r.1 <= |us|
    ensures |us| > 0 && etags[us[0].at] != known[us[0].at] ==> r.1 == 0
    decreases |us|
  {
    if |us| == 0 then (etags, 0)
    else
      var i := us[0].at;
      if etags[i] != known[i] then (etags, 0)
      else
        var e := etags[i] + 1;
        var r := CheckedRun(etags[i := e], if refresh then known[i := e] else known, refresh, us[1..]);
        (r.0, r.1 + 1)
  }

  /** The checked updates applied to a table: the updates before the first
      412 take effect, in order, and none after it. */
  function CheckedUpdates<R(==)>(t: Table<R>, etags: seq<nat>, known: seq<nat>, refresh: bool, us: seq<Update<R>>)
    : (r: Updated<R>)
    requires |etags| == |t| && |known| == |t| && InRange(us, |t|)
    ensures |r.table| == |t| && |r.etags| == |t| && r.done <= |us|
    ensures |us| > 0 && etags[us[0].at] != known[us[0].at] ==> r.done == 0 && r.table == t
  {
    var run := CheckedRun(etags, known, refresh, us);
    Updated(Applied(t, us[..run.1]), run.0, run.1)
  }

  /** A caller that starts from the current ETags and takes the new ETag
      from every response never meets a 412: every update goes through, and
      the table is the one the unchecked updates give. */
  lemma RefreshedUpdatesApply<R>(t: Table<R>, etags: seq<nat>, us: seq<Update<R>>)
    requires |etags| == |t| && InRange(us, |t|)
    ensures CheckedUpdates(t, etags, etags, true, us).done == |us|
    ensures CheckedUpdates(t, etags, etags, true, us).table == Applied(t, us)
  {
    RefreshedRunAll(etags, us);
    assert us[..|us|] == us;
  }

  /** With refreshed ETags every update of the run goes through. */
  lemma {:induction false} RefreshedRunAll<R>(etags: seq<nat>, us: seq<Update<R>>)
    requires InRange(us, |etags|)
    ensures CheckedRun(etags, etags, true, us).1 == |us|
    decreases |us|
  {
    if |us| > 0 {
      var i := us[0].at;
      RefreshedRunAll(etags[i := etags[i] + 1], us[1..]);
    }
  }

  /** The position of the first update whose row is in `seen` or was
      written by an earlier update. */
  function FirstRepeat<R>(seen: set<nat>, us: seq<Update<R>>): (k: nat)
    ensures k <= |us|
    decreases |us|
  {
    if |us| == 0 then 0
    else if us[0].at in seen then 0
    else 1 + FirstRepeat(seen + {us[0].at}, us[1..])
  }

  /** A caller that keeps passing the ETags it read gets through exactly the
      updates before the first second write to a row. */
  lemma StaleUpdatesStopAtRepeat<R>(t: Table<R>, etags: seq<nat>, us: seq<Update<R>>)
    requires |etags| == |t| && InRange(us, |t|)
    ensures CheckedUpdates(t, etags, etags, false, us).done == FirstRepeat({}, us)
  {
    StaleUpdatesStop(etags, etags, {}, us);
  }

  /** The rows whose current ETag differs from the one read are exactly
      those in `seen`. */
  predicate StaleExactly(etags: seq<nat>, loaded: seq<nat>, seen: set<nat>) {
    |etags| == |loaded| && forall i :: 0 <= i < |etags| ==> (etags[i] == loaded[i] <==> i !in seen)
  }

  /** Writing a row not yet written makes it stale. */
  lemma StaleExactlyStep(etags: seq<nat>, loaded: seq<nat>, seen: set<nat>, i: nat)
    requires StaleExactly(etags, loaded, seen) && i < |etags| && i !in seen
    ensures etags[i] == loaded[i]
    ensures StaleExactly(etags[i := etags[i] + 1], loaded, seen + {i})
  {
  }

  /** The ETag of a row differs from the one read exactly when the row has
      been written; the updates then stop at the first write to such a row. */
  lemma {:induction false} StaleUpdatesStop<R>(etags: seq<nat>, loaded: seq<nat>, seen: set<nat>, us: seq<Update<R>>)
    requires InRange(us, |etags|) && StaleExactly(etags, loaded, seen)
    ensures CheckedRun(etags, loaded, false, us).1 == FirstRepeat(seen, us)
    decreases |us|
  {
    if |us| > 0 {
      var i := us[0].at;
      if i in seen {
        assert etags[i] != loaded[i];
      } else {
        StaleExactlyStep(etags, loaded, seen, i);
        StaleUpdatesStop(etags[i := etags[i] + 1], loaded, seen + {i}, us[1..]);
      }
    }
  }

  /** An update to a row in `seen` stops the run there at the latest. */
  lemma {:induction false} FirstRepeatSeen<R>(seen: set<nat>, us: seq<Update<R>>, q: nat)
    requires q < |us| && us[q].at in seen
    ensures FirstRepeat(seen, us) <= q
    decreases q
  {
    if q > 0 && us[0].at !in seen {
      FirstRepeatSeen(seen + {us[0].at}, us[1..], q - 1);
    }
  }

  /** A second update to the same row stops the run there at the latest. */
  lemma {:induction false} FirstRepeatAtMost<R>(seen: set<nat>, us: seq<Update<R>>, p: nat, q: nat)
    requires p < q < |us| && us[p].at == us[q].at
    ensures FirstRepeat(seen, us) <= q
    decreases p
  {
    if us[0].at !in seen {
      if p == 0 {
        FirstRepeatSeen(seen + {us[0].at}, us[1..], q - 1);
      } else {
        FirstRepeatAtMost(seen + {us[0].at}, us[1..], p - 1, q - 1);
      }
    }
  }

  /** Updates to distinct rows outside `seen` all go through. */
  lemma {:induction false} FirstRepeatAtLeast<R>(seen: set<nat>, us: seq<Update<R>>, m: nat)
    requires m <= |us|
    requires forall k :: 0 <= k < m ==> us[k].at !in seen
    requires forall j, k :: 0 <= j < k < m ==> us[j].at != us[k].at
    ensures FirstRepeat(seen, us) >= m
    decreases m
  {
    if m > 0 {
      FirstRepeatAtLeast(seen + {us[0].at}, us[1..], m - 1);
    }
  }

  /** A caller passing the ETags it read, with a batch of updates to
      distinct rows followed by a second batch that writes one of those rows
      again: the first batch goes through, and the run stops in the second. */
  lemma StaleStopsInSecondBatch<R>(t: Table<R>, etags: seq<nat>, first: seq<Update<R>>, second: seq<Update<R>>,
                                   p: nat, q: nat)
    requires |etags| == |t| && InRange(first, |t|) && InRange(second, |t|)
    requires forall k, l :: 0 <= k < l < |first| ==> first[k].at != first[l].at
    requires p < |first| && q < |second| && first[p].at == second[q].at
    ensures InRange(first + second, |t|)
    ensures |first| <= CheckedUpdates(t, etags, etags, false, first + second).done < |first| + |second|
  {
    var us := first + second;
    assert us[p].at == us[|first| + q].at;
    FirstRepeatAtMost({}, us, p, |first| + q);
    FirstRepeatAtLeast({}, us, |first|);
    StaleUpdatesStopAtRepeat(t, etags, us);
  }
}

=== FILE: uris.dfy ===
/** A simplified `System.Uri`, covering what the code uses: parsing an absolute
    `scheme://host[:port]/path?query#fragment` string, `Host`, `AbsolutePath`,
    `GetLeftPart(UriPartial.Authority)` and `ToString()`. User information, IPv6
    literals, percent-escaping, port ranges and default-port elision are not
    modelled. */
module Uris {
  import opened Wrappers
  import opened Strings

  /** A parsed absolute URI. `query` keeps its leading `?` and `fragment` its `#`. */
  datatype Uri = Uri(scheme: string, host: string, port: Option<string>, path: string, query: string, fragment: string)

  predicate IsLetter(ch: char) {
    'a' <= ch <= 'z' || 'A' <= ch <= 'Z'
  }

  predicate IsDigit(ch: char) {
    '0' <= ch <= '9'
  }

  predicate ValidScheme(s: string) {
    |s| > 0 && IsLetter(s[0])
    && forall i :: 0 <= i < |s| ==> IsLetter(s[i]) || IsDigit(s[i]) || s[i] in "+-."
  }

  predicate AllDigits(s: string) {
    forall i :: 0 <= i < |s| ==> IsDigit(s[i])
  }

  /** Index of the first character of `s` in `stop`, or `|s|` when there is none. */
  function FindFirst(s: string, stop: set<char>): (k: nat)
    ensures k <= |s|
    ensures forall i :: 0 <= i < k ==> s[i] !in stop
    ensures k < |s| ==> s[k] in stop
    decreases |s|
  {
    if |s| == 0 || s[0] in stop then 0 else 1 + FindFirst(s[1..], stop)
  }

  /** The index described by `FindFirst`'s contract is unique. */
  lemma FindFirstIs(s: string, stop: set<char>, k: nat)
    requires k <= |s|
    requires forall i :: 0 <= i < k ==> s[i] !in stop
    requires k < |s| ==> s[k] in stop
    ensures FindFirst(s, stop) == k
  {
  }

  /** `new Uri(s)` for an absolute URI with a plain `host[:port]` authority; None
      for a string without `scheme://`, an empty host, user information or a
      non-numeric port. Scheme and host are lower-cased in ASCII. */
  function Parse(s: string): (r: Option<Uri>)
    ensures r.Some? ==> |r.value.host| > 0 && '/' !in r.value.host && ':' !in r.value.host
    ensures r.Some? ==> r.value.path == "" || r.value.path[0] == '/'
  {
    var i := FindFirst(s, {':'});
    if i == |s| then None
    else
      var scheme := s[..i];
      var rest := s[i + 1..];
      if !ValidScheme(scheme) || !StartsWith(rest, "//") then None
      else ParseAfterScheme(LowerString(scheme), rest[2..])
  }

  /** The authority, path, query and fragment that follow `scheme://`. */
  function ParseAfterScheme(scheme: string, rest: string): (r: Option<Uri>)
    ensures r.Some? ==> r.value.scheme == scheme
    ensures r.Some? ==> |r.value.host| > 0 && '/' !in r.value.host && ':' !in r.value.host
    ensures r.Some? ==> r.value.path == "" || r.value.path[0] == '/'
  {
    var j := FindFirst(rest, {'/', '?', '#'});
    var tail := rest[j..];
    match SplitAuthority(rest[..j])
    case None => None
    case Some(hp) =>
      var p := FindFirst(tail, {'?', '#'});
      var afterPath := tail[p..];
      var q := FindFirst(afterPath, {'#'});
      Some(Uri(scheme, hp.0, hp.1, tail[..p], afterPath[..q], afterPath[q..]))
  }

  /** Host (lower-cased) and optional port of an authority; user information is
      not supported. */
  function SplitAuthority(authority: string): (r: Option<(string, Option<string>)>)
    ensures r.Some? ==> |r.value.0| > 0 && ':' !in r.value.0
    ensures r.Some? && '/' !in authority ==> '/' !in r.value.0
  {
    var k := FindFirst(authority, {':'});
    var host := authority[..k];
    var port := if k == |authority| then None else Some(authority[k + 1..]);
    if |host| == 0 || '@' in authority || (port.Some? && (port.value == "" || !AllDigits(port.value))) then None
    else
      LowerKeeps(host, ':');
      LowerKeeps(host, '/');
      Some((LowerString(host), port))
  }

  /** Lower-casing never produces a character that is not a lower-case letter
      unless it was already there. */
  lemma LowerKeeps(s: string, ch: char)
    requires !('a' <= ch <= 'z')
    ensures ch !in s ==> ch !in LowerString(s)
  {
  }

  /** `Uri.AbsolutePath`: the path, or `/` when the URI has none. */
  function AbsolutePath(u: Uri): (r: string)
    ensures |r| > 0
  {
    if u.path == "" then "/" else u.path
  }

  /** `Uri.GetLeftPart(UriPartial.Authority)`: scheme, `://` and authority. */
  function LeftPartAuthority(u: Uri): string {
    u.scheme + "://" + u.host + (if u.port.Some? then ":" + u.port.value else "")
  }

  /** `Uri.ToString()`: the canonical text of the URI. */
  function Canonical(u: Uri): string {
    LeftPartAuthority(u) + AbsolutePath(u) + u.query + u.fragment
  }

  predicate IsHostChar(ch: char) {
    'a' <= ch <= 'z' || IsDigit(ch) || ch == '.' || ch == '-'
  }

  /** A plain lower-case `scheme://host/path` parses into exactly its parts. */
  lemma {:induction false} ParsePlain(scheme: string, host: string, path: string)
    requires ValidScheme(scheme) && forall i :: 0 <= i < |scheme| ==> !IsUpperAscii(scheme[i])
    requires |host| > 0 && forall i :: 0 <= i < |host| ==> IsHostChar(host[i])
    requires path == "" || path[0] == '/'
    requires '?' !in path && '#' !in path
    ensures Parse(scheme + "://" + host + path) == Some(Uri(scheme, host, None, path, "", ""))
  {
    SchemeThenAuthority(scheme, host + path);
    Regroup(scheme + "://", host, path);
    LowerIdentity(scheme);
    ParsePlainAfterScheme(scheme, host, path);
  }

  /** A valid scheme ends at the first colon, and `//` opens the authority. */
  lemma SchemeThenAuthority(scheme: string, after: string)
    requires ValidScheme(scheme)
    ensures Parse(scheme + "://" + after) == ParseAfterScheme(LowerString(scheme), after)
  {
    var rest := "//" + after;
    ParseScheme(scheme, rest);
    ColonSlashes();
    Regroup4(scheme, ":", "//", after);
    assert StartsWith(rest, "//");
    assert rest[2..] == after;
  }

  lemma ColonSlashes()
    ensures "://" == ":" + "//"
  {
  }

  lemma Regroup(a: string, b: string, c: string)
    ensures a + b + c == a + (b + c)
  {
  }

  lemma Regroup4(a: string, b: string, c: string, d: string)
    ensures a + (b + c) + d == a + b + (c + d)
  {
  }

  lemma ParseScheme(scheme: string, rest: string)
    requires ValidScheme(scheme)
    ensures Parse(scheme + ":" + rest)
      == if StartsWith(rest, "//") then ParseAfterScheme(LowerString(scheme), rest[2..]) else None
  {
    var s := scheme + ":" + rest;
    assert forall i :: 0 <= i < |scheme| ==> s[i] == scheme[i];
    assert s[|scheme|] == ':';
    FindFirstIs(s, {':'}, |scheme|);
    assert s[..|scheme|] == scheme;
    assert s[|scheme| + 1..] == rest;
  }

  lemma ParsePlainAfterScheme(scheme: string, host: string, path: string)
    requires |host| > 0 && forall i :: 0 <= i < |host| ==> IsHostChar(host[i])
    requires path == "" || path[0] == '/'
    requires '?' !in path && '#' !in path
    ensures ParseAfterScheme(scheme, host + path) == Some(Uri(scheme, host, None, path, "", ""))
  {
    var after := host + path;
    FindFirstIs(after, {'/', '?', '#'}, |host|);
    assert after[..|host|] == host;
    assert after[|host|..] == path;
    PlainAuthority(host);
    PlainPath(path);
    assert path[..|path|] == path;
    assert path[|path|..] == "";
  }

  /** A lower-case host without a port is its own authority. */
  lemma PlainAuthority(host: string)
    requires |host| > 0 && forall i :: 0 <= i < |host| ==> IsHostChar(host[i])
    ensures SplitAuthority(host) == Some((host, None))
  {
    FindFirstIs(host, {':'}, |host|);
    assert host[..|host|] == host;
    LowerIdentity(host);
  }

  /** A path without `?` or `#` leaves no query and no fragment. */
  lemma PlainPath(path: string)
    requires '?' !in path && '#' !in path
    ensures FindFirst(path, {'?', '#'}) == |path|
    ensures FindFirst(path[|path|..], {'#'}) == 0
  {
    FindFirstIs(path, {'?', '#'}, |path|);
    assert path[|path|..] == "";
    FindFirstIs("", {'#'}, 0);
  }

  lemma LowerIdentity(s: string)
    requires forall i :: 0 <= i < |s| ==> !IsUpperAscii(s[i])
    ensures LowerString(s) == s
  {
  }
}

=== FILE: wrappers.dfy ===
/** Option and Result datatypes used throughout the model, plus the one error
    vocabulary that stands for the exceptions the modelled C# code can raise. */
module Wrappers {

  /** A value that may be missing: the model's rendering of a nullable reference. */
  datatype Option<+T> = None | Some(value: T) {

    /** The value, or `default` when missing (the C# `??` operator). */
    function GetOr(default: T): T {
      match this
      case Some(v) => v
      case None => default
    }
  }

  /** Either a value or an error; `:-` propagates the error. */
  datatype Result<+T, +E> = Ok(value: T) | Err(error: E) {

    predicate IsFailure() {
      Err?
    }

    function PropagateFailure<U>(): Result<U, E>
      requires Err?
    {
      Err(error)
    }

    function Extract(): T
      requires Ok?
    {
      value
    }
  }

  /** Interpolating a null string in C# yields the empty string. */
  function OrEmpty(s: Option<string>): string {
    s.GetOr("")
  }

  /** `string.IsNullOrEmpty`. */
  predicate IsNullOrEmpty(s: Option<string>) {
    s.None? || s.value == ""
  }
}

/** The exceptions of the modelled code, as values. */
module Errors {
  import opened Wrappers

  datatype Error =
    | NullReference                 // NullReferenceException or ArgumentNullException on a missing value
    | UriFormat(text: string)       // `new Uri(text)` rejected its argument
    | KeyImport                     // the PEM key could not be imported or could not sign
    | Network(target: string)       // the transport raised before any status was received
    | HttpStatus(code: int)         // `EnsureSuccessStatusCode` on a non-2xx status
    | JsonInvalid                   // a JSON document did not deserialize into the expected shape
    | NotImplemented(what: string)  // `NotImplementedException`
    | EntityConflict                // table insert of an existing (partition, row) key
    | EntityNotFound                // table read or delete of a missing key
    | TableNotFound(name: string)   // query against a table that was never created
    | IndexOutOfRange               // array index past the end

  type Outcome<T> = Result<T, Error>
}
